=== FILE: README.md ===
# powerstrike shorthand pipeline and renderer, in Dafny

powerstrike describes a training programme as declared exercises, templates of
sessions and a schedule of blocks. Each slot of a session gives its weight,
sets, reps and RPE. It does so either explicitly, one statement per field, or
as a shorthand string such as `225:3:5@8`, whose fields are small arithmetic
expressions over named values.

This project models that pipeline as pure functions over immutable
datatypes:

- `Lexer` (`lexer.dfy`): the tokenizer's scan. Its states are unidentified,
  numeric, identifier and whitespace. A flush reconsiders the current
  character.
- `Parser` (`parser.dfy`): the recursive-descent parser over a token queue.
  This includes `advance`/`peek`, `parseTerm`, `parseExpression`,
  `parseDeclaration` and `parse`.
- `Evaluator` (`evaluate.dfy`): linking a list of `(name, value)` bindings
  into a table, and walking a tree against it.
- `Shorthand` (`shorthand.dfy`): the resolver. It splits `weight:sets:reps@rpe`,
  takes the fields in the configured order, runs each field through lex,
  parse and evaluate, then checks the result in `value()`.
- `Renderer` (`renderer.dfy`): building the identifier scope from the
  declared exercises' properties and a block's inputs, then rendering every
  block, session and exercise.
- `Errors` and `Numbers`: the error kinds and JavaScript's array indexing, and JavaScript numbers as reals
  plus the two infinities and NaN, with `Number()` of a token text.

The companion modules `LexerProofs`, `LexerExamples`, `ParserProofs`,
`ParserExamples`, `EvaluateProofs`, `ShorthandProofs` and `RendererProofs`
state what these functions compute without their loops. Examples:

- The tokens spell the input back.
- `parse` agrees with a queue-free reference description.
- A link fails exactly on a truthy duplicate.
- Splitting and joining on a separator are inverse.
- The rendered programme keeps the programme's structure.

Thrown exceptions become `Err(kind)` of a `Result`. The kinds are the source's
error classes plus `HostTypeError`. `HostTypeError` stands for the JavaScript
`TypeError` the code raises when it reads a property of `undefined`. This
happens in two places:

- `parseTerm` after a trailing operator: it builds a parsing error but does
  not throw it, then reads the kind of the missing token.
- `lex` called on a missing `:` field.

## Where the code and its documented grammar differ

The model follows the code. Where the grammar comments and tests describe
something else, the differences are these:

- **No grouping.** `parseDeclaration`'s `(` branch does not parse a group. The
  `(` itself becomes the first operand, a literal whose value is NaN. The `)`
  check afterwards rejects exactly when the last token consumed IS `)`
  (`ParserExamples.OpenParenIsOperand`, `ParserExamples.CloseParenRejected`).
- **No unary minus.** The parser builds no unary node. A leading operator is
  a parsing error. The evaluator still negates a unary `-` node if one is
  handed to it.
- **`*` and `/` nest to the right.** `a/b*c` is `a/(b*c)`, so `8/4*2` is 1,
  not 4 (`ParserExamples.DivisionThenProduct`). `+` and `-` fold to the left
  over those terms.
- **Trailing tokens are ignored.** After the last operand that is not followed
  by an operator, the remaining tokens are never examined.
- **A trailing operator is a `TypeError`,** not a parsing error.
- **Truthiness, not presence.** The duplicate check and the undefined-variable
  check both test truthiness. A name bound to 0 or NaN counts as absent and
  may be bound again.
- **Input/property collisions are errors.** The scope is the exercise
  properties followed by the block inputs. An input that reuses the name of
  a truthy property is therefore a duplicate, and the first expression
  evaluated with that scope fails (`RendererProofs.InputShadowingPropertyFails`).
  "Last write wins" holds only when the earlier value is falsy.
- **Qualified names do not lex as one identifier.** The lexer does not allow
  `.` inside an identifier, so `a.b` (`squat.starting_weight`, say) lexes as
  the identifier `a`, a numeric `.` and the identifier `b`
  (`LexerExamples.QualifiedNameSplits`). The `<exercise>.<property>` names the
  renderer puts into the scope cannot be referred to from an expression.
- **The identifier range `A-z` is wider than it looks.** The identifier
  continuation class includes the characters between `Z` and `a`:
  `[ \ ] ^ _` and the backquote.
- **A missing `:` field is a `TypeError`.** An empty field is a user-code
  error ("incomplete shorthand expression").
- **The renderer imports `./shorthand`,** which resolves to the unfinished
  draft `core/lang/internal/shorthand.ts`. That file exports neither `resolve`
  nor `resolveExpression`. The model assumes the intended target:
  - `resolve` is the resolver of `shorthand/index.ts`;
  - `resolveExpression` is the same lex–parse–evaluate chain as the
    resolver's `weight` step.
- **The renderer's types follow `renderer.ts`, not `program.ts`.** `program.ts`
  declares no alias and no properties on a declared exercise and no shorthand
  statement kind, and types the block inputs as a list of records. The model
  takes the shape the renderer reads: exercises with an alias and properties,
  a shorthand statement kind, and property values that are numbers, read where
  `renderer.ts` takes `v.value`.
- **The `evaluated` statement kind** that `program.ts` declares is not handled
  by `renderStatement`. It is rendered as the implementation error.

## Model

| member | source | states |
|---|---|---|
| `Numbers.NumberOf` | core/lang/internal/shorthand/parser.ts:112-117 | a token text reads as a finite number exactly when it is digits with at most one `.` and at least one digit; otherwise it reads as NaN; finite values are never negative |
| `Numbers.NumberOfDecimal` | core/lang/internal/shorthand/parser.ts:112-117 | the text `a.b`, with `a` and `b` digit strings not both empty, reads as the integer `a` plus `b` divided by ten to the number of digits of `b` |
| `Lexer.Lex` | core/lang/internal/shorthand/lexer.ts:192-204 | the empty programme gives no tokens; the only way lexing fails is an invalid-token error |
| `Lexer.Consume` | core/lang/internal/shorthand/lexer.ts:42-190 | the scan only ever appends tokens: on success the tokens produced before the current position are kept, in front and unchanged |
| `Lexer.ConsumeFailsOnlyWithInvalidToken` | core/lang/internal/shorthand/lexer.ts:42-190 | from any state and position of the scan, every failure is an invalid-token error |
| `LexerProofs.LexSound` | core/lang/internal/shorthand/lexer.ts:63-186 | on success every token has the shape of its kind (identifier start then continuation characters; digits and dots with at most one dot; one delimiter or operator character; whitespace as `" "`), no token could have absorbed the first character of the next, and the token texts concatenated give the input with each whitespace run replaced by one space |
| `LexerProofs.LexRejectsForeign` | core/lang/internal/shorthand/lexer.ts:69-100 | a character that no state accepts, anywhere in the input, makes lexing fail with an invalid-token error |
| `LexerProofs.LexRejectsDotRun` | core/lang/internal/shorthand/lexer.ts:103-126 | a run of digits and dots that starts and ends with `.` (a numeric with two dots) makes lexing fail with an invalid-token error |
| `LexerProofs.LexRejectsStray` | core/lang/internal/shorthand/lexer.ts:69-100 | a character that continues identifiers but cannot start a token (`[ \ ] ^` or the backquote), where no identifier is being read, makes lexing fail with an invalid-token error: `[` and `1[` fail although `a[` lexes |
| `LexerProofs.LexAcceptsTokenizable` | core/lang/internal/shorthand/lexer.ts:63-186 | when every character either can start a token or continues an identifier being read, and no run of digits and dots holds two dots, lexing succeeds |
| `LexerProofs.LexOkIffTokenizable` | core/lang/internal/shorthand/lexer.ts:63-190 | lexing succeeds exactly on those inputs; on every other input it fails, and always with an invalid-token error |
| `LexerExamples.WhitespaceRunIsOneToken` | core/lang/internal/shorthand/lexer.ts:163-174 | three spaces give one whitespace token `" "` |
| `LexerExamples.NumericsWithOneDot` | core/lang/internal/shorthand/lexer.ts:103-133 | `1 0.1 .1` gives three numerics separated by whitespace tokens |
| `LexerExamples.HyphenContinuesIdentifier` | core/lang/internal/shorthand/lexer.ts:135-161 | `Hello_world-` is a single identifier |
| `LexerExamples.DelimitersOnePerCharacter` | core/lang/internal/shorthand/lexer.ts:82-89 | `()` gives two delimiter tokens |
| `LexerExamples.SingleCharRun` | core/lang/internal/shorthand/lexer.ts:82-97 | from any point of the scan, a run of delimiter and operator characters to the end of the input gives one token per character, in order |
| `LexerExamples.OperatorsOnePerCharacter` | core/lang/internal/shorthand/lexer.ts:90-97 | `+-/*@` gives five operator tokens in input order |
| `LexerExamples.QualifiedNameSplits` | core/lang/internal/shorthand/lexer.ts:103-160 | for any two identifier texts `a` and `b`, `a.b` lexes as the identifier `a`, a numeric `.` and the identifier `b` |
| `LexerExamples.SecondDotRejected` | core/lang/internal/shorthand/lexer.ts:114-119 | `1.1.1` is an invalid token |
| `LexerExamples.PercentRejected` | core/lang/internal/shorthand/lexer.ts:98-100 | `%` is an invalid token |
| `Parser.Advance` | core/lang/internal/shorthand/parser.ts:59-72 | `advance(n)` succeeds exactly when `1 <= n <=` the queue length, returning the n-th item and the rest; otherwise it is the implementation error |
| `Errors.At` | core/lang/internal/shorthand/parser.ts:74-84 | JavaScript's `arr[n]`, as `peek(n)` reads it and as the destructuring of the `:` fields at index.ts:105-110 reads it: an item exactly when the array holds more than `n` items, and then the n-th item; otherwise `undefined` |
| `Parser.Operand` | core/lang/internal/shorthand/parser.ts:100-118 | an identifier token becomes an identifier node whose raw text and reference are its text; any other token becomes a literal with its raw text, finite exactly when the text is a decimal |
| `Parser.RemoveWhitespace` | core/lang/internal/shorthand/parser.ts:240 | no whitespace token survives the filter; the result is empty exactly when every token is whitespace; its first token is the first non-whitespace token |
| `Parser.Parse` | core/lang/internal/shorthand/parser.ts:236-250 | `parse` gives no tree exactly when every token is whitespace; a tree implies a non-whitespace token |
| `Parser.ParseTerm` | core/lang/internal/shorthand/parser.ts:90-149 | on success the queue left behind is a non-empty suffix of the one given, still holding the last operand read; the tree itself is stated by `ParserProofs.ParseTermSpec` |
| `Parser.ParseExpression` | core/lang/internal/shorthand/parser.ts:152-197 | on success the queue left behind is a non-empty suffix of the one given; the tree is stated by `ParserProofs.ParseExpressionSpec` |
| `Parser.ParseDeclaration` | core/lang/internal/shorthand/parser.ts:200-233 | an empty queue is the host error; a first token other than `(`, a number or an identifier is a parsing error; a declaration that parses starts with one of those three |
| `ParserProofs.Split` | core/lang/internal/shorthand/parser.ts:120-192 | the alternation the two loops read: one more operand than operators, its first operand from the first token, ending where no arithmetic operator follows; its only failure is the host error |
| `ParserProofs.SplitReadsAlternation` | core/lang/internal/shorthand/parser.ts:128-136 | the k-th operator is the token at position 2k+1 and is arithmetic; the k-th operand is built from the token at position 2k |
| `ParserProofs.SplitFailsIffTrailingOperator` | core/lang/internal/shorthand/parser.ts:94-101 | reading fails exactly when the tokens alternate operand and arithmetic operator all the way and end on an operator |
| `ParserProofs.ParseTermSpec` | core/lang/internal/shorthand/parser.ts:90-149 | `parseTerm` returns the right-nested chain of the `*`/`/` alternation and leaves the queue at its last operand; it fails with the host error exactly when that alternation ends on an operator |
| `ParserProofs.TreeAppend` | core/lang/internal/shorthand/parser.ts:176-187 | appending `+`/`-` and a `*`/`/` chain makes the tree so far the left operand: additive operators associate to the left |
| `ParserProofs.ParseExpressionSpec` | core/lang/internal/shorthand/parser.ts:152-197 | `parseExpression` returns the tree of the whole alternation (additive fold over right-nested terms) and the queue at its last operand, or the host error |
| `ParserProofs.ParseIsReference` | core/lang/internal/shorthand/parser.ts:200-250 | `parse` equals a queue-free reference: filter whitespace; nothing left gives no tree; a first token other than `(`, a number or an identifier is a parsing error; after a leading `(` whose last consumed token is `)` a parsing error; otherwise the tree of the alternation |
| `ParserProofs.ParseOfAlternation` | core/lang/internal/shorthand/parser.ts:222-231 | a whitespace-free declaration that starts with a number or identifier parses to the tree of its alternation |
| `ParserExamples.LoneOperand` | core/lang/internal/shorthand/parser.ts:101-124 | a lone number parses to a literal with its text and `Number` value; a lone identifier to an identifier with raw text and reference its text |
| `ParserExamples.PrecedenceAndAssociativity` | core/lang/internal/shorthand/parser.ts:164-192 | `a + b * c - d / e` parses to `(a + (b * c)) - (d / e)` |
| `ParserExamples.MultiplicativeChainNestsRight` | core/lang/internal/shorthand/parser.ts:128-139 | for any two of `*` and `/`, `a m1 b m2 c` parses to `a m1 (b m2 c)`: `a / b * c` is `a / (b * c)` |
| `ParserExamples.DivisionThenProduct` | core/lang/internal/shorthand/parser.ts:128-139 | `8 / 4 * 2` parses to `8 / (4 * 2)` and evaluates to 1 |
| `ParserExamples.RemoveWhitespaceAppend` | core/lang/internal/shorthand/parser.ts:240 | the whitespace filter distributes over concatenation |
| `ParserExamples.BlankHasNoTree` | core/lang/internal/shorthand/parser.ts:240-244 | no tokens, or only whitespace, give no tree rather than an error |
| `ParserExamples.TrailingOperatorIsHostError` | core/lang/internal/shorthand/parser.ts:94-101 | `a +` fails with the host's error, not a parsing error |
| `ParserExamples.LeadingOperatorRejected` | core/lang/internal/shorthand/parser.ts:222-233 | a declaration whose first token is an operator is a parsing error |
| `ParserExamples.TrailingTokensIgnored` | core/lang/internal/shorthand/parser.ts:120-124 | `a b *` parses to `a`; the rest is never examined |
| `ParserExamples.OpenParenIsOperand` | core/lang/internal/shorthand/parser.ts:211-220 | a leading `(` not followed by an operator is the whole declaration: the literal `(` with value NaN, whatever follows |
| `ParserExamples.CloseParenRejected` | core/lang/internal/shorthand/parser.ts:215-218 | `( op )`, with the `)` ending the alternation, is a parsing error, because the last operand consumed is `)` |
| `Evaluator.Link` | core/lang/internal/shorthand/evaluate.ts:7-30 | linking fails only with a user-code error; on success the table's keys are exactly the bound names |
| `Evaluator.Apply` | core/lang/internal/shorthand/evaluate.ts:56-90 | a NaN operand gives NaN; for finite operands `+`, `-` and `*` give the exact sum, difference and product, and `/` by a non-zero divisor the exact quotient |
| `Evaluator.Walk` | core/lang/internal/shorthand/evaluate.ts:32-116 | a literal walks to its value; an identifier succeeds exactly when its name is bound to a truthy value, and gives that value; every failure is a user-code or implementation error |
| `Evaluator.Evaluate` | core/lang/internal/shorthand/evaluate.ts:118-128 | a failed link is a user-code error before any walking; otherwise the result is the walk over the linked table |
| `EvaluateProofs.LinkFailsIffDuplicate` | core/lang/internal/shorthand/evaluate.ts:16-24 | linking fails exactly when some name is bound twice with the earlier value truthy |
| `EvaluateProofs.LinkLastWins` | core/lang/internal/shorthand/evaluate.ts:16-27 | after a successful link each name maps to the value of its last binding |
| `EvaluateProofs.BoundIffSomeTruthy` | core/lang/internal/shorthand/evaluate.ts:16-27 | without duplicates, a name is usable exactly when one of its bindings is truthy |
| `EvaluateProofs.DuplicateFailsEvaluation` | core/lang/internal/shorthand/evaluate.ts:118-124 | a duplicate fails evaluation with a user-code error whatever the tree |
| `EvaluateProofs.WalkIsLocal` | core/lang/internal/shorthand/evaluate.ts:32-116 | two tables that agree on the names the tree mentions give the same walk |
| `EvaluateProofs.WalkArithmetic` | core/lang/internal/shorthand/evaluate.ts:55-113 | a tree of literals, identifiers and `+ - * /` walks successfully exactly when every name it mentions is bound to a truthy value; otherwise with a user-code error |
| `EvaluateProofs.WalkIsExact` | core/lang/internal/shorthand/evaluate.ts:55-100 | when every value is finite and no divisor is zero, the walk computes the exact real arithmetic of the tree |
| `EvaluateProofs.WalkOperators` | core/lang/internal/shorthand/evaluate.ts:44-94 | unary `-` negates its operand and any other unary operator fails; a binary operator outside `+ - * /` fails; the left operand's error is reported before the right's |
| `EvaluateProofs.ParsedTreeIsArithmetic` | core/lang/internal/shorthand/parser.ts:100-192 | every tree the parser builds is made of literals, identifiers and `+ - * /` only |
| `Shorthand.SplitOn` | core/lang/internal/shorthand/index.ts:104 | `split` on one character gives one piece more than separators, none containing the separator |
| `ShorthandProofs.JoinOfSplit` | core/lang/internal/shorthand/index.ts:104 | joining the pieces with the separator gives back the text |
| `ShorthandProofs.SplitOfJoin` | core/lang/internal/shorthand/index.ts:104-110 | splitting a join of separator-free pieces gives back the pieces |
| `ShorthandProofs.FirstPiece` | core/lang/internal/shorthand/index.ts:104 | the scheme is the text before the first `@` |
| `ShorthandProofs.CutSecondAtSign` | core/lang/internal/shorthand/index.ts:104 | in `scheme@rpe@rest` the scheme is the text before the first `@` and the RPE the text between the first and the second; the rest is dropped |
| `ShorthandProofs.ResolveOfSchemeAndRest` | core/lang/internal/shorthand/index.ts:104-117 | `f0:f1:…@rpe@rest` resolves exactly as `f0:f1:…@rpe`: whatever follows a second `@` is ignored |
| `Shorthand.RequiredPart` | core/lang/internal/shorthand/index.ts:16-59 | a missing field is the host error; a field that does not lex is an invalid-token error; a parse error (a parsing error, or the host error of a trailing operator) passes through unchanged; a blank field is a user-code error |
| `Shorthand.OptionalPart` | core/lang/internal/shorthand/index.ts:61-69 | the RPE has no value, without error, exactly when its text lexes and parses to nothing; a text that does not lex is an invalid-token error, and a parse error passes through unchanged |
| `Shorthand.Assemble` | core/lang/internal/shorthand/index.ts:71-85 | the fields are tried in the order weight, sets, reps, RPE and the first that fails gives the error; when all succeed, a weight, sets or reps of 0 or NaN is the implementation error; a definition that comes out has none of those |
| `Shorthand.Resolve` | core/lang/internal/shorthand/index.ts:90-121 | disabled shorthand is refused whatever the text; a resolved definition has truthy weight, sets and reps |
| `Shorthand.ResolveExpression` | core/lang/internal/shorthand/index.ts:16-29 | an expression that does not lex is an invalid-token error; a blank one is a user-code error |
| `ShorthandProofs.ResolveOfScheme` | core/lang/internal/shorthand/index.ts:104-117 | `f0:f1:…@rpe` resolves as the chain over its pieces, in the configured order |
| `ShorthandProofs.ResolveWithoutRpe` | core/lang/internal/shorthand/index.ts:104-117 | text without `@` resolves with an empty RPE text |
| `ShorthandProofs.EmptyRpeIsAbsent` | core/lang/internal/shorthand/index.ts:61-69 | an empty RPE gives no value, not an error |
| `ShorthandProofs.EmptyFieldIsIncomplete` | core/lang/internal/shorthand/index.ts:16-25 | an empty required field is a user-code error |
| `ShorthandProofs.AssembleOfParts` | core/lang/internal/shorthand/index.ts:112-117 | the chain succeeds exactly when each field succeeds and the three required values are truthy, and then holds those values |
| `ShorthandProofs.NoAtNoRpe` | core/lang/internal/shorthand/index.ts:104 | without `@` a resolved definition has no RPE |
| `ShorthandProofs.ExtraFieldsIgnored` | core/lang/internal/shorthand/index.ts:105-110 | fields after the third do not change the result |
| `ShorthandProofs.MissingFieldFails` | core/lang/internal/shorthand/index.ts:105-110 | fewer than three fields fail |
| `ShorthandProofs.EmptyFieldFails` | core/lang/internal/shorthand/index.ts:16-55 | an empty weight, sets or reps field fails |
| `ShorthandProofs.FieldOrderSwaps` | core/lang/internal/shorthand/index.ts:106-110 | the two field orders succeed on the same texts, and then differ only in that sets and reps trade places |
| `ShorthandProofs.FieldOrderDecidesError` | core/lang/internal/shorthand/index.ts:106-117 | where both orders fail the error can differ: with a second field that does not lex and an empty third, sets-before-reps reports the invalid token and the other order the incomplete expression |
| `ShorthandProofs.LexNumeral` | core/lang/internal/shorthand/lexer.ts:103-112 | a string of digits lexes as one numeric token |
| `ShorthandProofs.NumeralField` | core/lang/internal/shorthand/index.ts:16-69 | a field of digits resolves to its number, as a required or as the optional field |
| `ShorthandProofs.ResolveNumerals` | core/lang/internal/shorthand/index.ts:90-121 | `w:s:r@e` with non-zero digit fields resolves to those four numbers |
| `Renderer.Lookup` | core/lang/internal/renderer.ts:44-45 | a record lookup is absent exactly when no entry has the key, and otherwise gives an entry stored under that key |
| `Renderer.MapAll` | core/lang/internal/renderer.ts:116-123 | mapping with a function that may throw succeeds exactly when every element does, in order and with the same length; otherwise the error is that of the first failing element |
| `Renderer.RenderStatement` | core/lang/internal/renderer.ts:7-27 | a literal is its own value; a shorthand statement is resolved against the given identifiers; any other kind is the implementation error |
| `Renderer.PropertyIdentifiers` | core/lang/internal/renderer.ts:54-59 | one identifier per property, named `<exercise>.<key>` with the property's value |
| `Renderer.Identifiers` | core/lang/internal/renderer.ts:53-71 | the scope is the exercise identifiers followed by one binding per block input, resolved against the exercise identifiers alone; it fails exactly when some input fails, and then with the error of the first input that fails |
| `Renderer.RenderDefinition` | core/lang/internal/renderer.ts:73-88 | a shorthand slot is the resolver with the programme's options; an explicit slot renders exactly when each of its statements does, with their values, and an RPE exactly when it gives one; the first of weight, sets, reps, RPE that fails gives the error; any other kind is the implementation error |
| `Renderer.RenderExercise` | core/lang/internal/renderer.ts:29-95 | an undeclared exercise is an invalid-programme error before the scope is built; a declared exercise renders exactly when the scope and then its definition do, and otherwise fails with the error of the first of the two that fails; a rendered exercise takes its name and alias from the declaration and its definition from the full scope |
| `Renderer.RenderSession` | core/lang/internal/renderer.ts:97-124 | a session renders exactly when each of its exercises does, keeping its name; exercise i is the rendering of slot i; a failure is that of the first failing slot |
| `Renderer.RenderBlock` | core/lang/internal/renderer.ts:126-161 | an undeclared template is an invalid-programme error; otherwise the block renders exactly when each template session does, keeping its name, with session i the rendering of template session i; a failure is that of the first failing session |
| `Renderer.Render` | core/lang/internal/renderer.ts:179-188 | the programme renders exactly when each block does, block i being the rendering of block i under its name; a failure is that of the first failing block |
| `RendererProofs.PropertyIsIdentifier` | core/lang/internal/renderer.ts:53-60 | every property of every declared exercise is in the scope |
| `RendererProofs.IdentifierIsProperty` | core/lang/internal/renderer.ts:53-60 | every exercise identifier is a property of some declared exercise, named after that exercise's own name field |
| `RendererProofs.InputShadowingPropertyFails` | core/lang/internal/renderer.ts:61-76 | an input named like a truthy property makes an explicit exercise with a shorthand weight fail with a user-code error |
| `RendererProofs.ExplicitLiteralsAsWritten` | core/lang/internal/renderer.ts:73-80 | literal explicit fields come out unchanged, 0 and NaN included, with no RPE |
| `RendererProofs.ExplicitMatchesShorthand` | core/lang/internal/renderer.ts:73-82 | with shorthand enabled in sets-before-reps order, an explicit slot of shorthand statements `w`, `s`, `n`, `e` renders to what the shorthand string `w:s:n@e` resolves to, when that succeeds and `e` is not blank |
| `RendererProofs.DisabledShorthandRefused` | core/lang/internal/renderer.ts:81-82 | with shorthand disabled a shorthand slot is refused |
| `RendererProofs.ShorthandExerciseTruthy` | core/lang/internal/renderer.ts:81-82 | a rendered shorthand slot never has a weight, sets or reps of 0 or NaN |
| `RendererProofs.UndeclaredTemplateFails` | core/lang/internal/renderer.ts:140-147 | a block naming an undeclared template makes rendering fail, with an invalid-programme error when every earlier block renders |
| `RendererProofs.UndeclaredExerciseFails` | core/lang/internal/renderer.ts:44-51 | a session slot naming an undeclared exercise makes its block fail, with an invalid-programme error when every earlier session and slot renders |
| `RendererProofs.RenderedStructure` | core/lang/internal/renderer.ts:90-94 | in a rendered programme, block i has its template's sessions in order, under their names, and each exercise carries the name and alias of its declaration |

## Left out

- Logging. Every logger call is omitted; none affects a result.
- Reading the programme text in `render` (renderer.ts:172-177). It goes through the keyword-language parser. The model takes an already-built `Program` value. YAML loading is left out for the same reason.
- The keyword-language lexer, parser, grammar, AST and token files, and the state-machine utility. They are not part of this model.
- `core/lang/internal/shorthand.ts` is not part of this model. It is an unfinished draft, although the renderer's import names it (see above).
- Floating point (this is also why `Evaluator.Apply` states division only for a non-zero divisor):
  - numbers are exact reals plus the two infinities and NaN;
  - there is no rounding and no negative zero;
  - `x/0` for a finite non-zero `x` is the infinity of its sign.
- `Numbers.NumberOf` models `Number()` on the texts a token can carry:
  - digits and dots, or one delimiter or operator character;
  - texts with two dots never reach it, and whitespace tokens are filtered out before the parser.
- JavaScript records are modelled as sequences of entries with first-match lookup. Two points follow:
  - Prototype keys such as `constructor`, and duplicate keys, are outside the model.
  - `Object.values` order is the sequence order.
- Parts of the programme the renderer never reads are left out. These are the units, default exercise properties, `rendersAs`, template inputs and outputs, and `repsBeforeSets`; the code only consults `setsBeforeReps`.
- The `list` node is kept in `Parser.Node` only so that the evaluator can reject it. The parser never builds one.
- `Numbers.NumberOf`: its own contract states when a text is finite and that it is never negative. The value of a decimal is stated by `Numbers.NumberOfDecimal`.
- `Lexer.Lex`: its own contract states only the empty case and the error kind. The token shapes, maximality, spelling-back and the accepted and rejected inputs are stated by the `LexerProofs` lemmas.
- `Evaluator.Walk`: binary operators on finite operands are stated through `EvaluateProofs.WalkIsExact`, which excludes division by zero. Results involving NaN or the infinities are given only by the definitions in `Numbers`.
- `ShorthandProofs.ResolveNumerals`: stated for digit-only fields. The value of a field with a decimal point is stated only for a single token, by `Numbers.NumberOfDecimal`.
- `Parser.ParseTerm`, `Parser.ParseExpression`: their own contracts state only what they leave in the queue. The trees are stated by `ParserProofs.ParseTermSpec` and `ParserProofs.ParseExpressionSpec`.
- Lexer examples are stated on concrete strings. Parser examples are stated on open operand tokens (any number or identifier token that is not itself an operator).

=== FILE: errors.dfy ===
/** Failure kinds raised by the shorthand pipeline and the renderer, and the
    Result/Option wrappers every operation of the model returns. */
module Errors {

  /** One constructor per error class the code throws. `HostTypeError` is the
      JavaScript TypeError raised when the code reads a property of
      `undefined` (an exhausted token queue, a missing shorthand field). */
  datatype ErrorKind =
    | InvalidToken
    | Parsing
    | UserCode
    | ShorthandNotAllowed
    | InvalidProgram
    | Implementation
    | HostTypeError

  datatype Option<+T> = None | Some(value: T)

  /** JavaScript's `a[k]` on an array: the item at index `k`, or `None` where
      JavaScript gives `undefined`. */
  function At<T>(s: seq<T>, k: nat): (r: Option<T>)
    ensures r.Some? <==> k < |s|
    ensures r.Some? ==> r.value == s[k]
  {
    if k < |s| then Some(s[k]) else None
  }

  datatype Result<+T> = Ok(value: T) | Err(kind: ErrorKind) {

    predicate IsFailure() {
      Err?
    }

    function PropagateFailure<U>(): Result<U>
      requires Err?
    {
      Err(kind)
    }

    function Extract(): T
      requires Ok?
    {
      value
    }
  }
}

=== FILE: evaluate.dfy ===
/** The shorthand evaluator: a list of named values is linked into a table,
    and a syntax tree is walked against that table. */
module Evaluator {
  import opened Errors
  import opened Numbers
  import opened Parser

  /** A named value offered to an expression. */
  datatype Binding = Binding(name: string, value: Number)

  /** The table identifiers are looked up in. */
  type Links = map<string, Number>

  /** Whether the name is bound to a truthy value: how the source tests a
      table entry (an absent entry reads as `undefined`, which is falsy). */
  predicate Bound(links: Links, name: string) {
    name in links && Truthy(links[name])
  }

  /** `linkIdentifiers`: bindings enter the table in order. A name whose
      current entry is truthy may not be bound again; an entry that is 0 or
      NaN is silently replaced. */
  function Link(ids: seq<Binding>): (r: Result<Links>)
    ensures r.Err? ==> r.kind == UserCode
    ensures r.Ok? ==> r.value.Keys == set i | 0 <= i < |ids| :: ids[i].name
    decreases |ids|
  {
    if |ids| == 0 then Ok(map[])
    else
      var links :- Link(ids[..|ids| - 1]);
      var b := ids[|ids| - 1];
      if Bound(links, b.name) then Err(UserCode)
      else
        assert forall i | 0 <= i < |ids| - 1 :: ids[..|ids| - 1][i] == ids[i];
        Ok(links[b.name := b.value])
  }

  /** Two bindings of one name, the earlier of them truthy. */
  predicate Duplicate(ids: seq<Binding>) {
    exists i, j :: 0 <= i < j < |ids| && ids[i].name == ids[j].name && Truthy(ids[i].value)
  }

  /** The binding of `name` that is last in `ids`. */
  predicate IsLast(ids: seq<Binding>, i: int) {
    0 <= i < |ids| && forall j :: i < j < |ids| ==> ids[j].name != ids[i].name
  }

  /** The arithmetic the evaluator knows. */
  predicate IsArithText(op: string) {
    IsAddText(op) || IsMulText(op)
  }

  /** The value of a binary operator applied to two numbers. */
  function Apply(op: string, a: Number, b: Number): (r: Number)
    requires IsArithText(op)
    ensures a.NaN? || b.NaN? ==> r == NaN
    ensures a.Finite? && b.Finite? ==>
      && (op == "+" ==> r == Finite(a.r + b.r))
      && (op == "-" ==> r == Finite(a.r - b.r))
      && (op == "*" ==> r == Finite(a.r * b.r))
      && (op == "/" && b.r != 0.0 ==> r == Finite(a.r / b.r))
  {
    assert op == [op[0]];
    if op[0] == '+' then Add(a, b)
    else if op[0] == '-' then Sub(a, b)
    else if op[0] == '*' then Mul(a, b)
    else Div(a, b)
  }

  /** `walk`: operands are walked left before right; an identifier must be
      bound to a truthy value; a node kind the walker does not know is the
      implementation's error. */
  function Walk(node: Node, links: Links): (r: Result<Number>)
    ensures r.Err? ==> r.kind == UserCode || r.kind == Implementation
    ensures node.Literal? ==> r == Ok(node.value)
    ensures node.Identifier? ==> (r.Ok? <==> Bound(links, node.ref))
    ensures node.Identifier? && r.Ok? ==> r.value == links[node.ref] && Truthy(r.value)
  {
    match node
    case UnaryOp(op, operand) =>
      if |op| == 1 && op[0] == '-' then
        var v :- Walk(operand, links);
        Ok(Neg(v))
      else Err(UserCode)
    case BinaryOp(op, lh, rh) =>
      if IsArithText(op) then
        var a :- Walk(lh, links);
        var b :- Walk(rh, links);
        Ok(Apply(op, a, b))
      else Err(UserCode)
    case Literal(_, value) => Ok(value)
    case Identifier(_, ref) =>
      if Bound(links, ref) then Ok(links[ref]) else Err(UserCode)
    case List(_) => Err(Implementation)
  }

  /** `evaluate`: link, then walk. */
  function Evaluate(ast: Node, ids: seq<Binding>): (r: Result<Number>)
    ensures Link(ids).Err? ==> r == Err(UserCode)
    ensures Link(ids).Ok? ==> r == Walk(ast, Link(ids).value)
  {
    var links :- Link(ids);
    Walk(ast, links)
  }
}

=== FILE: evaluate_proofs.dfy ===
/** What linking and walking compute, stated without the fold: a duplicate is
    an error exactly when an earlier binding of the name is truthy, the last
    binding of a name wins, the walk reads only the names in the tree, and on
    finite values it is exact arithmetic. */
module EvaluateProofs {
  import opened Errors
  import opened Numbers
  import Lexer
  import opened Parser
  import opened Evaluator
  import ParserProofs

  // ------------------------------------------------------------ linking

  /** The position of the last binding of `name`, or -1. */
  function LastIndex(ids: seq<Binding>, name: string): (k: int)
    ensures -1 <= k < |ids|
    ensures k >= 0 ==> ids[k].name == name
    ensures forall j :: k < j < |ids| ==> ids[j].name != name
  {
    if |ids| == 0 then -1
    else if ids[|ids| - 1].name == name then |ids| - 1
    else LastIndex(ids[..|ids| - 1], name)
  }

  /** The table holds, for each name, the value of its last binding. */
  lemma {:induction false} LinkLastWins(ids: seq<Binding>, i: int)
    requires Link(ids).Ok? && IsLast(ids, i)
    ensures Link(ids).value[ids[i].name] == ids[i].value
    decreases |ids|
  {
    var n := |ids|;
    if i < n - 1 {
      var p := ids[..n - 1];
      assert p[i] == ids[i];
      assert IsLast(p, i) by {
        forall j | i < j < |p| ensures p[j].name != p[i].name {
          assert p[j] == ids[j];
        }
      }
      LinkLastWins(p, i);
    }
  }

  /** In a table linked without error, a name is bound to a truthy value
      exactly when some binding of it is truthy. */
  lemma BoundIffSomeTruthy(ids: seq<Binding>, name: string)
    requires Link(ids).Ok? && !Duplicate(ids)
    ensures Bound(Link(ids).value, name) <==>
      exists i :: 0 <= i < |ids| && ids[i].name == name && Truthy(ids[i].value)
  {
    var l := Link(ids).value;
    var k := LastIndex(ids, name);
    if k >= 0 {
      LinkLastWins(ids, k);
      forall i | 0 <= i < |ids| && ids[i].name == name && Truthy(ids[i].value)
        ensures i == k
      {
      }
    } else {
      assert name !in l;
    }
  }

  /** A duplicate in a prefix is a duplicate of the whole. */
  lemma DuplicateOfPrefix(ids: seq<Binding>, n: nat)
    requires n <= |ids| && Duplicate(ids[..n])
    ensures Duplicate(ids)
  {
    var p := ids[..n];
    var i, j :| 0 <= i < j < |p| && p[i].name == p[j].name && Truthy(p[i].value);
    assert ids[i] == p[i] && ids[j] == p[j];
  }

  /** A duplicate of the whole that is none of the prefix involves the last
      binding. */
  lemma DuplicateOfLast(ids: seq<Binding>)
    requires |ids| > 0 && Duplicate(ids) && !Duplicate(ids[..|ids| - 1])
    ensures exists i :: 0 <= i < |ids| - 1 && ids[i].name == ids[|ids| - 1].name && Truthy(ids[i].value)
  {
    var n := |ids|;
    var p := ids[..n - 1];
    var i, j :| 0 <= i < j < n && ids[i].name == ids[j].name && Truthy(ids[i].value);
    assert p[i] == ids[i];
  }

  /** Without a truthy earlier binding of its name, a binding added to a
      list free of duplicates keeps it free of them. */
  lemma NoDuplicateAdded(p: seq<Binding>, b: Binding)
    requires !Duplicate(p)
    requires forall i :: 0 <= i < |p| && p[i].name == b.name ==> !Truthy(p[i].value)
    ensures !Duplicate(p + [b])
  {
    var ids := p + [b];
    assert ids[..|ids| - 1] == p;
    if Duplicate(ids) {
      DuplicateOfLast(ids);
    }
  }

  /** A truthy earlier binding of the last name is a duplicate. */
  lemma DuplicateWithLast(ids: seq<Binding>, i: nat)
    requires i < |ids| - 1 && ids[i].name == ids[|ids| - 1].name && Truthy(ids[i].value)
    ensures Duplicate(ids)
  {
  }

  /** Linking fails exactly when a name is bound twice and the earlier of the
      two bindings is truthy. */
  lemma {:induction false} LinkFailsIffDuplicate(ids: seq<Binding>)
    ensures Link(ids).Err? <==> Duplicate(ids)
    decreases |ids|
  {
    var n := |ids|;
    if n > 0 {
      var p := ids[..n - 1];
      var b := ids[n - 1];
      LinkFailsIffDuplicate(p);
      if Link(p).Err? {
        DuplicateOfPrefix(ids, n - 1);
      } else {
        BoundIffSomeTruthy(p, b.name);
        if Bound(Link(p).value, b.name) {
          var i :| 0 <= i < |p| && p[i].name == b.name && Truthy(p[i].value);
          assert ids[i] == p[i];
          DuplicateWithLast(ids, i);
        } else {
          assert ids == p + [b];
          NoDuplicateAdded(p, b);
        }
      }
    }
  }

  /** A duplicate binding fails the evaluation whatever the tree. */
  lemma DuplicateFailsEvaluation(ast: Node, ids: seq<Binding>)
    requires Duplicate(ids)
    ensures Evaluate(ast, ids) == Err(UserCode)
  {
    LinkFailsIffDuplicate(ids);
  }

  // ------------------------------------------------------------ walking

  /** The names the walk looks up. A list is never walked into. */
  function Refs(node: Node): set<string> {
    match node
    case UnaryOp(_, operand) => Refs(operand)
    case BinaryOp(_, lh, rh) => Refs(lh) + Refs(rh)
    case Identifier(_, ref) => {ref}
    case _ => {}
  }

  /** Two tables that agree on the names of the tree. */
  predicate AgreeOn(names: set<string>, l1: Links, l2: Links) {
    forall r :: r in names ==> Bound(l1, r) == Bound(l2, r) && (Bound(l1, r) ==> l1[r] == l2[r])
  }

  /** The walk reads nothing but the entries of the names in the tree. */
  lemma {:induction false} WalkIsLocal(node: Node, l1: Links, l2: Links)
    requires AgreeOn(Refs(node), l1, l2)
    ensures Walk(node, l1) == Walk(node, l2)
  {
    match node
    case UnaryOp(_, operand) =>
      WalkIsLocal(operand, l1, l2);
    case BinaryOp(_, lh, rh) =>
      WalkIsLocal(lh, l1, l2);
      WalkIsLocal(rh, l1, l2);
    case Identifier(_, ref) =>
      assert ref in Refs(node);
    case _ =>
  }

  /** A tree the parser can build: number and identifier leaves under the
      four arithmetic operators. */
  predicate Arithmetic(node: Node) {
    match node
    case BinaryOp(op, lh, rh) => IsArithText(op) && Arithmetic(lh) && Arithmetic(rh)
    case Literal(_, _) => true
    case Identifier(_, _) => true
    case _ => false
  }

  /** On an arithmetic tree the walk fails exactly when a name in it is not
      bound to a truthy value, and then with a user-code error. */
  lemma {:induction false} WalkArithmetic(node: Node, links: Links)
    requires Arithmetic(node)
    ensures Walk(node, links).Ok? <==> forall r :: r in Refs(node) ==> Bound(links, r)
    ensures Walk(node, links).Err? ==> Walk(node, links).kind == UserCode
  {
    match node
    case BinaryOp(op, lh, rh) =>
      WalkArithmetic(lh, links);
      WalkArithmetic(rh, links);
    case Identifier(_, ref) =>
      assert Refs(node) == {ref};
    case _ =>
  }

  /** The value of a tree in exact real arithmetic, when every leaf is a
      finite number and no divisor is zero. */
  function Exact(node: Node, links: Links): Option<real> {
    match node
    case Literal(_, Finite(x)) => Some(x)
    case Identifier(_, ref) =>
      if Bound(links, ref) && links[ref].Finite? then Some(links[ref].r) else None
    case UnaryOp(op, operand) =>
      if op == "-" then
        (match Exact(operand, links)
         case Some(x) => Some(-x)
         case None => None)
      else None
    case BinaryOp(op, lh, rh) =>
      if !IsArithText(op) then None
      else
        (match (Exact(lh, links), Exact(rh, links))
         case (Some(x), Some(y)) =>
           if op[0] == '/' && y == 0.0 then None else Some(ExactApply(op, x, y))
         case _ => None)
    case _ => None
  }

  /** One arithmetic operator on reals; division by zero has no value. */
  function ExactApply(op: string, x: real, y: real): real
    requires IsArithText(op) && (op[0] == '/' ==> y != 0.0)
  {
    if op[0] == '+' then x + y
    else if op[0] == '-' then x - y
    else if op[0] == '*' then x * y
    else x / y
  }

  /** On finite operands the evaluator's operators are the real ones. */
  lemma ApplyIsExact(op: string, x: real, y: real)
    requires IsArithText(op) && (op[0] == '/' ==> y != 0.0)
    ensures Apply(op, Finite(x), Finite(y)) == Finite(ExactApply(op, x, y))
  {
    if op[0] == '-' {
      assert Sub(Finite(x), Finite(y)) == Finite(x + -y);
    }
  }

  /** Where exact arithmetic has a value, the walk computes it. */
  lemma {:induction false} WalkIsExact(node: Node, links: Links)
    requires Exact(node, links).Some?
    ensures Walk(node, links) == Ok(Finite(Exact(node, links).value))
  {
    match node
    case UnaryOp(_, operand) =>
      WalkIsExact(operand, links);
    case BinaryOp(op, lh, rh) =>
      WalkIsExact(lh, links);
      WalkIsExact(rh, links);
      var x := Exact(lh, links).value;
      var y := Exact(rh, links).value;
      assert Walk(node, links) == Ok(Apply(op, Finite(x), Finite(y)));
      assert Exact(node, links) == Some(ExactApply(op, x, y));
      ApplyIsExact(op, x, y);
    case _ =>
  }

  /** Unary `-` negates and any other unary operator is the user's error; a
      binary operator outside `+ - * /` is the user's error, and otherwise
      the left operand is walked first, so its error is the one reported. */
  lemma WalkOperators(op: string, x: Node, y: Node, links: Links)
    ensures op == "-" && Walk(x, links).Ok? ==> Walk(UnaryOp(op, x), links) == Ok(Neg(Walk(x, links).value))
    ensures op == "-" && Walk(x, links).Err? ==> Walk(UnaryOp(op, x), links) == Walk(x, links)
    ensures op != "-" ==> Walk(UnaryOp(op, x), links) == Err(UserCode)
    ensures !IsArithText(op) ==> Walk(BinaryOp(op, x, y), links) == Err(UserCode)
    ensures IsArithText(op) && Walk(x, links).Err? ==> Walk(BinaryOp(op, x, y), links) == Walk(x, links)
    ensures IsArithText(op) && Walk(x, links).Ok? && Walk(y, links).Err? ==> Walk(BinaryOp(op, x, y), links) == Walk(y, links)
  {
    if |op| == 1 {
      assert op == [op[0]];
    }
  }

  // ------------------------------------------------------------ parsed trees

  predicate Leaves(xs: seq<Node>) {
    forall k :: 0 <= k < |xs| ==> xs[k].Literal? || xs[k].Identifier?
  }

  predicate ArithTexts(ps: seq<string>) {
    forall k :: 0 <= k < |ps| ==> IsArithText(ps[k])
  }

  lemma {:induction false} RightChainArithmetic(xs: seq<Node>, ps: seq<string>)
    requires |xs| == |ps| + 1 && Leaves(xs) && ArithTexts(ps)
    ensures Arithmetic(ParserProofs.RightChain(xs, ps))
    decreases |ps|
  {
    if |ps| > 0 {
      assert Leaves(xs[1..]) by {
        forall k | 0 <= k < |xs[1..]| ensures xs[1..][k].Literal? || xs[1..][k].Identifier? {
          assert xs[1..][k] == xs[k + 1];
        }
      }
      assert ArithTexts(ps[1..]) by {
        forall k | 0 <= k < |ps[1..]| ensures IsArithText(ps[1..][k]) {
          assert ps[1..][k] == ps[k + 1];
        }
      }
      RightChainArithmetic(xs[1..], ps[1..]);
    }
  }

  lemma {:induction false} TreeArithmetic(xs: seq<Node>, ps: seq<string>)
    requires |xs| == |ps| + 1 && Leaves(xs) && ArithTexts(ps)
    ensures Arithmetic(ParserProofs.Tree(xs, ps))
    decreases |ps|
  {
    var k := ParserProofs.LastAdditive(ps);
    if k < 0 {
      RightChainArithmetic(xs, ps);
    } else {
      var lx, lp, rx, rp := xs[..k + 1], ps[..k], xs[k + 1..], ps[k + 1..];
      assert Leaves(lx) by {
        forall j | 0 <= j < |lx| ensures lx[j].Literal? || lx[j].Identifier? {
          assert lx[j] == xs[j];
        }
      }
      assert ArithTexts(lp) by {
        forall j | 0 <= j < |lp| ensures IsArithText(lp[j]) {
          assert lp[j] == ps[j];
        }
      }
      assert Leaves(rx) by {
        forall j | 0 <= j < |rx| ensures rx[j].Literal? || rx[j].Identifier? {
          assert rx[j] == xs[k + 1 + j];
        }
      }
      assert ArithTexts(rp) by {
        forall j | 0 <= j < |rp| ensures IsArithText(rp[j]) {
          assert rp[j] == ps[k + 1 + j];
        }
      }
      TreeArithmetic(xs[..k + 1], ps[..k]);
      RightChainArithmetic(xs[k + 1..], ps[k + 1..]);
    }
  }

  /** Every tree the parser returns is arithmetic, so walking it can fail
      only for a name that is not bound to a truthy value. */
  lemma ParsedTreeIsArithmetic(tokens: seq<Lexer.Token>)
    requires Parse(tokens).Ok? && Parse(tokens).value.Some?
    ensures Arithmetic(Parse(tokens).value.value)
  {
    ParserProofs.ParseIsReference(tokens);
    var q := RemoveWhitespace(tokens);
    var s := ParserProofs.Split(q).value;
    ParserProofs.SplitReadsAlternation(q);
    assert Leaves(s.0) by {
      forall k | 0 <= k < |s.0| ensures s.0[k].Literal? || s.0[k].Identifier? {
        assert s.0[k] == Operand(ParserProofs.OperandAt(q, k));
      }
    }
    assert ArithTexts(s.1) by {
      forall k | 0 <= k < |s.1| ensures IsArithText(s.1[k]) {
        assert ParserProofs.IsArith(ParserProofs.OpAt(q, k));
      }
    }
    TreeArithmetic(s.0, s.1);
  }
}

=== FILE: lexer.dfy ===
/** The shorthand tokenizer: one left-to-right scan with a small state
    (`unidentified | numeric | identifier | whitespace`) and an accumulation
    buffer, producing identifier, numeric, delimiter, operator and whitespace
    tokens. */
module Lexer {
  import opened Errors
  import opened Numbers

  datatype Kind = Identifier | Numeric | Delimiter | Operator | Whitespace

  /** A token carries its kind and its text; whitespace tokens carry " ". */
  datatype Token = Token(kind: Kind, value: string)

  /** The scanner's state; `Unidentified` means "at the start of a token". */
  datatype State = Unidentified | InNumeric | InIdentifier | InWhitespace

  /** `\s`: the ECMAScript WhiteSpace and LineTerminator code points. */
  predicate IsSpace(c: char) {
    var n := c as int;
    || 0x09 <= n <= 0x0D
    || n == 0x20 || n == 0xA0 || n == 0x1680
    || 0x2000 <= n <= 0x200A
    || n == 0x2028 || n == 0x2029 || n == 0x202F || n == 0x205F
    || n == 0x3000 || n == 0xFEFF
  }

  /** `[0-9\.]`: starts a numeric. */
  predicate IsNumericStart(c: char) {
    IsDigit(c) || c == '.'
  }

  /** `[a-zA-Z_]`: starts an identifier. */
  predicate IsIdentStart(c: char) {
    'a' <= c <= 'z' || 'A' <= c <= 'Z' || c == '_'
  }

  /** `[0-9a-zA-z_\-]`: continues an identifier. The range `A-z` spans every
      code point from 'A' to 'z', so `[ \ ] ^` and the backquote are included. */
  predicate IsIdentContinue(c: char) {
    IsDigit(c) || 'A' <= c <= 'z' || c == '-'
  }

  predicate IsDelimiter(c: char) {
    c == '(' || c == ')'
  }

  predicate IsOperator(c: char) {
    c == '+' || c == '-' || c == '/' || c == '*' || c == '@'
  }

  /** A character accepted at the start of a token. */
  predicate IsStartChar(c: char) {
    IsNumericStart(c) || IsIdentStart(c) || IsSpace(c) || IsDelimiter(c) || IsOperator(c)
  }

  /** A character no state accepts anywhere. */
  predicate IsForeign(c: char) {
    !IsStartChar(c) && !IsIdentContinue(c)
  }

  /** The token an accumulating state yields when it is flushed. */
  function Pending(st: State, cur: string): Token
    requires !st.Unidentified?
  {
    match st
    case InNumeric => Token(Numeric, cur)
    case InIdentifier => Token(Identifier, cur)
    case InWhitespace => Token(Whitespace, " ")
  }

  /** The scan loop from position `i` in state `st` with buffer `cur`, having
      produced `toks` so far. A flush does not advance `i`: the character is
      reconsidered from the `Unidentified` state. Tokens are only ever
      appended: the ones produced so far are kept in front. */
  function Consume(prog: string, i: nat, st: State, cur: string, toks: seq<Token>): (r: Result<seq<Token>>)
    requires i <= |prog|
    ensures r.Ok? ==> |toks| <= |r.value| && r.value[..|toks|] == toks
    decreases |prog| - i, if st.Unidentified? then 0 else 1
  {
    if i == |prog| then
      if st.Unidentified? then Ok(toks) else Ok(toks + [Pending(st, cur)])
    else
      var c := prog[i];
      match st
      case Unidentified =>
        if IsNumericStart(c) then Consume(prog, i + 1, InNumeric, [c], toks)
        else if IsIdentStart(c) then Consume(prog, i + 1, InIdentifier, [c], toks)
        else if IsSpace(c) then Consume(prog, i + 1, InWhitespace, [c], toks)
        else if IsDelimiter(c) then Consume(prog, i + 1, Unidentified, [], toks + [Token(Delimiter, [c])])
        else if IsOperator(c) then Consume(prog, i + 1, Unidentified, [], toks + [Token(Operator, [c])])
        else Err(InvalidToken)
      case InNumeric =>
        if IsDigit(c) then Consume(prog, i + 1, InNumeric, cur + [c], toks)
        else if c == '.' then
          if '.' in cur then Err(InvalidToken)
          else Consume(prog, i + 1, InNumeric, cur + [c], toks)
        else Consume(prog, i, Unidentified, [], toks + [Pending(st, cur)])
      case InIdentifier =>
        if IsIdentContinue(c) then Consume(prog, i + 1, InIdentifier, cur + [c], toks)
        else Consume(prog, i, Unidentified, [], toks + [Pending(st, cur)])
      case InWhitespace =>
        if IsSpace(c) then Consume(prog, i + 1, InWhitespace, cur + [c], toks)
        else Consume(prog, i, Unidentified, [], toks + [Pending(st, cur)])
  }

  /** Tokenize a whole shorthand expression. */
  function Lex(prog: string): (r: Result<seq<Token>>)
    ensures prog == [] ==> r == Ok([])
    ensures r.Err? ==> r.kind == InvalidToken
  {
    ConsumeFailsOnlyWithInvalidToken(prog, 0, Unidentified, [], []);
    Consume(prog, 0, Unidentified, [], [])
  }

  lemma ConsumeFailsOnlyWithInvalidToken(prog: string, i: nat, st: State, cur: string, toks: seq<Token>)
    requires i <= |prog|
    ensures Consume(prog, i, st, cur, toks).Err? ==> Consume(prog, i, st, cur, toks).kind == InvalidToken
    decreases |prog| - i, if st.Unidentified? then 0 else 1
  {
    if i < |prog| {
      var c := prog[i];
      match st
      case Unidentified =>
        if IsNumericStart(c) { ConsumeFailsOnlyWithInvalidToken(prog, i + 1, InNumeric, [c], toks); }
        else if IsIdentStart(c) { ConsumeFailsOnlyWithInvalidToken(prog, i + 1, InIdentifier, [c], toks); }
        else if IsSpace(c) { ConsumeFailsOnlyWithInvalidToken(prog, i + 1, InWhitespace, [c], toks); }
        else if IsDelimiter(c) { ConsumeFailsOnlyWithInvalidToken(prog, i + 1, Unidentified, [], toks + [Token(Delimiter, [c])]); }
        else if IsOperator(c) { ConsumeFailsOnlyWithInvalidToken(prog, i + 1, Unidentified, [], toks + [Token(Operator, [c])]); }
      case InNumeric =>
        if IsDigit(c) || (c == '.' && '.' !in cur) { ConsumeFailsOnlyWithInvalidToken(prog, i + 1, InNumeric, cur + [c], toks); }
        else if c != '.' { ConsumeFailsOnlyWithInvalidToken(prog, i, Unidentified, [], toks + [Pending(st, cur)]); }
      case InIdentifier =>
        if IsIdentContinue(c) { ConsumeFailsOnlyWithInvalidToken(prog, i + 1, InIdentifier, cur + [c], toks); }
        else { ConsumeFailsOnlyWithInvalidToken(prog, i, Unidentified, [], toks + [Pending(st, cur)]); }
      case InWhitespace =>
        if IsSpace(c) { ConsumeFailsOnlyWithInvalidToken(prog, i + 1, InWhitespace, cur + [c], toks); }
        else { ConsumeFailsOnlyWithInvalidToken(prog, i, Unidentified, [], toks + [Pending(st, cur)]); }
    }
  }
}

=== FILE: lexer_examples.dfy ===
/** The tokenizer's behaviour on concrete inputs, among them those its own
    test suite uses. */
module LexerExamples {
  import opened Errors
  import opened Lexer
  import LexerProofs

  /** A run of whitespace yields one token whose text is a single space. */
  lemma WhitespaceRunIsOneToken()
    ensures Lex("   ") == Ok([Token(Whitespace, " ")])
  {
    var p := "   ";
    SpaceRun(p, 1, 3, " ", []);
    assert " " + p[1..3] == p;
    assert [] + [Token(Whitespace, " ")] == [Token(Whitespace, " ")];
  }

  /** Numerics may hold one '.', in any position. */
  lemma NumericsWithOneDot()
    ensures Lex("1 0.1 .1") == Ok([Token(Numeric, "1"), Token(Whitespace, " "), Token(Numeric, "0.1"), Token(Whitespace, " "), Token(Numeric, ".1")])
  {
    var p := "1 0.1 .1";
    var t1 := [Token(Numeric, "1")];
    var t2 := t1 + [Token(Whitespace, " ")];
    var t3 := t2 + [Token(Numeric, "0.1")];
    var t4 := t3 + [Token(Whitespace, " ")];
    calc {
      Lex(p);
      Consume(p, 1, InNumeric, "1", []);
      { assert [] + [Token(Numeric, "1")] == t1; }
      Consume(p, 2, InWhitespace, " ", t1);
      { assert "0" + "." == "0."; }
      Consume(p, 4, InNumeric, "0.", t2);
      { assert "0." + "1" == "0.1"; }
      Consume(p, 6, InWhitespace, " ", t3);
      { assert "." + "1" == ".1"; }
      Consume(p, 8, InNumeric, ".1", t4);
      Ok(t4 + [Token(Numeric, ".1")]);
    }
    assert t4 + [Token(Numeric, ".1")] == [Token(Numeric, "1"), Token(Whitespace, " "), Token(Numeric, "0.1"), Token(Whitespace, " "), Token(Numeric, ".1")];
  }

  /** An identifier continues over '_' and '-'. */
  lemma HyphenContinuesIdentifier()
    ensures Lex("Hello_world-") == Ok([Token(Identifier, "Hello_world-")])
  {
    var p := "Hello_world-";
    IdentifierRun(p, 1, 12, "H", []);
    assert "H" + p[1..12] == p;
    assert [] + [Token(Identifier, p)] == [Token(Identifier, p)];
  }

  /** The token of one delimiter or operator character. */
  function CharToken(c: char): Token {
    Token(if IsDelimiter(c) then Delimiter else Operator, [c])
  }

  /** The tokens of a text of delimiter and operator characters: one per
      character, in order. */
  function CharTokens(s: string): (r: seq<Token>)
    ensures |r| == |s|
    ensures forall k :: 0 <= k < |s| ==> r[k] == CharToken(s[k])
  {
    if |s| == 0 then [] else [CharToken(s[0])] + CharTokens(s[1..])
  }

  /** A delimiter or operator character is a token of its own. */
  lemma SingleCharStep(prog: string, i: nat, toks: seq<Token>)
    requires i < |prog| && (IsDelimiter(prog[i]) || IsOperator(prog[i]))
    ensures Consume(prog, i, Unidentified, [], toks) == Consume(prog, i + 1, Unidentified, [], toks + [CharToken(prog[i])])
  {
  }

  /** A run of delimiter and operator characters is scanned one token per
      character. */
  lemma {:induction false} SingleCharRun(prog: string, i: nat, toks: seq<Token>)
    requires i <= |prog|
    requires forall k :: i <= k < |prog| ==> IsDelimiter(prog[k]) || IsOperator(prog[k])
    ensures Consume(prog, i, Unidentified, [], toks) == Ok(toks + CharTokens(prog[i..]))
    decreases |prog| - i
  {
    if i < |prog| {
      var t := CharToken(prog[i]);
      SingleCharStep(prog, i, toks);
      SingleCharRun(prog, i + 1, toks + [t]);
      CharTokensOfTail(prog, i);
      assert toks + [t] + CharTokens(prog[i + 1..]) == toks + ([t] + CharTokens(prog[i + 1..]));
    } else {
      assert CharTokens(prog[i..]) == [];
      assert toks + [] == toks;
    }
  }

  lemma CharTokensOfTail(prog: string, i: nat)
    requires i < |prog|
    ensures CharTokens(prog[i..]) == [CharToken(prog[i])] + CharTokens(prog[i + 1..])
  {
    assert prog[i..][1..] == prog[i + 1..];
  }

  /** Each delimiter is its own token. */
  lemma DelimitersOnePerCharacter()
    ensures Lex("()") == Ok([Token(Delimiter, "("), Token(Delimiter, ")")])
  {
    var p := "()";
    SingleCharRun(p, 0, []);
    assert p[0..] == p;
    var r := CharTokens(p);
    assert r == [Token(Delimiter, "("), Token(Delimiter, ")")] by {
      assert r[0] == CharToken('(') && r[1] == CharToken(')');
    }
  }

  /** Each operator is its own token, in input order. */
  lemma OperatorsOnePerCharacter()
    ensures Lex("+-/*@") == Ok([Token(Operator, "+"), Token(Operator, "-"), Token(Operator, "/"), Token(Operator, "*"), Token(Operator, "@")])
  {
    var p := "+-/*@";
    assert forall k :: 0 <= k < |p| ==> IsOperator(p[k]);
    SingleCharRun(p, 0, []);
    assert p[0..] == p;
    OperatorTokens();
  }

  lemma OperatorTokens()
    ensures [] + CharTokens("+-/*@") == [Token(Operator, "+"), Token(Operator, "-"), Token(Operator, "/"), Token(Operator, "*"), Token(Operator, "@")]
  {
    var r := CharTokens("+-/*@");
    assert r[0] == CharToken('+') && r[1] == CharToken('-') && r[2] == CharToken('/');
    assert r[3] == CharToken('*') && r[4] == CharToken('@');
    assert [] + r == r;
  }

  /** Whitespace runs on over every space. */
  lemma {:induction false} SpaceRun(prog: string, i: nat, j: nat, cur: string, toks: seq<Token>)
    requires i <= j <= |prog|
    requires forall k :: i <= k < j ==> IsSpace(prog[k])
    ensures Consume(prog, i, InWhitespace, cur, toks) == Consume(prog, j, InWhitespace, cur + prog[i..j], toks)
    decreases j - i
  {
    if i < j {
      SpaceRun(prog, i + 1, j, cur + [prog[i]], toks);
      AppendSlice(cur, prog, i, j);
    } else {
      assert cur + prog[i..j] == cur;
    }
  }

  /** Appending one character, then the rest of a slice. */
  lemma AppendSlice(cur: string, prog: string, i: nat, j: nat)
    requires i < j <= |prog|
    ensures cur + [prog[i]] + prog[i + 1..j] == cur + prog[i..j]
  {
    assert prog[i..j] == [prog[i]] + prog[i + 1..j];
  }

  /** An identifier runs on over every character that continues it. */
  lemma {:induction false} IdentifierRun(prog: string, i: nat, j: nat, cur: string, toks: seq<Token>)
    requires i <= j <= |prog|
    requires forall k :: i <= k < j ==> IsIdentContinue(prog[k])
    ensures Consume(prog, i, InIdentifier, cur, toks) == Consume(prog, j, InIdentifier, cur + prog[i..j], toks)
    decreases j - i
  {
    if i < j {
      IdentifierRun(prog, i + 1, j, cur + [prog[i]], toks);
      AppendSlice(cur, prog, i, j);
    } else {
      assert cur + prog[i..j] == cur;
    }
  }

  /** The characters of `a + "." + b`, by position. */
  lemma DottedChars(a: string, b: string)
    ensures |a + "." + b| == |a| + 1 + |b|
    ensures forall k :: 0 <= k < |a| ==> (a + "." + b)[k] == a[k]
    ensures (a + "." + b)[|a|] == '.'
    ensures forall k :: 0 <= k < |b| ==> (a + "." + b)[|a| + 1 + k] == b[k]
  {
  }

  /** A '.' ends an identifier and starts a numeric, so an exercise-property
      name such as `squat.starting_weight` never lexes as one identifier. */
  lemma QualifiedNameSplits(a: string, b: string)
    requires LexerProofs.IsIdentifierText(a) && LexerProofs.IsIdentifierText(b)
    ensures Lex(a + "." + b) == Ok([Token(Identifier, a), Token(Numeric, "."), Token(Identifier, b)])
  {
    var p := a + "." + b;
    var n := |a|;
    DottedChars(a, b);
    var t1 := [Token(Identifier, a)];
    var t2 := t1 + [Token(Numeric, ".")];
    assert Lex(p) == Consume(p, 0, Unidentified, [], []);
    assert Consume(p, 0, Unidentified, [], []) == Consume(p, 1, InIdentifier, [a[0]], []);
    IdentifierRun(p, 1, n, [a[0]], []);
    assert [a[0]] + p[1..n] == a by { assert p[1..n] == a[1..]; }
    assert [] + [Token(Identifier, a)] == t1;
    assert Consume(p, n, InIdentifier, a, []) == Consume(p, n, Unidentified, [], t1);
    assert Consume(p, n, Unidentified, [], t1) == Consume(p, n + 1, InNumeric, ".", t1);
    assert Consume(p, n + 1, InNumeric, ".", t1) == Consume(p, n + 1, Unidentified, [], t2);
    assert Consume(p, n + 1, Unidentified, [], t2) == Consume(p, n + 2, InIdentifier, [b[0]], t2);
    IdentifierRun(p, n + 2, |p|, [b[0]], t2);
    assert [b[0]] + p[n + 2..|p|] == b by { assert p[n + 2..|p|] == b[1..]; }
    assert Consume(p, |p|, InIdentifier, b, t2) == Ok(t2 + [Token(Identifier, b)]);
    assert t2 + [Token(Identifier, b)] == [Token(Identifier, a), Token(Numeric, "."), Token(Identifier, b)];
  }

  /** A second '.' in one numeric is rejected. */
  lemma SecondDotRejected()
    ensures Lex("1.1.1") == Err(InvalidToken)
  {
    LexerProofs.LexRejectsDotRun("1.1.1", 1, 3);
  }

  /** A character outside every token class is rejected. */
  lemma PercentRejected()
    ensures Lex("%") == Err(InvalidToken)
  {
    LexerProofs.LexRejectsForeign("%", 0);
  }
}

=== FILE: lexer_proofs.dfy ===
/** What the tokenizer guarantees: the shape of every token it produces, that
    the token texts spell the input back with each whitespace run shortened to
    one space, that tokens are maximal, and exactly which inputs it accepts. */
module LexerProofs {
  import opened Errors
  import opened Numbers
  import opened Lexer

  /** Digits and dots with no two dots. */
  predicate IsNumericText(v: string) {
    && |v| > 0
    && (forall k :: 0 <= k < |v| ==> IsNumericStart(v[k]))
    && (forall a, b :: 0 <= a < b < |v| && v[a] == '.' ==> v[b] != '.')
  }

  predicate IsIdentifierText(v: string) {
    && |v| > 0
    && IsIdentStart(v[0])
    && (forall k :: 1 <= k < |v| ==> IsIdentContinue(v[k]))
  }

  /** The shape of a token, by kind. */
  predicate WellFormed(t: Token) {
    match t.kind
    case Identifier => IsIdentifierText(t.value)
    case Numeric => IsNumericText(t.value)
    case Delimiter => |t.value| == 1 && IsDelimiter(t.value[0])
    case Operator => |t.value| == 1 && IsOperator(t.value[0])
    case Whitespace => t.value == " "
  }

  predicate AllWellFormed(ts: seq<Token>) {
    forall k :: 0 <= k < |ts| ==> WellFormed(ts[k])
  }

  /** Whether token `t` would have absorbed the character `c` had it come next. */
  predicate Extends(t: Token, c: char) {
    match t.kind
    case Identifier => IsIdentContinue(c)
    case Numeric => IsNumericStart(c)
    case Whitespace => IsSpace(c)
    case _ => false
  }

  predicate Glues(a: Token, b: Token) {
    |b.value| > 0 && Extends(a, b.value[0])
  }

  /** Maximal munch: no token could have absorbed the first character of the
      token after it; in particular no two whitespace tokens are adjacent. */
  predicate Maximal(ts: seq<Token>) {
    forall k :: 0 <= k < |ts| - 1 ==> !Glues(ts[k], ts[k + 1])
  }

  /** The token texts, concatenated. */
  function Concat(ts: seq<Token>): string {
    if |ts| == 0 then [] else Concat(ts[..|ts| - 1]) + ts[|ts| - 1].value
  }

  /** The input with every maximal run of whitespace replaced by one space. */
  function Collapse(p: string): string {
    if |p| == 0 then []
    else
      var q := p[..|p| - 1];
      var c := p[|p| - 1];
      if !IsSpace(c) then Collapse(q) + [c]
      else if |q| > 0 && IsSpace(q[|q| - 1]) then Collapse(q)
      else Collapse(q) + " "
  }

  function PendingText(st: State, cur: string): string {
    if st.Unidentified? then [] else Pending(st, cur).value
  }

  /** What holds at every step of the scan. */
  predicate Inv(prog: string, i: nat, st: State, cur: string, toks: seq<Token>) {
    && i <= |prog|
    && AllWellFormed(toks)
    && (!st.Unidentified? ==> WellFormed(Pending(st, cur)))
    && Concat(toks) + PendingText(st, cur) == Collapse(prog[..i])
    && (st.InWhitespace? ==> 0 < i && IsSpace(prog[i - 1]))
    && ((st.InNumeric? || st.InIdentifier?) ==> 0 < i && !IsSpace(prog[i - 1]))
    && (st.Unidentified? && 0 < i < |prog| && IsSpace(prog[i]) ==> !IsSpace(prog[i - 1]))
    && Maximal(toks)
    && (st.Unidentified? && |toks| > 0 && i < |prog| ==> !Extends(toks[|toks| - 1], prog[i]))
    && (!st.Unidentified? && |toks| > 0 ==> !Glues(toks[|toks| - 1], Pending(st, cur)))
  }

  lemma CollapseStep(prog: string, i: nat)
    requires i < |prog|
    ensures !IsSpace(prog[i]) ==> Collapse(prog[..i + 1]) == Collapse(prog[..i]) + [prog[i]]
    ensures IsSpace(prog[i]) && 0 < i && IsSpace(prog[i - 1]) ==> Collapse(prog[..i + 1]) == Collapse(prog[..i])
    ensures IsSpace(prog[i]) && (i == 0 || !IsSpace(prog[i - 1])) ==> Collapse(prog[..i + 1]) == Collapse(prog[..i]) + " "
  {
    assert prog[..i + 1][..i] == prog[..i];
  }

  lemma ConcatSnoc(ts: seq<Token>, t: Token)
    ensures Concat(ts + [t]) == Concat(ts) + t.value
  {
    assert (ts + [t])[..|ts|] == ts;
  }

  lemma SpaceExtendsOnlyWhitespace(t: Token, c: char)
    requires IsSpace(c)
    ensures Extends(t, c) <==> t.kind == Whitespace
  {
  }

  lemma MaximalSnoc(ts: seq<Token>, t: Token)
    requires Maximal(ts)
    requires |ts| > 0 ==> !Glues(ts[|ts| - 1], t)
    ensures Maximal(ts + [t])
  {
    var us := ts + [t];
    forall k | 0 <= k < |us| - 1 ensures !Glues(us[k], us[k + 1]) {
      if k < |ts| - 1 {
        assert us[k] == ts[k] && us[k + 1] == ts[k + 1];
      }
    }
  }

  /** Flushing the pending token keeps the invariant. */
  lemma FlushKeepsInv(prog: string, i: nat, st: State, cur: string, toks: seq<Token>)
    requires Inv(prog, i, st, cur, toks) && i < |prog| && !st.Unidentified?
    requires !Extends(Pending(st, cur), prog[i])
    ensures Inv(prog, i, Unidentified, [], toks + [Pending(st, cur)])
  {
    var t := Pending(st, cur);
    ConcatSnoc(toks, t);
    MaximalSnoc(toks, t);
    var ts := toks + [t];
    assert ts[|ts| - 1] == t;
    forall k | 0 <= k < |ts| ensures WellFormed(ts[k]) {
      if k < |toks| { assert ts[k] == toks[k]; }
    }
    if IsSpace(prog[i]) {
      SpaceExtendsOnlyWhitespace(t, prog[i]);
    }
  }

  /** A scan result whose tokens are well formed and maximal and spell the
      collapsed input. */
  predicate Sound(prog: string, r: Result<seq<Token>>) {
    r.Ok? ==> AllWellFormed(r.value) && Maximal(r.value) && Concat(r.value) == Collapse(prog)
  }

  /** Every token the scan produces is well formed, maximal, and the texts
      spell the collapsed input. */
  lemma {:induction false} ConsumeSound(prog: string, i: nat, st: State, cur: string, toks: seq<Token>)
    requires Inv(prog, i, st, cur, toks)
    ensures Consume(prog, i, st, cur, toks).Ok? ==>
      var ts := Consume(prog, i, st, cur, toks).value;
      AllWellFormed(ts) && Maximal(ts) && Concat(ts) == Collapse(prog)
    decreases |prog| - i, if st.Unidentified? then 0 else 1, 2
  {
    if i == |prog| {
      assert prog[..i] == prog;
      if !st.Unidentified? {
        FlushAtEnd(prog, i, st, cur, toks);
      }
    } else {
      match st
      case Unidentified => ConsumeSoundStart(prog, i, toks);
      case InNumeric => ConsumeSoundNumeric(prog, i, cur, toks);
      case InIdentifier => ConsumeSoundIdentifier(prog, i, cur, toks);
      case InWhitespace => ConsumeSoundWhitespace(prog, i, cur, toks);
    }
  }

  /** `ConsumeSound` between tokens. */
  lemma {:induction false} ConsumeSoundStart(prog: string, i: nat, toks: seq<Token>)
    requires Inv(prog, i, Unidentified, [], toks) && i < |prog|
    ensures Sound(prog, Consume(prog, i, Unidentified, [], toks))
    decreases |prog| - i, 0, 1
  {
    var c := prog[i];
    if IsNumericStart(c) || IsIdentStart(c) || IsSpace(c) {
      ConsumeSoundOpen(prog, i, toks);
    } else if IsDelimiter(c) || IsOperator(c) {
      ConsumeSoundSingle(prog, i, toks);
    }
  }

  /** `ConsumeSound` where a numeric, an identifier or a whitespace run
      starts. */
  lemma {:induction false} ConsumeSoundOpen(prog: string, i: nat, toks: seq<Token>)
    requires Inv(prog, i, Unidentified, [], toks) && i < |prog|
    requires IsNumericStart(prog[i]) || IsIdentStart(prog[i]) || IsSpace(prog[i])
    ensures Sound(prog, Consume(prog, i, Unidentified, [], toks))
    decreases |prog| - i, 0, 0
  {
    var c := prog[i];
    if IsNumericStart(c) {
      StartKeepsInv(prog, i, InNumeric, toks);
      ConsumeSound(prog, i + 1, InNumeric, [c], toks);
    } else if IsIdentStart(c) {
      StartKeepsInv(prog, i, InIdentifier, toks);
      ConsumeSound(prog, i + 1, InIdentifier, [c], toks);
    } else {
      StartKeepsInv(prog, i, InWhitespace, toks);
      ConsumeSound(prog, i + 1, InWhitespace, [c], toks);
    }
  }

  /** `ConsumeSound` on a delimiter or an operator. */
  lemma {:induction false} ConsumeSoundSingle(prog: string, i: nat, toks: seq<Token>)
    requires Inv(prog, i, Unidentified, [], toks) && i < |prog|
    requires !IsNumericStart(prog[i]) && !IsIdentStart(prog[i]) && !IsSpace(prog[i])
    requires IsDelimiter(prog[i]) || IsOperator(prog[i])
    ensures Sound(prog, Consume(prog, i, Unidentified, [], toks))
    decreases |prog| - i, 0, 0
  {
    var c := prog[i];
    if IsDelimiter(c) {
      SingleCharKeepsInv(prog, i, toks, Token(Delimiter, [c]));
      ConsumeSound(prog, i + 1, Unidentified, [], toks + [Token(Delimiter, [c])]);
    } else {
      SingleCharKeepsInv(prog, i, toks, Token(Operator, [c]));
      ConsumeSound(prog, i + 1, Unidentified, [], toks + [Token(Operator, [c])]);
    }
  }

  /** `ConsumeSound` inside a numeric. */
  lemma {:induction false} ConsumeSoundNumeric(prog: string, i: nat, cur: string, toks: seq<Token>)
    requires Inv(prog, i, InNumeric, cur, toks) && i < |prog|
    ensures Sound(prog, Consume(prog, i, InNumeric, cur, toks))
    decreases |prog| - i, 1, 0
  {
    var c := prog[i];
    if IsDigit(c) || (c == '.' && '.' !in cur) {
      NumericAppendKeepsInv(prog, i, cur, toks);
      ConsumeSound(prog, i + 1, InNumeric, cur + [c], toks);
    } else if c != '.' {
      FlushKeepsInv(prog, i, InNumeric, cur, toks);
      ConsumeSound(prog, i, Unidentified, [], toks + [Pending(InNumeric, cur)]);
    }
  }

  /** `ConsumeSound` inside an identifier. */
  lemma {:induction false} ConsumeSoundIdentifier(prog: string, i: nat, cur: string, toks: seq<Token>)
    requires Inv(prog, i, InIdentifier, cur, toks) && i < |prog|
    ensures Sound(prog, Consume(prog, i, InIdentifier, cur, toks))
    decreases |prog| - i, 1, 0
  {
    var c := prog[i];
    if IsIdentContinue(c) {
      IdentAppendKeepsInv(prog, i, cur, toks);
      ConsumeSound(prog, i + 1, InIdentifier, cur + [c], toks);
    } else {
      FlushKeepsInv(prog, i, InIdentifier, cur, toks);
      ConsumeSound(prog, i, Unidentified, [], toks + [Pending(InIdentifier, cur)]);
    }
  }

  /** `ConsumeSound` inside a whitespace run. */
  lemma {:induction false} ConsumeSoundWhitespace(prog: string, i: nat, cur: string, toks: seq<Token>)
    requires Inv(prog, i, InWhitespace, cur, toks) && i < |prog|
    ensures Sound(prog, Consume(prog, i, InWhitespace, cur, toks))
    decreases |prog| - i, 1, 0
  {
    var c := prog[i];
    if IsSpace(c) {
      SpaceAppendKeepsInv(prog, i, cur, toks);
      ConsumeSound(prog, i + 1, InWhitespace, cur + [c], toks);
    } else {
      FlushKeepsInv(prog, i, InWhitespace, cur, toks);
      ConsumeSound(prog, i, Unidentified, [], toks + [Pending(InWhitespace, cur)]);
    }
  }

  lemma FlushAtEnd(prog: string, i: nat, st: State, cur: string, toks: seq<Token>)
    requires Inv(prog, i, st, cur, toks) && i == |prog| && !st.Unidentified?
    ensures var ts := toks + [Pending(st, cur)];
      AllWellFormed(ts) && Maximal(ts) && Concat(ts) == Collapse(prog)
  {
    var t := Pending(st, cur);
    ConcatSnoc(toks, t);
    MaximalSnoc(toks, t);
    assert prog[..i] == prog;
    var ts := toks + [t];
    forall k | 0 <= k < |ts| ensures WellFormed(ts[k]) {
      if k < |toks| { assert ts[k] == toks[k]; }
    }
  }

  lemma SingleCharKeepsInv(prog: string, i: nat, toks: seq<Token>, t: Token)
    requires Inv(prog, i, Unidentified, [], toks) && i < |prog|
    requires t == Token(Delimiter, [prog[i]]) || t == Token(Operator, [prog[i]])
    requires IsDelimiter(prog[i]) || IsOperator(prog[i])
    requires t.kind == Delimiter ==> IsDelimiter(prog[i])
    requires t.kind == Operator ==> IsOperator(prog[i])
    ensures Inv(prog, i + 1, Unidentified, [], toks + [t])
  {
    CollapseStep(prog, i);
    ConcatSnoc(toks, t);
    MaximalSnoc(toks, t);
    var ts := toks + [t];
    forall k | 0 <= k < |ts| ensures WellFormed(ts[k]) {
      if k < |toks| { assert ts[k] == toks[k]; }
    }
  }

  lemma NumericAppendKeepsInv(prog: string, i: nat, cur: string, toks: seq<Token>)
    requires Inv(prog, i, InNumeric, cur, toks) && i < |prog|
    requires IsDigit(prog[i]) || (prog[i] == '.' && '.' !in cur)
    ensures Inv(prog, i + 1, InNumeric, cur + [prog[i]], toks)
  {
    CollapseStep(prog, i);
    var v := cur + [prog[i]];
    forall a, b | 0 <= a < b < |v| && v[a] == '.' ensures v[b] != '.' {
      assert v[a] == cur[a];
    }
  }

  lemma StartKeepsInv(prog: string, i: nat, st: State, toks: seq<Token>)
    requires Inv(prog, i, Unidentified, [], toks) && i < |prog|
    requires st.InNumeric? ==> IsNumericStart(prog[i])
    requires st.InIdentifier? ==> IsIdentStart(prog[i])
    requires st.InWhitespace? ==> IsSpace(prog[i])
    requires !st.Unidentified?
    ensures Inv(prog, i + 1, st, [prog[i]], toks)
  {
    CollapseStep(prog, i);
    if |toks| > 0 && IsSpace(prog[i]) {
      SpaceExtendsOnlyWhitespace(toks[|toks| - 1], prog[i]);
    }
  }

  lemma SpaceAppendKeepsInv(prog: string, i: nat, cur: string, toks: seq<Token>)
    requires Inv(prog, i, InWhitespace, cur, toks) && i < |prog|
    requires IsSpace(prog[i])
    ensures Inv(prog, i + 1, InWhitespace, cur + [prog[i]], toks)
  {
    CollapseStep(prog, i);
  }

  lemma IdentAppendKeepsInv(prog: string, i: nat, cur: string, toks: seq<Token>)
    requires Inv(prog, i, InIdentifier, cur, toks) && i < |prog|
    requires IsIdentContinue(prog[i])
    ensures Inv(prog, i + 1, InIdentifier, cur + [prog[i]], toks)
  {
    CollapseStep(prog, i);
  }

  /** On success the tokens are well formed and maximal, and concatenating
      their texts gives back the input with each whitespace run replaced by
      one space. */
  lemma LexSound(prog: string)
    requires Lex(prog).Ok?
    ensures AllWellFormed(Lex(prog).value)
    ensures Maximal(Lex(prog).value)
    ensures Concat(Lex(prog).value) == Collapse(prog)
  {
    assert prog[..0] == [];
    ConsumeSound(prog, 0, Unidentified, [], []);
  }

  /** A character that no state accepts makes the scan fail, wherever it is. */
  lemma {:induction false} ConsumeFailsOnForeign(prog: string, i: nat, st: State, cur: string, toks: seq<Token>, j: nat)
    requires i <= j < |prog| && IsForeign(prog[j])
    ensures Consume(prog, i, st, cur, toks).Err?
    decreases |prog| - i, if st.Unidentified? then 0 else 1
  {
    var c := prog[i];
    match st
    case Unidentified =>
      if IsNumericStart(c) { ConsumeFailsOnForeign(prog, i + 1, InNumeric, [c], toks, j); }
      else if IsIdentStart(c) { ConsumeFailsOnForeign(prog, i + 1, InIdentifier, [c], toks, j); }
      else if IsSpace(c) { ConsumeFailsOnForeign(prog, i + 1, InWhitespace, [c], toks, j); }
      else if IsDelimiter(c) { ConsumeFailsOnForeign(prog, i + 1, Unidentified, [], toks + [Token(Delimiter, [c])], j); }
      else if IsOperator(c) { ConsumeFailsOnForeign(prog, i + 1, Unidentified, [], toks + [Token(Operator, [c])], j); }
    case InNumeric =>
      if IsDigit(c) || (c == '.' && '.' !in cur) { ConsumeFailsOnForeign(prog, i + 1, InNumeric, cur + [c], toks, j); }
      else if c != '.' { ConsumeFailsOnForeign(prog, i, Unidentified, [], toks + [Pending(st, cur)], j); }
    case InIdentifier =>
      if IsIdentContinue(c) { ConsumeFailsOnForeign(prog, i + 1, InIdentifier, cur + [c], toks, j); }
      else { ConsumeFailsOnForeign(prog, i, Unidentified, [], toks + [Pending(st, cur)], j); }
    case InWhitespace =>
      if IsSpace(c) { ConsumeFailsOnForeign(prog, i + 1, InWhitespace, cur + [c], toks, j); }
      else { ConsumeFailsOnForeign(prog, i, Unidentified, [], toks + [Pending(st, cur)], j); }
  }

  /** Any input holding a character that is valid neither at the start of a
      token nor inside an identifier is rejected as an invalid token. */
  lemma LexRejectsForeign(prog: string, j: nat)
    requires j < |prog| && IsForeign(prog[j])
    ensures Lex(prog) == Err(InvalidToken)
  {
    ConsumeFailsOnForeign(prog, 0, Unidentified, [], [], j);
  }

  /** `prog[a..b]` (both ends included) is a run of digits and dots that
      starts and ends with '.'. */
  predicate DotRun(prog: string, a: nat, b: nat) {
    && a < b < |prog|
    && prog[a] == '.' && prog[b] == '.'
    && (forall k :: a <= k <= b ==> IsNumericStart(prog[k]))
  }

  lemma {:induction false} ConsumeFailsOnDotRun(prog: string, i: nat, st: State, cur: string, toks: seq<Token>, a: nat, b: nat)
    requires DotRun(prog, a, b)
    requires i <= a || (a < i <= b && st.InNumeric? && '.' in cur)
    ensures Consume(prog, i, st, cur, toks).Err?
    decreases |prog| - i, if st.Unidentified? then 0 else 1
  {
    var c := prog[i];
    match st
    case Unidentified =>
      if IsNumericStart(c) { ConsumeFailsOnDotRun(prog, i + 1, InNumeric, [c], toks, a, b); }
      else if IsIdentStart(c) { ConsumeFailsOnDotRun(prog, i + 1, InIdentifier, [c], toks, a, b); }
      else if IsSpace(c) { ConsumeFailsOnDotRun(prog, i + 1, InWhitespace, [c], toks, a, b); }
      else if IsDelimiter(c) { ConsumeFailsOnDotRun(prog, i + 1, Unidentified, [], toks + [Token(Delimiter, [c])], a, b); }
      else if IsOperator(c) { ConsumeFailsOnDotRun(prog, i + 1, Unidentified, [], toks + [Token(Operator, [c])], a, b); }
    case InNumeric =>
      if IsDigit(c) || (c == '.' && '.' !in cur) {
        assert c == '.' ==> c in cur + [c];
        assert '.' in cur ==> '.' in cur + [c];
        ConsumeFailsOnDotRun(prog, i + 1, InNumeric, cur + [c], toks, a, b);
      } else if c != '.' {
        ConsumeFailsOnDotRun(prog, i, Unidentified, [], toks + [Pending(st, cur)], a, b);
      }
    case InIdentifier =>
      if IsIdentContinue(c) { ConsumeFailsOnDotRun(prog, i + 1, InIdentifier, cur + [c], toks, a, b); }
      else { ConsumeFailsOnDotRun(prog, i, Unidentified, [], toks + [Pending(st, cur)], a, b); }
    case InWhitespace =>
      if IsSpace(c) { ConsumeFailsOnDotRun(prog, i + 1, InWhitespace, cur + [c], toks, a, b); }
      else { ConsumeFailsOnDotRun(prog, i, Unidentified, [], toks + [Pending(st, cur)], a, b); }
  }

  /** A run of digits and dots holding two dots is rejected, whatever
      precedes it: a numeric accepts at most one '.'. */
  lemma LexRejectsDotRun(prog: string, a: nat, b: nat)
    requires DotRun(prog, a, b)
    ensures Lex(prog) == Err(InvalidToken)
  {
    ConsumeFailsOnDotRun(prog, 0, Unidentified, [], [], a, b);
  }

  /** The characters just before position `i` are an identifier being read:
      the run of identifier-continuation characters that ends at `i - 1`
      holds an identifier-start character. */
  predicate InIdentRun(prog: string, i: nat)
    requires i <= |prog|
    decreases i
  {
    i > 0 && IsIdentContinue(prog[i - 1]) && (IsIdentStart(prog[i - 1]) || InIdentRun(prog, i - 1))
  }

  /** A character that only an identifier accepts, and only after its first
      character: `[ \ ] ^` and the backquote. */
  predicate IsContinueOnly(c: char) {
    IsIdentContinue(c) && !IsStartChar(c)
  }

  /** A scan that is not inside an identifier reaches a continuation-only
      character that no identifier run leads up to, and fails. */
  lemma {:induction false} ConsumeFailsOnStray(prog: string, i: nat, st: State, cur: string, toks: seq<Token>, k: nat)
    requires i <= k < |prog| && !IsStartChar(prog[k]) && !InIdentRun(prog, k)
    requires st.InIdentifier? ==> InIdentRun(prog, i)
    ensures Consume(prog, i, st, cur, toks).Err?
    decreases |prog| - i, if st.Unidentified? then 0 else 1
  {
    var c := prog[i];
    match st
    case Unidentified =>
      if IsNumericStart(c) { ConsumeFailsOnStray(prog, i + 1, InNumeric, [c], toks, k); }
      else if IsIdentStart(c) { ConsumeFailsOnStray(prog, i + 1, InIdentifier, [c], toks, k); }
      else if IsSpace(c) { ConsumeFailsOnStray(prog, i + 1, InWhitespace, [c], toks, k); }
      else if IsDelimiter(c) { ConsumeFailsOnStray(prog, i + 1, Unidentified, [], toks + [Token(Delimiter, [c])], k); }
      else if IsOperator(c) { ConsumeFailsOnStray(prog, i + 1, Unidentified, [], toks + [Token(Operator, [c])], k); }
    case InNumeric =>
      if IsDigit(c) || (c == '.' && '.' !in cur) { ConsumeFailsOnStray(prog, i + 1, InNumeric, cur + [c], toks, k); }
      else if c != '.' { ConsumeFailsOnStray(prog, i, Unidentified, [], toks + [Pending(st, cur)], k); }
    case InIdentifier =>
      if IsIdentContinue(c) { ConsumeFailsOnStray(prog, i + 1, InIdentifier, cur + [c], toks, k); }
      else { ConsumeFailsOnStray(prog, i, Unidentified, [], toks + [Pending(st, cur)], k); }
    case InWhitespace =>
      if IsSpace(c) { ConsumeFailsOnStray(prog, i + 1, InWhitespace, cur + [c], toks, k); }
      else { ConsumeFailsOnStray(prog, i, Unidentified, [], toks + [Pending(st, cur)], k); }
  }

  /** A character that cannot start a token, where no identifier is being
      read, is rejected: `[` alone, or `1[`, fails although `a[` lexes. */
  lemma LexRejectsStray(prog: string, k: nat)
    requires k < |prog| && !IsStartChar(prog[k]) && !InIdentRun(prog, k)
    ensures Lex(prog) == Err(InvalidToken)
  {
    ConsumeFailsOnStray(prog, 0, Unidentified, [], [], k);
  }

  /** Every character can start a token or continues an identifier being
      read, and no run of digits and dots holds two dots. */
  predicate Tokenizable(prog: string) {
    && (forall k :: 0 <= k < |prog| ==> IsStartChar(prog[k]) || (IsIdentContinue(prog[k]) && InIdentRun(prog, k)))
    && (forall a, b :: 0 <= a < b < |prog| ==> !DotRun(prog, a, b))
  }

  /** Outside an identifier, a continuation character is not preceded by an
      identifier run. */
  predicate NoRunAhead(prog: string, i: nat, st: State)
    requires i <= |prog|
  {
    !st.InIdentifier? && i < |prog| && IsIdentContinue(prog[i]) ==> !InIdentRun(prog, i)
  }

  /** The text a numeric has read so far: the digits and dots just before
      position `i`. */
  predicate NumericSoFar(prog: string, i: nat, cur: string)
    requires i <= |prog|
  {
    |cur| <= i && cur == prog[i - |cur|..i] && (forall k :: 0 <= k < |cur| ==> IsNumericStart(cur[k]))
  }

  /** In a tokenizable input, a numeric never meets a second dot. */
  lemma NoSecondDot(prog: string, i: nat, cur: string)
    requires i < |prog| && Tokenizable(prog) && NumericSoFar(prog, i, cur) && prog[i] == '.'
    ensures '.' !in cur
  {
    if '.' in cur {
      var m :| 0 <= m < |cur| && cur[m] == '.';
      var a := i - |cur| + m;
      assert prog[a] == cur[m];
      forall k | a <= k <= i ensures IsNumericStart(prog[k]) {
        if k < i { assert prog[k] == cur[k - (i - |cur|)]; }
      }
      assert DotRun(prog, a, i);
    }
  }

  lemma {:induction false} ConsumeSucceeds(prog: string, i: nat, st: State, cur: string, toks: seq<Token>)
    requires i <= |prog| && Tokenizable(prog) && NoRunAhead(prog, i, st)
    requires st.InNumeric? ==> NumericSoFar(prog, i, cur)
    ensures Consume(prog, i, st, cur, toks).Ok?
    decreases |prog| - i, if st.Unidentified? then 0 else 1, 2
  {
    if i < |prog| {
      var c := prog[i];
      match st
      case Unidentified => ConsumeSucceedsStart(prog, i, toks);
      case InNumeric =>
        if IsDigit(c) || c == '.' {
          if c == '.' { NoSecondDot(prog, i, cur); }
          NoRunAheadStep(prog, i);
          assert prog[i + 1 - |cur + [c]|..i + 1] == prog[i - |cur|..i] + [c];
          ConsumeSucceeds(prog, i + 1, InNumeric, cur + [c], toks);
        } else {
          ConsumeSucceeds(prog, i, Unidentified, [], toks + [Pending(st, cur)]);
        }
      case InIdentifier =>
        if IsIdentContinue(c) { ConsumeSucceeds(prog, i + 1, InIdentifier, cur + [c], toks); }
        else { ConsumeSucceeds(prog, i, Unidentified, [], toks + [Pending(st, cur)]); }
      case InWhitespace =>
        if IsSpace(c) {
          NoRunAheadStep(prog, i);
          ConsumeSucceeds(prog, i + 1, InWhitespace, cur + [c], toks);
        }
        else { ConsumeSucceeds(prog, i, Unidentified, [], toks + [Pending(st, cur)]); }
    }
  }

  /** `ConsumeSucceeds` where a numeric starts. */
  lemma {:induction false} ConsumeSucceedsNumericStart(prog: string, i: nat, toks: seq<Token>)
    requires i < |prog| && Tokenizable(prog) && NoRunAhead(prog, i + 1, Unidentified)
    requires IsNumericStart(prog[i])
    ensures Consume(prog, i, Unidentified, [], toks).Ok?
    decreases |prog| - i, 0, 0
  {
    var c := prog[i];
    assert prog[i + 1 - |[c]|..i + 1] == [c];
    ConsumeSucceeds(prog, i + 1, InNumeric, [c], toks);
  }

  /** Past a character that does not start an identifier, with no identifier
      run ahead of it, there is still none. */
  lemma NoRunAheadStep(prog: string, i: nat)
    requires i < |prog| && NoRunAhead(prog, i, Unidentified) && !IsIdentStart(prog[i])
    ensures NoRunAhead(prog, i + 1, Unidentified)
  {
  }

  /** `ConsumeSucceeds` between tokens. */
  lemma {:induction false} ConsumeSucceedsStart(prog: string, i: nat, toks: seq<Token>)
    requires i < |prog| && Tokenizable(prog) && NoRunAhead(prog, i, Unidentified)
    ensures Consume(prog, i, Unidentified, [], toks).Ok?
    decreases |prog| - i, 0, 1
  {
    var c := prog[i];
    if !IsIdentStart(c) { NoRunAheadStep(prog, i); }
    if IsNumericStart(c) { ConsumeSucceedsNumericStart(prog, i, toks); }
    else if IsIdentStart(c) { ConsumeSucceeds(prog, i + 1, InIdentifier, [c], toks); }
    else if IsSpace(c) { ConsumeSucceeds(prog, i + 1, InWhitespace, [c], toks); }
    else if IsDelimiter(c) { ConsumeSucceeds(prog, i + 1, Unidentified, [], toks + [Token(Delimiter, [c])]); }
    else if IsOperator(c) { ConsumeSucceeds(prog, i + 1, Unidentified, [], toks + [Token(Operator, [c])]); }
    else { assert false; }
  }

  /** Tokenizable inputs always tokenize. */
  lemma LexAcceptsTokenizable(prog: string)
    requires Tokenizable(prog)
    ensures Lex(prog).Ok?
  {
    ConsumeSucceeds(prog, 0, Unidentified, [], []);
  }

  /** Lexing succeeds exactly on the tokenizable inputs; every other input
      holds a foreign character, a stray continuation character or a
      numeric with two dots, and fails with an invalid-token error. */
  lemma LexOkIffTokenizable(prog: string)
    ensures Lex(prog).Ok? <==> Tokenizable(prog)
    ensures Lex(prog).Err? ==> Lex(prog) == Err(InvalidToken)
  {
    if Tokenizable(prog) {
      LexAcceptsTokenizable(prog);
    } else if k :| 0 <= k < |prog| && !(IsStartChar(prog[k]) || (IsIdentContinue(prog[k]) && InIdentRun(prog, k))) {
      if IsIdentContinue(prog[k]) {
        LexRejectsStray(prog, k);
      } else {
        LexRejectsForeign(prog, k);
      }
    } else {
      var a, b :| 0 <= a < b < |prog| && DotRun(prog, a, b);
      LexRejectsDotRun(prog, a, b);
    }
  }
}

=== FILE: numbers.dfy ===
/** JavaScript numbers as the evaluator uses them: exact reals extended with
    the two infinities and NaN. Rounding and the sign of zero are not modelled. */
module Numbers {

  datatype Number = Finite(r: real) | PosInfinity | NegInfinity | NaN

  /** JavaScript truthiness of a number: 0 and NaN are falsy. */
  predicate Truthy(x: Number) {
    match x
    case Finite(r) => r != 0.0
    case NaN => false
    case _ => true
  }

  function Neg(x: Number): Number {
    match x
    case Finite(r) => Finite(-r)
    case PosInfinity => NegInfinity
    case NegInfinity => PosInfinity
    case NaN => NaN
  }

  function Add(x: Number, y: Number): (r: Number)
    ensures x.NaN? || y.NaN? ==> r == NaN
    ensures x.Finite? && y.Finite? ==> r == Finite(x.r + y.r)
  {
    match (x, y)
    case (NaN, _) => NaN
    case (_, NaN) => NaN
    case (Finite(a), Finite(b)) => Finite(a + b)
    case (PosInfinity, NegInfinity) => NaN
    case (NegInfinity, PosInfinity) => NaN
    case (PosInfinity, _) => PosInfinity
    case (NegInfinity, _) => NegInfinity
    case (_, PosInfinity) => PosInfinity
    case (_, NegInfinity) => NegInfinity
  }

  /** `x - y`, which JavaScript defines as `x + (-y)`. */
  function Sub(x: Number, y: Number): (r: Number)
    ensures x.NaN? || y.NaN? ==> r == NaN
    ensures x.Finite? && y.Finite? ==> r == Finite(x.r - y.r)
  {
    var ny := Neg(y);
    assert y.Finite? ==> ny == Finite(-y.r);
    Add(x, ny)
  }

  /** -1, 0 or 1 for a non-NaN value. */
  function Sign(x: Number): int
    requires !x.NaN?
  {
    match x
    case Finite(r) => if r < 0.0 then -1 else if r == 0.0 then 0 else 1
    case PosInfinity => 1
    case NegInfinity => -1
  }

  function InfinityOfSign(s: int): Number
    requires s == 1 || s == -1
  {
    if s == 1 then PosInfinity else NegInfinity
  }

  function Mul(x: Number, y: Number): (r: Number)
    ensures x.NaN? || y.NaN? ==> r == NaN
    ensures x.Finite? && y.Finite? ==> r == Finite(x.r * y.r)
  {
    match (x, y)
    case (NaN, _) => NaN
    case (_, NaN) => NaN
    case (Finite(_), Finite(_)) => Finite(x.r * y.r)
    case _ =>
      if Sign(x) == 0 || Sign(y) == 0 then NaN
      else InfinityOfSign(Sign(x) * Sign(y))
  }

  /** Division; a zero divisor is taken to be +0. */
  function Div(x: Number, y: Number): (r: Number)
    ensures x.NaN? || y.NaN? ==> r == NaN
    ensures x.Finite? && y.Finite? && y.r != 0.0 ==> r == Finite(x.r / y.r)
  {
    match (x, y)
    case (NaN, _) => NaN
    case (_, NaN) => NaN
    case (Finite(a), Finite(b)) =>
      if b != 0.0 then Finite(a / b)
      else if a == 0.0 then NaN
      else InfinityOfSign(Sign(x))
    case (Finite(_), _) => Finite(0.0)
    case (_, Finite(b)) =>
      if b == 0.0 then x else InfinityOfSign(Sign(x) * Sign(y))
    case _ => NaN
  }

  predicate IsDigit(c: char) {
    '0' <= c <= '9'
  }

  function DigitValue(c: char): nat
    requires IsDigit(c)
  {
    (c as int) - ('0' as int)
  }

  /** Value of a string of decimal digits, most significant first. */
  function DigitsValue(s: string): nat
    requires forall k :: 0 <= k < |s| ==> IsDigit(s[k])
  {
    if |s| == 0 then 0 else 10 * DigitsValue(s[..|s| - 1]) + DigitValue(s[|s| - 1])
  }

  function Pow10(n: nat): (p: nat)
    ensures p >= 1
  {
    if n == 0 then 1 else 10 * Pow10(n - 1)
  }

  function CountChar(s: string, c: char): nat {
    if |s| == 0 then 0 else (if s[0] == c then 1 else 0) + CountChar(s[1..], c)
  }

  /** Text made of decimal digits and at most one '.', with at least one digit:
      the strings `Number()` reads as a finite decimal among those the parser
      can hand it. */
  predicate IsDecimal(s: string) {
    && (forall k :: 0 <= k < |s| ==> IsDigit(s[k]) || s[k] == '.')
    && CountChar(s, '.') <= 1
    && (exists k :: 0 <= k < |s| && IsDigit(s[k]))
  }

  function IndexOf(s: string, c: char): (i: nat)
    ensures i <= |s|
    ensures i < |s| ==> s[i] == c
    ensures forall k :: 0 <= k < i ==> s[k] != c
  {
    if |s| == 0 then 0 else if s[0] == c then 0 else 1 + IndexOf(s[1..], c)
  }

  lemma CountCharZero(s: string, c: char)
    requires CountChar(s, c) == 0
    ensures forall k :: 0 <= k < |s| ==> s[k] != c
  {
    if |s| > 0 {
      CountCharZero(s[1..], c);
      forall k | 0 <= k < |s| ensures s[k] != c {
        if k > 0 { assert s[k] == s[1..][k - 1]; }
      }
    }
  }

  lemma CountCharSplit(s: string, c: char, i: nat)
    requires i <= |s|
    ensures CountChar(s, c) == CountChar(s[..i], c) + CountChar(s[i..], c)
  {
    if i > 0 {
      CountCharSplit(s[1..], c, i - 1);
      assert s[1..][..i - 1] == s[..i][1..];
      assert s[1..][i - 1..] == s[i..];
    }
  }

  /** The two sides of the '.' of a decimal are digit strings. */
  lemma DecimalParts(raw: string, i: nat)
    requires IsDecimal(raw) && i == IndexOf(raw, '.')
    ensures forall k :: 0 <= k < i ==> IsDigit(raw[k])
    ensures i < |raw| ==> forall k :: i + 1 <= k < |raw| ==> IsDigit(raw[k])
  {
    if i < |raw| {
      CountCharSplit(raw, '.', i);
      assert raw[i..][0] == '.';
      assert raw[i..][1..] == raw[i + 1..];
      CountCharZero(raw[i + 1..], '.');
      forall k | i + 1 <= k < |raw| ensures IsDigit(raw[k]) {
        assert raw[k] == raw[i + 1..][k - i - 1];
      }
    }
  }

  /** `Number(raw)` for the texts the parser turns into literals: a decimal
      reads as its value, anything else as NaN. */
  function NumberOf(raw: string): (x: Number)
    ensures IsDecimal(raw) <==> x.Finite?
    ensures x.Finite? ==> x.r >= 0.0
  {
    if IsDecimal(raw) then
      var i := IndexOf(raw, '.');
      var whole := raw[..i];
      var frac := if i < |raw| then raw[i + 1..] else [];
      DecimalParts(raw, i);
      Finite(DigitsValue(whole) as real + (DigitsValue(frac) as real) / (Pow10(|frac|) as real))
    else NaN
  }

  lemma {:induction false} CountCharAbsent(s: string, c: char)
    requires c !in s
    ensures CountChar(s, c) == 0
  {
    if |s| > 0 {
      assert c !in s[1..] by {
        forall k | 0 <= k < |s| - 1 ensures s[1..][k] != c { assert s[1..][k] == s[k + 1]; }
      }
      CountCharAbsent(s[1..], c);
    }
  }

  /** `a.b` with digit strings on both sides, not both empty, is a decimal
      whose only '.' sits right after `a`. */
  lemma DecimalOfParts(a: string, b: string)
    requires forall k :: 0 <= k < |a| ==> IsDigit(a[k])
    requires forall k :: 0 <= k < |b| ==> IsDigit(b[k])
    requires |a| + |b| > 0
    ensures IsDecimal(a + "." + b) && IndexOf(a + "." + b, '.') == |a|
  {
    var raw := a + "." + b;
    OneDot(a, b);
    DigitsAroundDot(a, b);
    if |a| > 0 {
      assert IsDigit(raw[0]);
    } else {
      assert IsDigit(raw[1]);
    }
    assert raw[|a|] == '.';
  }

  lemma DigitsAroundDot(a: string, b: string)
    requires forall k :: 0 <= k < |a| ==> IsDigit(a[k])
    requires forall k :: 0 <= k < |b| ==> IsDigit(b[k])
    ensures forall k :: 0 <= k < |a + "." + b| ==> IsDigit((a + "." + b)[k]) == (k != |a|)
  {
    var raw := a + "." + b;
    forall k | 0 <= k < |raw| ensures IsDigit(raw[k]) == (k != |a|) {
      if k < |a| {
        assert raw[k] == a[k];
      } else if k > |a| {
        assert raw[k] == b[k - |a| - 1];
      }
    }
  }

  lemma OneDot(a: string, b: string)
    requires forall k :: 0 <= k < |a| ==> IsDigit(a[k])
    requires forall k :: 0 <= k < |b| ==> IsDigit(b[k])
    ensures CountChar(a + "." + b, '.') == 1
  {
    var raw := a + "." + b;
    assert raw[..|a|] == a;
    assert raw[|a|..] == "." + b;
    assert ("." + b)[1..] == b;
    CountCharAbsent(a, '.');
    CountCharAbsent(b, '.');
    CountCharSplit(raw, '.', |a|);
  }

  /** `Number("a.b")` for digit strings `a` and `b`, not both empty: the whole
      part plus the fraction `b / 10^|b|`. So "2.5" reads as 2.5, ".5" as 0.5
      and "1." as 1. */
  lemma NumberOfDecimal(a: string, b: string)
    requires forall k :: 0 <= k < |a| ==> IsDigit(a[k])
    requires forall k :: 0 <= k < |b| ==> IsDigit(b[k])
    requires |a| + |b| > 0
    ensures NumberOf(a + "." + b) == Finite(DigitsValue(a) as real + (DigitsValue(b) as real) / (Pow10(|b|) as real))
  {
    var raw := a + "." + b;
    DecimalOfParts(a, b);
    assert raw[..|a|] == a;
    assert raw[|a| + 1..] == b;
  }
}

=== FILE: parser.dfy ===
/** The shorthand parser: recursive descent over a token queue. `*` and `/`
    chains recurse on their right operand; `+` and `-` fold to the left over
    those terms. The queue keeps the last consumed token as its current item:
    `ParseTerm` returns with its last operand still at the front. */
module Parser {
  import opened Errors
  import opened Numbers
  import Lexer

  type Token = Lexer.Token

  /** The expression tree. The parser builds only `Literal`, `Identifier` and
      `BinaryOp`; the evaluator also accepts `UnaryOp` and rejects `List`. */
  datatype Node =
    | Literal(raw: string, value: Number)
    | Identifier(raw: string, ref: string)
    | UnaryOp(op: string, operand: Node)
    | BinaryOp(op: string, lh: Node, rh: Node)
    | List(elements: seq<Node>)

  // ---------------------------------------------------------------- queue

  /** The loop of `advance`: shift `k` more times, remembering the last item
      shifted (`None` once the queue is empty, like `shift()` on an empty array). */
  function Shift(q: seq<Token>, k: nat, last: Option<Token>): (r: (Option<Token>, seq<Token>))
    ensures k <= |q| ==> r.1 == q[k..]
    ensures k <= |q| ==> r.0 == (if k == 0 then last else Some(q[k - 1]))
    ensures k > |q| ==> r.0.None?
  {
    if k == 0 then (last, q)
    else if |q| == 0 then Shift(q, k - 1, None)
    else Shift(q[1..], k - 1, Some(q[0]))
  }

  /** `advance(n)`: drop `n` items and return the last one dropped; fails with
      an implementation error when fewer than `n` remain. */
  function Advance(q: seq<Token>, n: nat): (r: Result<(Token, seq<Token>)>)
    ensures r.Ok? <==> 1 <= n <= |q|
    ensures r.Ok? ==> r.value == (q[n - 1], q[n..])
    ensures r.Err? ==> r.kind == Implementation
  {
    var (next, rest) := Shift(q, n, None);
    if next.None? then Err(Implementation) else Ok((next.value, rest))
  }

  // ---------------------------------------------------------------- grammar

  /** The text is `*` or `/`. */
  predicate IsMulText(s: string) {
    |s| == 1 && (s[0] == '*' || s[0] == '/')
  }

  /** The text is `+` or `-`. */
  predicate IsAddText(s: string) {
    |s| == 1 && (s[0] == '+' || s[0] == '-')
  }

  predicate IsMulOp(t: Token) {
    IsMulText(t.value)
  }

  predicate IsAddOp(t: Token) {
    IsAddText(t.value)
  }

  /** An operand: an identifier token becomes an identifier node, any other
      token a literal holding `Number` of its text. */
  function Operand(t: Token): (n: Node)
    ensures t.kind == Lexer.Identifier ==> n == Identifier(t.value, t.value)
    ensures t.kind != Lexer.Identifier ==> n.Literal? && n.raw == t.value
    ensures t.kind != Lexer.Identifier ==> (n.value.Finite? <==> IsDecimal(t.value))
  {
    if t.kind == Lexer.Identifier then Identifier(t.value, t.value)
    else Literal(t.value, NumberOf(t.value))
  }

  /** `r` is what remains of `q` after dropping some prefix. */
  predicate IsSuffix(r: seq<Token>, q: seq<Token>) {
    |r| <= |q| && r == q[|q| - |r|..]
  }

  /** `parseTerm`. Reading the current token of an empty queue is a TypeError. */
  function ParseTerm(q: seq<Token>): (r: Result<(Node, seq<Token>)>)
    ensures r.Ok? ==> IsSuffix(r.value.1, q) && |r.value.1| > 0
    decreases |q|, 1
  {
    if |q| == 0 then Err(HostTypeError)
    else
      var term := Operand(q[0]);
      var next := At(q, 1);
      if next.None? then Ok((term, q))
      else TermLoop(term, next, q)
  }

  /** The `while` loop of `parseTerm`: while the lookahead is `*` or `/`,
      drop the current token and the operator, parse the right operand as a
      whole term, and nest. The lookahead is refreshed only when the queue is
      not empty. */
  function TermLoop(term: Node, next: Option<Token>, q: seq<Token>): (r: Result<(Node, seq<Token>)>)
    ensures r.Ok? ==> IsSuffix(r.value.1, q) && (|q| > 0 ==> |r.value.1| > 0)
    ensures next.Some? && IsMulOp(next.value) && |q| < 2 ==> r.Err?
    decreases |q|, 0
  {
    if next.Some? && IsMulOp(next.value) then
      var adv :- Advance(q, 2);
      var rhs :- ParseTerm(adv.1);
      var term' := BinaryOp(next.value.value, term, rhs.0);
      var q' := rhs.1;
      if |q'| > 0 then TermLoop(term', At(q', 1), q')
      else Err(Implementation) // the stale lookahead repeats; advance(2) on an empty queue
    else Ok((term, q))
  }

  /** `parseExpression`. */
  function ParseExpression(q: seq<Token>): (r: Result<(Node, seq<Token>)>)
    ensures r.Ok? ==> IsSuffix(r.value.1, q) && |r.value.1| > 0
  {
    var first :- ParseTerm(q);
    var next := At(first.1, 1);
    if next.None? then Ok(first)
    else ExprLoop(first.0, next, first.1)
  }

  /** The `while` loop of `parseExpression`: while the lookahead is `+` or
      `-`, drop the current token and the operator, parse a term and fold it
      in on the right. */
  function ExprLoop(expr: Node, next: Option<Token>, q: seq<Token>): (r: Result<(Node, seq<Token>)>)
    ensures r.Ok? ==> IsSuffix(r.value.1, q) && (|q| > 0 ==> |r.value.1| > 0)
    ensures next.Some? && IsAddOp(next.value) && |q| < 2 ==> r.Err?
    decreases |q|
  {
    if next.Some? && IsAddOp(next.value) then
      var adv :- Advance(q, 2);
      var rhs :- ParseTerm(adv.1);
      var expr' := BinaryOp(next.value.value, expr, rhs.0);
      var q' := rhs.1;
      if |q'| > 0 then ExprLoop(expr', At(q', 1), q')
      else Err(Implementation) // the stale lookahead repeats; advance(2) on an empty queue
    else Ok((expr, q))
  }

  predicate IsOpenParen(t: Token) {
    t.kind == Lexer.Delimiter && t.value == "("
  }

  predicate IsCloseParen(t: Token) {
    t.kind == Lexer.Delimiter && t.value == ")"
  }

  /** `parseDeclaration`: dispatch on the first token. After a leading `(`
      the expression is parsed as usual (the `(` being its first operand),
      then one token is advanced over and a `)` there is rejected. */
  function ParseDeclaration(q: seq<Token>): (r: Result<Node>)
    ensures |q| == 0 ==> r == Err(HostTypeError)
    ensures |q| > 0 && !IsOpenParen(q[0]) && q[0].kind != Lexer.Numeric && q[0].kind != Lexer.Identifier ==> r == Err(Parsing)
    ensures r.Ok? ==> |q| > 0 && (IsOpenParen(q[0]) || q[0].kind == Lexer.Numeric || q[0].kind == Lexer.Identifier)
  {
    if |q| == 0 then Err(HostTypeError)
    else if IsOpenParen(q[0]) then
      var e :- ParseExpression(q);
      var adv :- Advance(e.1, 1);
      if IsCloseParen(adv.0) then Err(Parsing) else Ok(e.0)
    else if q[0].kind == Lexer.Numeric || q[0].kind == Lexer.Identifier then
      var e :- ParseExpression(q);
      Ok(e.0)
    else Err(Parsing)
  }

  /** The tokens that are not whitespace, in order. */
  function RemoveWhitespace(ts: seq<Token>): (r: seq<Token>)
    ensures forall k :: 0 <= k < |r| ==> r[k].kind != Lexer.Whitespace
    ensures r == [] <==> forall k :: 0 <= k < |ts| ==> ts[k].kind == Lexer.Whitespace
    ensures forall k :: 0 <= k < |ts| && ts[k].kind != Lexer.Whitespace && (forall j :: 0 <= j < k ==> ts[j].kind == Lexer.Whitespace)
              ==> |r| > 0 && r[0] == ts[k]
  {
    if |ts| == 0 then []
    else if ts[0].kind == Lexer.Whitespace then RemoveWhitespace(ts[1..])
    else [ts[0]] + RemoveWhitespace(ts[1..])
  }

  /** `parse`: whitespace is dropped first; nothing left gives no tree (not
      an error); otherwise the declaration is parsed. */
  function Parse(tokens: seq<Token>): (r: Result<Option<Node>>)
    ensures r == Ok(None) <==> forall k :: 0 <= k < |tokens| ==> tokens[k].kind == Lexer.Whitespace
    ensures r.Ok? && r.value.Some? ==> exists k :: 0 <= k < |tokens| && tokens[k].kind != Lexer.Whitespace
  {
    var q := RemoveWhitespace(tokens);
    if |q| == 0 then Ok(None)
    else
      var root :- ParseDeclaration(q);
      Ok(Some(root))
  }
}

=== FILE: parser_examples.dfy ===
/** Small parses, each obtained through the reference description of the
    parser. The operands are left open: any number or identifier token. */
module ParserExamples {
  import opened Errors
  import opened Numbers
  import Lexer
  import opened Parser
  import opened ParserProofs
  import opened Evaluator
  import ShorthandProofs

  function Num(s: string): Token { Lexer.Token(Lexer.Numeric, s) }
  function Name(s: string): Token { Lexer.Token(Lexer.Identifier, s) }
  function Op(s: string): Token { Lexer.Token(Lexer.Operator, s) }
  function Delim(s: string): Token { Lexer.Token(Lexer.Delimiter, s) }
  function Space(): Token { Lexer.Token(Lexer.Whitespace, " ") }

  /** A sequence without whitespace tokens passes the filter unchanged. */
  lemma {:induction false} NoWhitespaceKept(ts: seq<Token>)
    requires forall k :: 0 <= k < |ts| ==> ts[k].kind != Lexer.Whitespace
    ensures RemoveWhitespace(ts) == ts
  {
    if |ts| > 0 {
      NoWhitespaceKept(ts[1..]);
      assert [ts[0]] + ts[1..] == ts;
    }
  }

  /** Two tokens that are not whitespace, put in front of a sequence the
      filter keeps whole, are kept as well. */
  lemma KeptCons(x: Token, op: Token, rest: seq<Token>)
    requires x.kind != Lexer.Whitespace && op.kind != Lexer.Whitespace && RemoveWhitespace(rest) == rest
    ensures RemoveWhitespace([x, op] + rest) == [x, op] + rest
  {
    var q := [x, op] + rest;
    assert q[1..] == [op] + rest;
    assert q[1..][1..] == rest;
  }

  /** The alternation `x op rest`. */
  lemma SplitCons(x: Token, op: Token, rest: seq<Token>)
    requires IsArith(op) && |rest| > 0
    ensures Split([x, op] + rest).Err? <==> Split(rest).Err?
    ensures Split(rest).Ok? ==>
      Split([x, op] + rest) == Ok(([Operand(x)] + Split(rest).value.0, [op.value] + Split(rest).value.1))
  {
    var q := [x, op] + rest;
    assert q[0] == x && q[1] == op && q[2..] == rest;
  }

  /** `SplitCons`, with the alternation of `rest` and the result named. */
  lemma SplitConsTo(x: Token, op: Token, rest: seq<Token>, s: (seq<Node>, seq<string>), s': (seq<Node>, seq<string>))
    requires IsArith(op) && |rest| > 0 && Split(rest) == Ok(s)
    requires s' == ([Operand(x)] + s.0, [op.value] + s.1)
    ensures Split([x, op] + rest) == Ok(s')
  {
    SplitCons(x, op, rest);
  }

  /** An operand followed by a non-operator, or by nothing, stands alone. */
  lemma SplitStop(q: seq<Token>)
    requires |q| > 0 && (|q| == 1 || !IsArith(q[1]))
    ensures Split(q) == Ok(([Operand(q[0])], []))
  {
  }

  /** A number or identifier token, as the lexer produces them. */
  predicate Plain(t: Token) {
    (t.kind == Lexer.Numeric || t.kind == Lexer.Identifier) && !IsArith(t)
  }

  /** A lone number parses to a literal with its text and value, a lone
      identifier to an identifier whose raw text and reference are its
      text. */
  lemma LoneOperand(t: Token)
    requires Plain(t)
    ensures t.kind == Lexer.Numeric ==> Parse([t]) == Ok(Some(Literal(t.value, NumberOf(t.value))))
    ensures t.kind == Lexer.Identifier ==> Parse([t]) == Ok(Some(Identifier(t.value, t.value)))
  {
    SplitStop([t]);
    NoWhitespaceKept([t]);
    ParseOfAlternation([t]);
  }

  /** The alternation of `c - d / e`. */
  lemma SplitOfTail(c: Token, d: Token, e: Token)
    requires Plain(c) && Plain(d) && Plain(e)
    ensures Split([c, Op("-"), d, Op("/"), e]) == Ok(([Operand(c), Operand(d), Operand(e)], ["-", "/"]))
  {
    var t4 := [e];
    var t3 := [d, Op("/")] + t4;
    var t2 := [c, Op("-")] + t3;
    assert t2 == [c, Op("-"), d, Op("/"), e];
    SplitStop(t4);
    SplitCons(d, Op("/"), t4);
    assert Split(t3).value.0 == [Operand(d), Operand(e)];
    assert Split(t3).value.1 == ["/"];
    SplitCons(c, Op("-"), t3);
    var s := Split(t2).value;
    assert s.0 == [Operand(c), Operand(d), Operand(e)];
    assert s.1 == ["-", "/"];
  }

  /** The alternation of `a + b * c - d / e`. */
  lemma SplitOfPrecedence(a: Token, b: Token, c: Token, d: Token, e: Token)
    requires Plain(a) && Plain(b) && Plain(c) && Plain(d) && Plain(e)
    ensures Split([a, Op("+"), b, Op("*"), c, Op("-"), d, Op("/"), e])
         == Ok(([Operand(a), Operand(b), Operand(c), Operand(d), Operand(e)], ["+", "*", "-", "/"]))
  {
    var t2 := [c, Op("-"), d, Op("/"), e];
    var t1 := [b, Op("*")] + t2;
    var q := [a, Op("+")] + t1;
    assert q == [a, Op("+"), b, Op("*"), c, Op("-"), d, Op("/"), e];
    var s2 := ([Operand(c), Operand(d), Operand(e)], ["-", "/"]);
    var s1 := ([Operand(b)] + s2.0, ["*"] + s2.1);
    var s0 := ([Operand(a)] + s1.0, ["+"] + s1.1);
    SplitOfTail(c, d, e);
    SplitConsTo(b, Op("*"), t2, s2, s1);
    SplitConsTo(a, Op("+"), t1, s1, s0);
    assert s0.0 == [Operand(a), Operand(b), Operand(c), Operand(d), Operand(e)];
    assert s0.1 == ["+", "*", "-", "/"];
  }

  /** The tree of `a + b * c - d / e`'s alternation. */
  lemma TreeOfPrecedence(xa: Node, xb: Node, xc: Node, xd: Node, xe: Node)
    ensures Tree([xa, xb, xc, xd, xe], ["+", "*", "-", "/"])
         == BinaryOp("-", BinaryOp("+", xa, BinaryOp("*", xb, xc)), BinaryOp("/", xd, xe))
  {
    var xs := [xa, xb, xc, xd, xe];
    var ps := ["+", "*", "-", "/"];
    assert ps[..3] == ["+", "*", "-"];
    assert ps[..2] == ["+", "*"];
    assert ps[..2][..0] == [];
    assert ps[3..] == ["/"];
    assert ps[..2][1..] == ["*"];
    assert LastAdditive(ps) == 2;
    assert LastAdditive(ps[..2]) == 0;
    assert xs[..3] == [xa, xb, xc];
    assert xs[..3][..1] == [xa];
    assert xs[..3][1..] == [xb, xc];
    assert xs[3..] == [xd, xe];
    assert Tree([xa], []) == xa;
    assert RightChain([xb, xc], ["*"]) == BinaryOp("*", xb, RightChain([xc], []));
    assert RightChain([xd, xe], ["/"]) == BinaryOp("/", xd, RightChain([xe], []));
    assert Tree(xs[..3], ps[..2]) == BinaryOp("+", xa, BinaryOp("*", xb, xc));
  }

  /** `a + b * c - d / e`: multiplication binds tighter, and the additive
      operators associate to the left. */
  lemma PrecedenceAndAssociativity(a: Token, b: Token, c: Token, d: Token, e: Token)
    requires Plain(a) && Plain(b) && Plain(c) && Plain(d) && Plain(e)
    ensures Parse([a, Op("+"), b, Op("*"), c, Op("-"), d, Op("/"), e])
         == Ok(Some(BinaryOp("-", BinaryOp("+", Operand(a), BinaryOp("*", Operand(b), Operand(c))),
                              BinaryOp("/", Operand(d), Operand(e)))))
  {
    var t4 := [e];
    var t3 := [d, Op("/")] + t4;
    var t2 := [c, Op("-")] + t3;
    var t1 := [b, Op("*")] + t2;
    var q := [a, Op("+")] + t1;
    assert q == [a, Op("+"), b, Op("*"), c, Op("-"), d, Op("/"), e];
    assert RemoveWhitespace(t4) == t4;
    KeptCons(d, Op("/"), t4);
    KeptCons(c, Op("-"), t3);
    KeptCons(b, Op("*"), t2);
    KeptCons(a, Op("+"), t1);
    SplitOfPrecedence(a, b, c, d, e);
    TreeOfPrecedence(Operand(a), Operand(b), Operand(c), Operand(d), Operand(e));
    ParseOfAlternation(q);
  }

  /** The alternation of `a m1 b m2 c`, for two multiplicative operators. */
  lemma SplitOfChain(a: Token, b: Token, c: Token, m1: string, m2: string)
    requires Plain(a) && Plain(b) && Plain(c) && IsMulText(m1) && IsMulText(m2)
    ensures Split([a, Op(m1), b, Op(m2), c]) == Ok(([Operand(a), Operand(b), Operand(c)], [m1, m2]))
  {
    var t2 := [c];
    var t1 := [b, Op(m2)] + t2;
    var q := [a, Op(m1)] + t1;
    assert q == [a, Op(m1), b, Op(m2), c];
    SplitStop(t2);
    SplitCons(b, Op(m2), t2);
    SplitCons(a, Op(m1), t1);
    var s := Split(q).value;
    assert s.0 == [Operand(a), Operand(b), Operand(c)];
    assert s.1 == [m1, m2];
  }

  /** The tree of `a m1 b m2 c`'s alternation, for two multiplicative
      operators. */
  lemma TreeOfChain(xa: Node, xb: Node, xc: Node, m1: string, m2: string)
    requires IsMulText(m1) && IsMulText(m2)
    ensures Tree([xa, xb, xc], [m1, m2]) == BinaryOp(m1, xa, BinaryOp(m2, xb, xc))
  {
    var ps := [m1, m2];
    assert ps[..1] == [m1];
    assert LastAdditive(ps) == -1;
    assert RightChain([xb, xc], [m2]) == BinaryOp(m2, xb, RightChain([xc], []));
  }

  /** `a * b / c` and `a / b * c`: a multiplicative chain nests to the
      right, so the second operator binds first. */
  lemma MultiplicativeChainNestsRight(a: Token, b: Token, c: Token, m1: string, m2: string)
    requires Plain(a) && Plain(b) && Plain(c) && IsMulText(m1) && IsMulText(m2)
    ensures Parse([a, Op(m1), b, Op(m2), c])
         == Ok(Some(BinaryOp(m1, Operand(a), BinaryOp(m2, Operand(b), Operand(c)))))
  {
    var t2 := [c];
    var t1 := [b, Op(m2)] + t2;
    var q := [a, Op(m1)] + t1;
    assert q == [a, Op(m1), b, Op(m2), c];
    assert RemoveWhitespace(t2) == t2;
    KeptCons(b, Op(m2), t2);
    KeptCons(a, Op(m1), t1);
    SplitOfChain(a, b, c, m1, m2);
    TreeOfChain(Operand(a), Operand(b), Operand(c), m1, m2);
    ParseOfAlternation(q);
  }

  /** `8 / 4 * 2` is `8 / (4 * 2)`, which evaluates to 1 where the usual
      left-to-right reading gives 4. */
  lemma DivisionThenProduct(links: Links)
    ensures var t := BinaryOp("/", Operand(Num("8")), BinaryOp("*", Operand(Num("4")), Operand(Num("2"))));
      && Parse([Num("8"), Op("/"), Num("4"), Op("*"), Num("2")]) == Ok(Some(t))
      && Walk(t, links) == Ok(Finite(1.0))
  {
    MultiplicativeChainNestsRight(Num("8"), Num("4"), Num("2"), "/", "*");
    OperandOfDigit("8", 8);
    OperandOfDigit("4", 4);
    OperandOfDigit("2", 2);
    NestedQuotient("8", "4", "2", links);
  }

  /** A one-digit number token is the literal of its value. */
  lemma OperandOfDigit(t: string, v: nat)
    requires |t| == 1 && IsDigit(t[0]) && DigitValue(t[0]) == v
    ensures Operand(Num(t)) == Literal(t, Finite(v as real))
  {
    ShorthandProofs.NumberOfNumeral(t);
    assert t[..0] == [];
  }

  lemma NestedQuotient(ra: string, rb: string, rc: string, links: Links)
    ensures Walk(BinaryOp("/", Literal(ra, Finite(8.0)), BinaryOp("*", Literal(rb, Finite(4.0)), Literal(rc, Finite(2.0)))), links)
         == Ok(Finite(1.0))
  {
    assert IsArithText("/") && IsArithText("*");
    assert Walk(BinaryOp("*", Literal(rb, Finite(4.0)), Literal(rc, Finite(2.0))), links) == Ok(Finite(8.0));
  }

  /** Filtering whitespace distributes over concatenation. */
  lemma {:induction false} RemoveWhitespaceAppend(xs: seq<Token>, ys: seq<Token>)
    ensures RemoveWhitespace(xs + ys) == RemoveWhitespace(xs) + RemoveWhitespace(ys)
  {
    if |xs| > 0 {
      assert (xs + ys)[1..] == xs[1..] + ys;
      RemoveWhitespaceAppend(xs[1..], ys);
    } else {
      assert xs + ys == ys;
    }
  }

  /** A declaration consisting only of whitespace has no tree. */
  lemma BlankHasNoTree()
    ensures Parse([Space()]) == Ok(None)
    ensures Parse([]) == Ok(None)
  {
  }

  /** `a +` ends in an operator: the host's own error, not a parse error. */
  lemma TrailingOperatorIsHostError(a: Token)
    requires Plain(a)
    ensures Parse([a, Op("+")]) == Err(HostTypeError)
  {
    var q := [a, Op("+")];
    ParseIsReference(q);
    NoWhitespaceKept(q);
  }

  /** A declaration may not start with an operator: there is no unary
      minus. */
  lemma LeadingOperatorRejected(q: seq<Token>)
    requires |q| > 0 && q[0].kind == Lexer.Operator
    requires forall k :: 0 <= k < |q| ==> q[k].kind != Lexer.Whitespace
    ensures Parse(q) == Err(Parsing)
  {
    NoWhitespaceKept(q);
    assert !IsOpenParen(q[0]);
    assert ParseDeclaration(q) == Err(Parsing);
  }

  /** Reading stops at the first operand that is not followed by an
      operator; the rest is never looked at. */
  lemma TrailingTokensIgnored(a: Token, b: Token)
    requires Plain(a) && Plain(b)
    ensures Parse([a, b, Op("*")]) == Ok(Some(Operand(a)))
  {
    var q := [a, b, Op("*")];
    ParseIsReference(q);
    NoWhitespaceKept(q);
    SplitStop(q);
  }

  /** A leading `(` that is not followed by an operator is the whole
      declaration: a literal that is not a number. Whatever follows it is
      never looked at. */
  lemma OpenParenIsOperand(q: seq<Token>)
    requires |q| > 0 && IsOpenParen(q[0]) && (|q| == 1 || !IsArith(q[1]))
    requires forall k :: 0 <= k < |q| ==> q[k].kind != Lexer.Whitespace
    ensures Parse(q) == Ok(Some(Literal("(", NaN)))
  {
    SplitStop(q);
    assert !IsDecimal("(");
    NoWhitespaceKept(q);
    assert ReferenceDeclaration(q) == Ok(Operand(q[0]));
    ParseIsReference(q);
  }

  /** After a leading `(` and one operator, a `)` that ends the alternation
      is rejected. */
  lemma CloseParenRejected(q: seq<Token>)
    requires |q| >= 3 && IsOpenParen(q[0]) && IsArith(q[1]) && IsCloseParen(q[2])
    requires |q| == 3 || !IsArith(q[3])
    requires forall k :: 0 <= k < |q| ==> q[k].kind != Lexer.Whitespace
    ensures Parse(q) == Err(Parsing)
  {
    var t := q[2..];
    assert q == [q[0], q[1]] + t;
    SplitStop(t);
    SplitCons(q[0], q[1], t);
    assert |Split(q).value.1| == 1;
    assert ReferenceDeclaration(q) == Err(Parsing);
    NoWhitespaceKept(q);
    ParseIsReference(q);
  }
}

=== FILE: parser_proofs.dfy ===
/** A declarative account of what the parser builds, and the proof that the
    queue-driven recursive descent builds exactly that.

    The parser reads an alternation `operand (op operand)*`: operands sit at
    even positions, and reading stops at the first odd position that does not
    hold `+ - * /` (what follows is never examined). An operator with nothing
    after it is an error. The tree of an alternation has the LAST additive
    operator at its root, the tree of everything before it on the left, and on
    the right the multiplicative chain after it, nested to the right. */
module ParserProofs {
  import opened Errors
  import opened Numbers
  import Lexer
  import opened Parser

  predicate IsArith(t: Token) {
    IsMulOp(t) || IsAddOp(t)
  }

  /** The operator slot `k` of an alternation. */
  function OpAt(q: seq<Token>, k: nat): Token
    requires 2 * k + 1 < |q|
  {
    q[2 * k + 1]
  }

  /** The operand slot `k` of an alternation. */
  function OperandAt(q: seq<Token>, k: nat): Token
    requires 2 * k < |q|
  {
    q[2 * k]
  }

  /** The operands and operators read from `q` by the alternation. */
  function Split(q: seq<Token>): (r: Result<(seq<Node>, seq<string>)>)
    requires |q| > 0
    ensures r.Err? ==> r.kind == HostTypeError
    ensures r.Ok? ==> |r.value.0| == |r.value.1| + 1 && 2 * |r.value.1| < |q|
    ensures r.Ok? ==> r.value.0[0] == Operand(q[0])
    ensures r.Ok? ==> 2 * |r.value.1| + 1 == |q| || !IsArith(q[2 * |r.value.1| + 1])
    decreases |q|
  {
    if |q| >= 2 && IsArith(q[1]) then
      if |q| == 2 then Err(HostTypeError)
      else
        var rest :- Split(q[2..]);
        Ok(([Operand(q[0])] + rest.0, [q[1].value] + rest.1))
    else Ok(([Operand(q[0])], []))
  }

  /** The alternation takes its operands from the even positions and its
      operators, all of them `+ - * /`, from the odd positions. */
  lemma {:induction false} SplitReadsAlternation(q: seq<Token>)
    requires |q| > 0 && Split(q).Ok?
    ensures forall k :: 0 <= k < |Split(q).value.1| ==>
              IsArith(OpAt(q, k)) && Split(q).value.1[k] == OpAt(q, k).value
    ensures forall k :: 0 <= k < |Split(q).value.0| ==> Split(q).value.0[k] == Operand(OperandAt(q, k))
    decreases |q|
  {
    if |q| >= 2 && IsArith(q[1]) {
      var q2 := q[2..];
      SplitReadsAlternation(q2);
      var s := Split(q).value;
      var s2 := Split(q2).value;
      forall k | 0 < k < |s.1| ensures IsArith(OpAt(q, k)) && s.1[k] == OpAt(q, k).value {
        assert OpAt(q, k) == OpAt(q2, k - 1);
        assert s.1[k] == s2.1[k - 1];
      }
      forall k | 0 < k < |s.0| ensures s.0[k] == Operand(OperandAt(q, k)) {
        assert OperandAt(q, k) == OperandAt(q2, k - 1);
        assert s.0[k] == s2.0[k - 1];
      }
    }
  }

  /** The same alternation restricted to `*` and `/`: one term. */
  function MulSplit(q: seq<Token>): (r: Result<(seq<Node>, seq<string>)>)
    requires |q| > 0
    ensures r.Err? ==> r.kind == HostTypeError
    ensures r.Ok? ==> |r.value.0| == |r.value.1| + 1 && 2 * |r.value.1| < |q|
    ensures r.Ok? ==> r.value.0[0] == Operand(q[0])
    ensures r.Ok? ==> forall k :: 0 <= k < |r.value.1| ==> IsMulText(r.value.1[k])
    ensures r.Ok? ==> 2 * |r.value.1| + 1 == |q| || !IsMulOp(q[2 * |r.value.1| + 1])
    decreases |q|
  {
    if |q| >= 2 && IsMulOp(q[1]) then
      if |q| == 2 then Err(HostTypeError)
      else
        var rest :- MulSplit(q[2..]);
        Ok(([Operand(q[0])] + rest.0, [q[1].value] + rest.1))
    else Ok(([Operand(q[0])], []))
  }

  /** Index of the last additive operator, or -1. */
  function LastAdditive(ps: seq<string>): (k: int)
    ensures -1 <= k < |ps|
    ensures k >= 0 ==> IsAddText(ps[k])
    ensures forall j :: k < j < |ps| ==> !IsAddText(ps[j])
  {
    if |ps| == 0 then -1
    else if IsAddText(ps[|ps| - 1]) then |ps| - 1
    else LastAdditive(ps[..|ps| - 1])
  }

  /** `x0 p0 (x1 p1 (x2 ...))`: a multiplicative chain nests to the right. */
  function RightChain(xs: seq<Node>, ps: seq<string>): Node
    requires |xs| == |ps| + 1
    decreases |ps|
  {
    if |ps| == 0 then xs[0]
    else BinaryOp(ps[0], xs[0], RightChain(xs[1..], ps[1..]))
  }

  /** The tree of an alternation: the last additive operator is the root. */
  function Tree(xs: seq<Node>, ps: seq<string>): Node
    requires |xs| == |ps| + 1
    decreases |ps|
  {
    var k := LastAdditive(ps);
    if k < 0 then RightChain(xs, ps)
    else BinaryOp(ps[k], Tree(xs[..k + 1], ps[..k]), RightChain(xs[k + 1..], ps[k + 1..]))
  }

  // ------------------------------------------------------------ term level

  lemma TermLoopStops(term: Node, next: Option<Token>, q: seq<Token>)
    requires next.None? || !IsMulOp(next.value)
    ensures TermLoop(term, next, q) == Ok((term, q))
  {
  }

  /** What `parseTerm` returns on `q`, in terms of the chain `MulSplit` reads. */
  predicate TermMatches(q: seq<Token>)
    requires |q| > 0
  {
    match MulSplit(q)
    case Err(_) => ParseTerm(q) == Err(HostTypeError)
    case Ok(c) => ParseTerm(q) == Ok((RightChain(c.0, c.1), q[2 * |c.1|..]))
  }

  /** `parseTerm` reads one multiplicative chain and nests it to the right,
      leaving its last operand as the current token. */
  lemma {:induction false} ParseTermSpec(q: seq<Token>)
    requires |q| > 0
    ensures MulSplit(q).Err? ==> ParseTerm(q) == Err(HostTypeError)
    ensures MulSplit(q).Ok? ==>
      ParseTerm(q) == Ok((RightChain(MulSplit(q).value.0, MulSplit(q).value.1), q[2 * |MulSplit(q).value.1|..]))
    decreases |q|
  {
    if |q| >= 2 && IsMulOp(q[1]) {
      if |q| > 2 {
        ParseTermSpec(q[2..]);
        ParseTermStep(q);
      } else {
        assert ParseTerm(q) == TermLoop(Operand(q[0]), Some(q[1]), q);
      }
    } else {
      assert q[0..] == q;
    }
  }

  /** One turn of `parseTerm`'s loop, given what the rest of the queue
      parses to. */
  lemma ParseTermStep(q: seq<Token>)
    requires |q| > 2 && IsMulOp(q[1]) && TermMatches(q[2..])
    ensures TermMatches(q)
  {
    MulSplitStep(q);
    if MulSplit(q[2..]).Ok? {
      var c := MulSplit(q[2..]).value;
      var x := Operand(q[0]);
      var op := q[1].value;
      ParseTermChain(q, c);
      RightChainCons(x, op, c.0, c.1);
      TermMatchesOk(q, ([x] + c.0, [op] + c.1), BinaryOp(op, x, RightChain(c.0, c.1)), q[2 + 2 * |c.1|..]);
    } else {
      assert ParseTerm(q) == TermLoop(Operand(q[0]), Some(q[1]), q);
      assert Advance(q, 2) == Ok((q[1], q[2..]));
    }
  }

  lemma TermMatchesOk(q: seq<Token>, c: (seq<Node>, seq<string>), term: Node, rest: seq<Token>)
    requires |q| > 0 && |c.0| == |c.1| + 1 && 2 * |c.1| <= |q|
    requires MulSplit(q) == Ok(c) && term == RightChain(c.0, c.1) && rest == q[2 * |c.1|..]
    requires ParseTerm(q) == Ok((term, rest))
    ensures TermMatches(q)
  {
  }

  /** The loop turn when the rest of the queue is a whole chain `c`. */
  lemma ParseTermChain(q: seq<Token>, c: (seq<Node>, seq<string>))
    requires |q| > 2 && IsMulOp(q[1]) && MulSplit(q[2..]) == Ok(c)
    requires ParseTerm(q[2..]) == Ok((RightChain(c.0, c.1), q[2..][2 * |c.1|..]))
    ensures ParseTerm(q) == Ok((BinaryOp(q[1].value, Operand(q[0]), RightChain(c.0, c.1)), q[2 + 2 * |c.1|..]))
  {
    var q3 := q[2..][2 * |c.1|..];
    SliceOfSlice(q, 2, 2 * |c.1|);
    var term' := BinaryOp(q[1].value, Operand(q[0]), RightChain(c.0, c.1));
    assert Advance(q, 2) == Ok((q[1], q[2..]));
    assert TermLoop(Operand(q[0]), Some(q[1]), q) == TermLoop(term', At(q3, 1), q3);
    TermLoopStops(term', At(q3, 1), q3);
  }

  lemma RightChainCons(x: Node, op: string, xs: seq<Node>, ps: seq<string>)
    requires |xs| == |ps| + 1
    ensures RightChain([x] + xs, [op] + ps) == BinaryOp(op, x, RightChain(xs, ps))
  {
    assert ([x] + xs)[1..] == xs;
    assert ([op] + ps)[1..] == ps;
  }

  /** The alternation `c` followed by the alternation `s` that starts at
      `c`'s last operand. */
  function Join(c: (seq<Node>, seq<string>), s: (seq<Node>, seq<string>)): (seq<Node>, seq<string>)
    requires |s.0| > 0
  {
    (c.0 + s.0[1..], c.1 + s.1)
  }

  /** How `Split(q)` is made of `MulSplit(q)` and the rest. */
  predicate Decomposes(q: seq<Token>)
    requires |q| > 0
  {
    match MulSplit(q)
    case Err(_) => Split(q).Err?
    case Ok(c) =>
      var rest := Split(q[2 * |c.1|..]);
      match rest
      case Err(_) => Split(q).Err?
      case Ok(s) => Split(q) == Ok(Join(c, s))
  }

  /** An alternation is its first multiplicative chain followed by the
      alternation that starts at the chain's last operand. */
  lemma {:induction false} SplitDecompose(q: seq<Token>)
    requires |q| > 0
    ensures Decomposes(q)
    decreases |q|
  {
    if |q| >= 2 && IsMulOp(q[1]) {
      if |q| > 2 {
        SplitDecompose(q[2..]);
        SplitDecomposeStep(q);
      }
    } else {
      assert MulSplit(q) == Ok(([Operand(q[0])], []));
      assert q[0..] == q;
      if Split(q).Ok? {
        var s := Split(q).value;
        assert [Operand(q[0])] + s.0[1..] == s.0;
        assert [] + s.1 == s.1;
      }
    }
  }

  /** `MulSplit` over a `*` or `/`: the first operand, then the chain after
      the operator. */
  lemma MulSplitStep(q: seq<Token>)
    requires |q| > 2 && IsMulOp(q[1])
    ensures MulSplit(q[2..]).Err? ==> MulSplit(q).Err?
    ensures MulSplit(q[2..]).Ok? ==>
      MulSplit(q) == Ok(([Operand(q[0])] + MulSplit(q[2..]).value.0, [q[1].value] + MulSplit(q[2..]).value.1))
  {
  }

  /** Putting an operand and an operator in front commutes with `Join`. */
  lemma JoinCons(x: Node, op: string, c: (seq<Node>, seq<string>), s: (seq<Node>, seq<string>))
    requires |s.0| > 0
    ensures ([x] + Join(c, s).0, [op] + Join(c, s).1) == Join(([x] + c.0, [op] + c.1), s)
  {
    assert [x] + (c.0 + s.0[1..]) == ([x] + c.0) + s.0[1..];
    assert [op] + (c.1 + s.1) == ([op] + c.1) + s.1;
  }

  /** The decomposition carries over a leading `*` or `/`. */
  lemma SplitDecomposeStep(q: seq<Token>)
    requires |q| > 2 && IsMulOp(q[1]) && Decomposes(q[2..])
    ensures Decomposes(q)
  {
    var q2 := q[2..];
    SplitAddStep(q);
    MulSplitStep(q);
    var m2 := MulSplit(q2);
    if m2.Ok? {
      var c2 := m2.value;
      var q' := q2[2 * |c2.1|..];
      SliceOfSlice(q, 2, 2 * |c2.1|);
      assert q' == q[2 * |[q[1].value] + c2.1|..];
      if Split(q').Ok? {
        JoinCons(Operand(q[0]), q[1].value, c2, Split(q').value);
      }
    }
  }

  // ------------------------------------------------------------ tree algebra

  lemma LastAdditiveOfMulOnly(ps: seq<string>)
    requires forall k :: 0 <= k < |ps| ==> IsMulText(ps[k])
    ensures LastAdditive(ps) == -1
  {
    if |ps| > 0 {
      LastAdditiveOfMulOnly(ps[..|ps| - 1]);
    }
  }

  lemma {:induction false} LastAdditiveAppend(ps: seq<string>, op: string, qs: seq<string>)
    requires IsAddText(op)
    requires forall k :: 0 <= k < |qs| ==> IsMulText(qs[k])
    ensures LastAdditive(ps + [op] + qs) == |ps|
    decreases |qs|
  {
    var all := ps + [op] + qs;
    if |qs| == 0 {
      assert all[|all| - 1] == op;
    } else {
      var init := qs[..|qs| - 1];
      assert all[..|all| - 1] == ps + [op] + init;
      assert all[|all| - 1] == qs[|qs| - 1];
      LastAdditiveAppend(ps, op, init);
    }
  }

  lemma TreeOfMulOnly(xs: seq<Node>, ps: seq<string>)
    requires |xs| == |ps| + 1
    requires forall k :: 0 <= k < |ps| ==> IsMulText(ps[k])
    ensures Tree(xs, ps) == RightChain(xs, ps)
  {
    LastAdditiveOfMulOnly(ps);
  }

  /** Folding one more additive step onto a tree. */
  lemma TreeAppend(xs: seq<Node>, ps: seq<string>, op: string, ys: seq<Node>, qs: seq<string>)
    requires |xs| == |ps| + 1 && |ys| == |qs| + 1
    requires IsAddText(op)
    requires forall k :: 0 <= k < |qs| ==> IsMulText(qs[k])
    ensures Tree(xs + ys, ps + [op] + qs) == BinaryOp(op, Tree(xs, ps), RightChain(ys, qs))
  {
    LastAdditiveAppend(ps, op, qs);
    var all := ps + [op] + qs;
    var k := |ps|;
    assert (xs + ys)[..k + 1] == xs;
    assert all[..k] == ps;
    assert (xs + ys)[k + 1..] == ys;
    assert all[k + 1..] == qs;
  }

  // ------------------------------------------------------------ expression level

  /** The result of `parseExpression`'s loop, started on the tree of
      `(xs0, ps0)` with `q1`'s first token as the current one. */
  predicate ExprLoopMatches(xs0: seq<Node>, ps0: seq<string>, q1: seq<Token>)
    requires |xs0| == |ps0| + 1 && |q1| > 0
  {
    var got := ExprLoop(Tree(xs0, ps0), At(q1, 1), q1);
    match Split(q1)
    case Err(_) => got == Err(HostTypeError)
    case Ok(s) =>
      var j := Join((xs0, ps0), s);
      got == Ok((Tree(j.0, j.1), q1[2 * |s.1|..]))
  }

  lemma {:induction false} ExprLoopSpec(xs0: seq<Node>, ps0: seq<string>, q1: seq<Token>)
    requires |xs0| == |ps0| + 1 && |q1| > 0
    requires |q1| < 2 || !IsMulOp(q1[1])
    ensures ExprLoopMatches(xs0, ps0, q1)
    decreases |q1|
  {
    if |q1| < 2 || !IsAddOp(q1[1]) {
      var acc := Tree(xs0, ps0);
      assert ExprLoop(acc, At(q1, 1), q1) == Ok((acc, q1));
      assert Split(q1) == Ok(([Operand(q1[0])], []));
      assert [Operand(q1[0])][1..] == [];
      assert xs0 + [] == xs0 && ps0 + [] == ps0;
      assert Join((xs0, ps0), ([Operand(q1[0])], [])) == (xs0, ps0);
      assert q1[0..] == q1;
    } else if |q1| == 2 {
      assert Split(q1).Err?;
    } else {
      ExprLoopStep(xs0, ps0, q1);
    }
  }

  /** One turn of `parseExpression`'s loop. */
  lemma ExprLoopUnfold(acc: Node, q: seq<Token>)
    requires |q| > 2 && IsAddOp(q[1])
    ensures ParseTerm(q[2..]).Err? ==> ExprLoop(acc, At(q, 1), q) == Err(ParseTerm(q[2..]).kind)
    ensures ParseTerm(q[2..]).Ok? ==>
      var rhs := ParseTerm(q[2..]).value;
      ExprLoop(acc, At(q, 1), q) == ExprLoop(BinaryOp(q[1].value, acc, rhs.0), At(rhs.1, 1), rhs.1)
  {
    assert Advance(q, 2) == Ok((q[1], q[2..]));
  }

  lemma {:induction false} ExprLoopStep(xs0: seq<Node>, ps0: seq<string>, q1: seq<Token>)
    requires |xs0| == |ps0| + 1 && |q1| > 2
    requires IsAddOp(q1[1])
    ensures ExprLoopMatches(xs0, ps0, q1)
    decreases |q1|, 1
  {
    var q2 := q1[2..];
    ParseTermSpec(q2);
    SplitDecompose(q2);
    SplitAddStep(q1);
    ExprLoopUnfold(Tree(xs0, ps0), q1);
    if MulSplit(q2).Ok? {
      ExprLoopStepChain(xs0, ps0, q1);
    }
  }

  /** `Split` over an operator: the first operand, then the
      alternation after the operator. */
  lemma SplitAddStep(q1: seq<Token>)
    requires |q1| > 2 && IsArith(q1[1])
    ensures Split(q1[2..]).Err? ==> Split(q1).Err?
    ensures Split(q1[2..]).Ok? ==>
      Split(q1) == Ok(([Operand(q1[0])] + Split(q1[2..]).value.0, [q1[1].value] + Split(q1[2..]).value.1))
  {
    assert IsArith(q1[1]);
  }

  lemma {:induction false} ExprLoopStepChain(xs0: seq<Node>, ps0: seq<string>, q1: seq<Token>)
    requires |xs0| == |ps0| + 1 && |q1| > 2
    requires IsAddOp(q1[1]) && MulSplit(q1[2..]).Ok?
    ensures ExprLoopMatches(xs0, ps0, q1)
    decreases |q1|, 0
  {
    var acc := Tree(xs0, ps0);
    var op := q1[1].value;
    var q2 := q1[2..];
    ParseTermSpec(q2);
    SplitDecompose(q2);
    SplitAddStep(q1);
    var c := MulSplit(q2).value;
    var q3 := q2[2 * |c.1|..];
    var rhs := RightChain(c.0, c.1);
    assert ParseTerm(q2) == Ok((rhs, q3));
    TreeAppend(xs0, ps0, op, c.0, c.1);
    var xs1 := xs0 + c.0;
    var ps1 := ps0 + [op] + c.1;
    assert BinaryOp(op, acc, rhs) == Tree(xs1, ps1);
    ExprLoopUnfold(acc, q1);
    assert ExprLoop(acc, At(q1, 1), q1) == ExprLoop(Tree(xs1, ps1), At(q3, 1), q3);
    ExprLoopSpec(xs1, ps1, q3);
    if Split(q3).Ok? {
      var s3 := Split(q3).value;
      JoinAssoc(xs0, ps0, op, Operand(q1[0]), q1, c, s3, Split(q1).value);
    }
  }

  /** The bookkeeping that ties the two splits together. */
  lemma JoinAssoc(xs0: seq<Node>, ps0: seq<string>, op: string, x: Node, q1: seq<Token>,
                  c: (seq<Node>, seq<string>), s3: (seq<Node>, seq<string>), t1: (seq<Node>, seq<string>))
    requires |s3.0| > 0 && 2 + 2 * |c.1| + 2 * |s3.1| <= |q1|
    requires t1 == ([x] + Join(c, s3).0, [op] + Join(c, s3).1)
    ensures xs0 + c.0 + s3.0[1..] == xs0 + t1.0[1..]
    ensures ps0 + [op] + c.1 + s3.1 == ps0 + t1.1
    ensures q1[2..][2 * |c.1|..][2 * |s3.1|..] == q1[2 * |t1.1|..]
  {
    assert t1.0[1..] == c.0 + s3.0[1..];
    assert t1.1 == [op] + c.1 + s3.1;
    SliceOfSlice(q1, 2, 2 * |c.1|);
    SliceOfSlice(q1, 2 + 2 * |c.1|, 2 * |s3.1|);
  }

  /** `parseExpression` is its loop, started on the first term. */
  lemma ParseExpressionUnfold(q: seq<Token>)
    ensures ParseTerm(q).Err? ==> ParseExpression(q) == Err(ParseTerm(q).kind)
    ensures ParseTerm(q).Ok? ==>
      var first := ParseTerm(q).value;
      ParseExpression(q) == ExprLoop(first.0, At(first.1, 1), first.1)
  {
  }

  /** The first term of `parseExpression` is the tree of its first
      multiplicative chain. */
  lemma ParseExpressionChain(q: seq<Token>, c: (seq<Node>, seq<string>))
    requires |q| > 0 && MulSplit(q) == Ok(c)
    ensures 2 * |c.1| < |q|
    ensures var q1 := q[2 * |c.1|..];
      ParseExpression(q) == ExprLoop(Tree(c.0, c.1), At(q1, 1), q1)
  {
    ParseTermSpec(q);
    ParseExpressionUnfold(q);
    TreeOfMulOnly(c.0, c.1);
  }

  lemma SliceOfSlice(q: seq<Token>, a: nat, b: nat)
    requires a + b <= |q|
    ensures q[a..][b..] == q[a + b..]
  {
  }

  /** `parseExpression` after its first multiplicative chain `c`: the rest of
      the alternation starts at the chain's last operand. */
  lemma ParseExpressionRest(q: seq<Token>, c: (seq<Node>, seq<string>), q1: seq<Token>)
    requires |q| > 0 && MulSplit(q) == Ok(c) && 2 * |c.1| < |q| && q1 == q[2 * |c.1|..]
    ensures Split(q1).Err? ==> Split(q).Err? && ParseExpression(q) == Err(HostTypeError)
    ensures Split(q1).Ok? ==>
      var s := Split(q1).value;
      Split(q) == Ok(Join(c, s)) &&
      ParseExpression(q) == Ok((Tree(Join(c, s).0, Join(c, s).1), q1[2 * |s.1|..]))
  {
    SplitDecompose(q);
    ParseExpressionChain(q, c);
    assert |q1| < 2 || q1[1] == q[2 * |c.1| + 1];
    ExprLoopSpec(c.0, c.1, q1);
  }

  /** A first chain that ends on an operator fails the whole expression. */
  lemma ParseExpressionChainFails(q: seq<Token>)
    requires |q| > 0 && MulSplit(q).Err?
    ensures Split(q).Err? && ParseExpression(q) == Err(HostTypeError)
  {
    SplitDecompose(q);
    ParseTermSpec(q);
    ParseExpressionUnfold(q);
  }

  /** The tree and the position of a successful `parseExpression`, in terms
      of the whole alternation. */
  lemma ParseExpressionJoined(q: seq<Token>, c: (seq<Node>, seq<string>), q1: seq<Token>)
    requires |q| > 0 && MulSplit(q) == Ok(c) && 2 * |c.1| < |q| && q1 == q[2 * |c.1|..]
    requires Split(q1).Ok?
    ensures Split(q).Ok? &&
      ParseExpression(q) == Ok((Tree(Split(q).value.0, Split(q).value.1), q[2 * |Split(q).value.1|..]))
  {
    ParseExpressionRest(q, c, q1);
    var s := Split(q1).value;
    var j := Join(c, s);
    var rest := q1[2 * |s.1|..];
    assert |j.1| == |c.1| + |s.1|;
    SliceOfSlice(q, 2 * |c.1|, 2 * |s.1|);
    assert rest == q[2 * |j.1|..];
    SameResult(ParseExpression(q), Split(q), j, q, rest);
  }

  lemma SameResult(r: Result<(Node, seq<Token>)>, sp: Result<(seq<Node>, seq<string>)>,
                   j: (seq<Node>, seq<string>), q: seq<Token>, rest: seq<Token>)
    requires sp == Ok(j) && |j.0| == |j.1| + 1 && 2 * |j.1| <= |q|
    requires r == Ok((Tree(j.0, j.1), rest)) && rest == q[2 * |j.1|..]
    ensures r == Ok((Tree(sp.value.0, sp.value.1), q[2 * |sp.value.1|..]))
  {
  }

  /** `parseExpression` builds the tree of the alternation it reads and
      leaves the alternation's last operand as the current token. */
  lemma ParseExpressionSpec(q: seq<Token>)
    requires |q| > 0
    ensures Split(q).Err? ==> ParseExpression(q) == Err(HostTypeError)
    ensures Split(q).Ok? ==>
      ParseExpression(q) == Ok((Tree(Split(q).value.0, Split(q).value.1), q[2 * |Split(q).value.1|..]))
  {
    var m := MulSplit(q);
    if m.Err? {
      ParseExpressionChainFails(q);
    } else {
      var c := m.value;
      var q1 := q[2 * |c.1|..];
      ParseExpressionRest(q, c, q1);
      if Split(q1).Ok? {
        ParseExpressionJoined(q, c, q1);
      }
    }
  }

  // ------------------------------------------------------------ whole parser

  /** The parser's result, stated without the queue. */
  function ReferenceDeclaration(q: seq<Token>): Result<Node> {
    if |q| == 0 then Err(HostTypeError)
    else if !(IsOpenParen(q[0]) || q[0].kind == Lexer.Numeric || q[0].kind == Lexer.Identifier) then Err(Parsing)
    else
      var s :- Split(q);
      if IsOpenParen(q[0]) && IsCloseParen(q[2 * |s.1|]) then Err(Parsing)
      else Ok(Tree(s.0, s.1))
  }

  function ReferenceParse(tokens: seq<Token>): Result<Option<Node>> {
    var q := RemoveWhitespace(tokens);
    if |q| == 0 then Ok(None)
    else
      var root :- ReferenceDeclaration(q);
      Ok(Some(root))
  }

  /** `parseDeclaration` once the expression is parsed: an opening
      parenthesis fails when the token after the expression closes it. */
  lemma DeclarationFromExpression(q: seq<Token>)
    requires |q| > 0 && (IsOpenParen(q[0]) || q[0].kind == Lexer.Numeric || q[0].kind == Lexer.Identifier)
    ensures ParseExpression(q).Err? ==> ParseDeclaration(q) == Err(ParseExpression(q).kind)
    ensures ParseExpression(q).Ok? ==>
      var e := ParseExpression(q).value;
      ParseDeclaration(q) == if IsOpenParen(q[0]) && IsCloseParen(e.1[0]) then Err(Parsing) else Ok(e.0)
  {
    if ParseExpression(q).Ok? {
      var e := ParseExpression(q).value;
      assert Advance(e.1, 1) == Ok((e.1[0], e.1[1..]));
    }
  }

  /** `parseDeclaration` agrees with the reference on a non-empty queue. */
  lemma DeclarationIsReference(q: seq<Token>)
    requires |q| > 0
    ensures ParseDeclaration(q) == ReferenceDeclaration(q)
  {
    if IsOpenParen(q[0]) || q[0].kind == Lexer.Numeric || q[0].kind == Lexer.Identifier {
      ParseExpressionSpec(q);
      DeclarationFromExpression(q);
    }
  }

  /** `parse` agrees with the reference on every token sequence. */
  lemma ParseIsReference(tokens: seq<Token>)
    ensures Parse(tokens) == ReferenceParse(tokens)
  {
    var q := RemoveWhitespace(tokens);
    if |q| > 0 {
      DeclarationIsReference(q);
    }
  }

  /** A declaration that starts with a number or an identifier parses to
      the tree of its alternation. */
  lemma ParseOfAlternation(q: seq<Token>)
    requires |q| > 0 && RemoveWhitespace(q) == q
    requires q[0].kind == Lexer.Numeric || q[0].kind == Lexer.Identifier
    requires Split(q).Ok?
    ensures Parse(q) == Ok(Some(Tree(Split(q).value.0, Split(q).value.1)))
  {
    var s := Split(q).value;
    assert !IsOpenParen(q[0]);
    assert ReferenceDeclaration(q) == Ok(Tree(s.0, s.1));
    ParseIsReference(q);
  }

  /** Every odd position holds an operator, the last one included. */
  predicate EndsOnOperator(q: seq<Token>) {
    |q| % 2 == 0 && forall k :: 0 <= k < |q| / 2 ==> IsArith(OpAt(q, k))
  }

  lemma EndsOnOperatorStep(q: seq<Token>)
    requires |q| > 2
    ensures EndsOnOperator(q) <==> IsArith(q[1]) && EndsOnOperator(q[2..])
  {
    var q2 := q[2..];
    if IsArith(q[1]) && EndsOnOperator(q2) {
      forall k | 0 <= k < |q| / 2 ensures IsArith(OpAt(q, k)) {
        if k > 0 { assert OpAt(q, k) == OpAt(q2, k - 1); }
      }
    }
    if EndsOnOperator(q) {
      assert IsArith(OpAt(q, 0));
      forall k | 0 <= k < |q2| / 2 ensures IsArith(OpAt(q2, k)) {
        assert OpAt(q2, k) == OpAt(q, k + 1);
      }
    }
  }

  /** An alternation fails exactly when it ends in an operator: every odd
      position holds `+ - * /` and the last token is one of them. */
  lemma {:induction false} SplitFailsIffTrailingOperator(q: seq<Token>)
    requires |q| > 0
    ensures Split(q).Err? <==> |q| % 2 == 0 && forall k :: 0 <= k < |q| / 2 ==> IsArith(OpAt(q, k))
    decreases |q|
  {
    if |q| >= 2 && IsArith(q[1]) && |q| > 2 {
      SplitFailsIffTrailingOperator(q[2..]);
      EndsOnOperatorStep(q);
    } else if !(|q| >= 2 && IsArith(q[1])) && |q| % 2 == 0 {
      assert !IsArith(OpAt(q, 0));
    }
  }
}

=== FILE: renderer.dfy ===
/** The renderer: every block of the schedule is rendered against the
    template it names, and every exercise of a session against the declared
    exercises and the block's inputs. */
module Renderer {
  import opened Errors
  import opened Numbers
  import opened Evaluator
  import opened Shorthand

  // ------------------------------------------------------------ program

  /** A value in a program: a number written out, or a shorthand expression.
      The program format also has an `evaluated` kind, which the renderer
      does not know. */
  datatype Statement =
    | LiteralStatement(value: Number)
    | ShorthandStatement(text: string)
    | EvaluatedStatement(definition: string)

  /** A JavaScript record: its entries in insertion order, one per key. */
  type Record<T> = seq<(string, T)>

  /** An exercise of the program's `exercises` section, with its named
      properties (a starting weight, say). */
  datatype DeclaredExercise = DeclaredExercise(name: string, alias: string, properties: Record<Number>)

  /** The four statements of an explicit exercise; the RPE may be absent. */
  datatype ExplicitDefinition = ExplicitDefinition(weight: Statement, sets: Statement, reps: Statement, rpe: Option<Statement>)

  /** An exercise of a template's session, naming a declared exercise. */
  datatype TemplatedExercise =
    | Explicit(name: string, definition: ExplicitDefinition)
    | ShorthandExercise(name: string, value: string)
    | OtherExercise(name: string, kind: string)

  datatype Session = Session(name: string, exercises: seq<TemplatedExercise>)

  datatype Template = Template(name: string, sessions: seq<Session>)

  /** A named value a block hands to its template. */
  datatype Input = Input(name: string, value: Statement)

  datatype Block = Block(name: string, template: string, inputs: seq<Input>)

  /** A parsed program: the defaults' shorthand options, the declared
      exercises and templates by key, and the schedule's blocks. */
  datatype Program = Program(defaults: Config, exercises: Record<DeclaredExercise>,
                             templates: Record<Template>, blocks: seq<Block>)

  datatype RenderedExercise = RenderedExercise(name: string, alias: string, definition: Definition)

  datatype RenderedSession = RenderedSession(name: string, exercises: seq<RenderedExercise>)

  datatype RenderedBlock = RenderedBlock(name: string, sessions: seq<RenderedSession>)

  datatype RenderedProgram = RenderedProgram(blocks: seq<RenderedBlock>)

  // ------------------------------------------------------------ helpers

  /** `record[key]`: the entry of the first field with that key; absent
      (`undefined`) when there is none. */
  function Lookup<T>(rec: Record<T>, key: string): (r: Option<T>)
    ensures r.None? <==> forall i :: 0 <= i < |rec| ==> rec[i].0 != key
    ensures r.Some? ==> exists i :: 0 <= i < |rec| && rec[i] == (key, r.value)
  {
    if |rec| == 0 then None
    else if rec[0].0 == key then Some(rec[0].1)
    else
      var r := Lookup(rec[1..], key);
      assert forall i :: 0 <= i < |rec| - 1 ==> rec[1..][i] == rec[i + 1];
      r
  }

  /** `xs.map(f)` where `f` may throw: the first element that fails decides
      the error, and otherwise every element is mapped in order. */
  function MapAll<A, B>(f: A -> Result<B>, xs: seq<A>): (r: Result<seq<B>>)
    ensures r.Ok? <==> forall i :: 0 <= i < |xs| ==> f(xs[i]).Ok?
    ensures r.Ok? ==> |r.value| == |xs| && forall i :: 0 <= i < |xs| ==> r.value[i] == f(xs[i]).value
    ensures r.Err? ==> exists i :: 0 <= i < |xs| && f(xs[i]) == Err(r.kind) && forall j :: 0 <= j < i ==> f(xs[j]).Ok?
  {
    if |xs| == 0 then Ok([])
    else
      var y := f(xs[0]);
      if y.Err? then Err(y.kind)
      else
        var rest := MapAll(f, xs[1..]);
        assert forall i :: 1 <= i < |xs| ==> xs[1..][i - 1] == xs[i];
        if rest.Err? then Err(rest.kind) else Ok([y.value] + rest.value)
  }

  // ------------------------------------------------------------ statements

  /** `renderStatement`: a literal is its own value, a shorthand expression
      is resolved against the identifiers, any other kind is the
      implementation's error. */
  function RenderStatement(ids: seq<Binding>, st: Statement): (r: Result<Number>)
    ensures st.LiteralStatement? ==> r == Ok(st.value)
    ensures st.ShorthandStatement? ==> r == ResolveExpression(st.text, ids)
    ensures st.EvaluatedStatement? ==> r == Err(Implementation)
  {
    match st
    case LiteralStatement(v) => Ok(v)
    case ShorthandStatement(text) => ResolveExpression(text, ids)
    case EvaluatedStatement(_) => Err(Implementation)
  }

  // ------------------------------------------------------------ identifiers

  /** The identifier of property `j` of a declared exercise:
      `<exercise name>.<property key>`. */
  function PropertyBinding(de: DeclaredExercise, j: nat): Binding
    requires j < |de.properties|
  {
    Binding(de.name + "." + de.properties[j].0, de.properties[j].1)
  }

  /** The identifiers of one declared exercise, one per property. */
  function PropertyIdentifiers(de: DeclaredExercise): (r: seq<Binding>)
    ensures |r| == |de.properties|
    ensures forall j :: 0 <= j < |r| ==> r[j] == PropertyBinding(de, j)
  {
    seq(|de.properties|, j requires 0 <= j < |de.properties| => PropertyBinding(de, j))
  }

  /** The identifiers of every property of every declared exercise, exercise
      by exercise. */
  function ExerciseIdentifiers(exs: Record<DeclaredExercise>): seq<Binding> {
    if |exs| == 0 then [] else PropertyIdentifiers(exs[0].1) + ExerciseIdentifiers(exs[1..])
  }

  /** One block input, resolved against the exercise identifiers. */
  function RenderInput(exIds: seq<Binding>, input: Input): (r: Result<Binding>)
    ensures r.Ok? ==> r.value.name == input.name
  {
    var v :- RenderStatement(exIds, input.value);
    Ok(Binding(input.name, v))
  }

  /** The identifiers an exercise of the block sees: the exercise
      identifiers, then the block's inputs. The inputs are resolved against
      the exercise identifiers alone, so an input cannot name another. The
      first input that fails decides the error. */
  function Identifiers(p: Program, block: Block): (r: Result<seq<Binding>>)
    ensures r.Err? <==> exists k :: 0 <= k < |block.inputs| && RenderStatement(ExerciseIdentifiers(p.exercises), block.inputs[k].value).Err?
    ensures r.Err? ==> var e := ExerciseIdentifiers(p.exercises);
      exists k :: 0 <= k < |block.inputs| && RenderStatement(e, block.inputs[k].value) == Err(r.kind) &&
        forall j :: 0 <= j < k ==> RenderStatement(e, block.inputs[j].value).Ok?
    ensures r.Ok? ==> var e := ExerciseIdentifiers(p.exercises);
      |r.value| == |e| + |block.inputs| && r.value[..|e|] == e &&
      forall k :: 0 <= k < |block.inputs| ==>
        r.value[|e| + k] == Binding(block.inputs[k].name, RenderStatement(e, block.inputs[k].value).value)
  {
    var e := ExerciseIdentifiers(p.exercises);
    var inputs :- MapAll((i: Input) => RenderInput(e, i), block.inputs);
    Ok(e + inputs)
  }

  // ------------------------------------------------------------ rendering

  /** The definition of a templated exercise: an explicit one statement by
      statement (weight, sets, reps, then the RPE if there is one), a
      shorthand one through the resolver with the program's options. */
  function RenderDefinition(cfg: Config, te: TemplatedExercise, ids: seq<Binding>): (r: Result<Definition>)
    ensures te.OtherExercise? ==> r == Err(Implementation)
    ensures te.ShorthandExercise? ==> r == Resolve(cfg, te.value, ids)
    ensures te.Explicit? ==> var d := te.definition;
      && (r.Ok? <==>
            && RenderStatement(ids, d.weight).Ok? && RenderStatement(ids, d.sets).Ok? && RenderStatement(ids, d.reps).Ok?
            && (d.rpe.Some? ==> RenderStatement(ids, d.rpe.value).Ok?))
      && (r.Ok? ==>
            && r.value.weight == RenderStatement(ids, d.weight).value
            && r.value.sets == RenderStatement(ids, d.sets).value
            && r.value.reps == RenderStatement(ids, d.reps).value
            && (r.value.rpe.Some? <==> d.rpe.Some?)
            && (d.rpe.Some? ==> r.value.rpe.value == RenderStatement(ids, d.rpe.value).value))
    ensures te.Explicit? ==> var d := te.definition;
      && (RenderStatement(ids, d.weight).Err? ==> r == Err(RenderStatement(ids, d.weight).kind))
      && (RenderStatement(ids, d.weight).Ok? && RenderStatement(ids, d.sets).Err? ==> r == Err(RenderStatement(ids, d.sets).kind))
      && (RenderStatement(ids, d.weight).Ok? && RenderStatement(ids, d.sets).Ok? && RenderStatement(ids, d.reps).Err? ==>
            r == Err(RenderStatement(ids, d.reps).kind))
      && (RenderStatement(ids, d.weight).Ok? && RenderStatement(ids, d.sets).Ok? && RenderStatement(ids, d.reps).Ok?
          && d.rpe.Some? && RenderStatement(ids, d.rpe.value).Err? ==>
            r == Err(RenderStatement(ids, d.rpe.value).kind))
  {
    match te
    case Explicit(_, d) =>
      var w :- RenderStatement(ids, d.weight);
      var s :- RenderStatement(ids, d.sets);
      var n :- RenderStatement(ids, d.reps);
      if d.rpe.Some? then
        var e :- RenderStatement(ids, d.rpe.value);
        Ok(Definition(w, s, n, Some(e)))
      else Ok(Definition(w, s, n, None))
    case ShorthandExercise(_, text) => Resolve(cfg, text, ids)
    case OtherExercise(_, _) => Err(Implementation)
  }

  /** `renderExercise`: the exercise must be declared; the block's inputs are
      resolved before the definition, and the first of the two to fail
      decides the error; name and alias are the declared exercise's. */
  function RenderExercise(p: Program, block: Block, te: TemplatedExercise): (r: Result<RenderedExercise>)
    ensures Lookup(p.exercises, te.name).None? ==> r == Err(InvalidProgram)
    ensures r.Ok? ==> Lookup(p.exercises, te.name).Some? && Identifiers(p, block).Ok?
    ensures Lookup(p.exercises, te.name).Some? ==>
      (r.Ok? <==> Identifiers(p, block).Ok? && RenderDefinition(p.defaults, te, Identifiers(p, block).value).Ok?)
    ensures Lookup(p.exercises, te.name).Some? && Identifiers(p, block).Err? ==> r == Err(Identifiers(p, block).kind)
    ensures Lookup(p.exercises, te.name).Some? && Identifiers(p, block).Ok? ==>
      var d := RenderDefinition(p.defaults, te, Identifiers(p, block).value);
      d.Err? ==> r == Err(d.kind)
    ensures r.Ok? ==> var de := Lookup(p.exercises, te.name).value;
      r.value.name == de.name && r.value.alias == de.alias &&
      Ok(r.value.definition) == RenderDefinition(p.defaults, te, Identifiers(p, block).value)
  {
    var de := Lookup(p.exercises, te.name);
    if de.None? then Err(InvalidProgram)
    else
      var ids :- Identifiers(p, block);
      var definition :- RenderDefinition(p.defaults, te, ids);
      Ok(RenderedExercise(de.value.name, de.value.alias, definition))
  }

  /** `renderSession`: the session's exercises, rendered in order. */
  function RenderSession(p: Program, block: Block, s: Session): (r: Result<RenderedSession>)
    ensures r.Ok? ==> r.value.name == s.name && |r.value.exercises| == |s.exercises|
    ensures r.Ok? <==> forall i :: 0 <= i < |s.exercises| ==> RenderExercise(p, block, s.exercises[i]).Ok?
    ensures r.Ok? ==> forall i :: 0 <= i < |s.exercises| ==> r.value.exercises[i] == RenderExercise(p, block, s.exercises[i]).value
    ensures r.Err? ==>
      exists i :: 0 <= i < |s.exercises| && RenderExercise(p, block, s.exercises[i]) == Err(r.kind) &&
        forall j :: 0 <= j < i ==> RenderExercise(p, block, s.exercises[j]).Ok?
  {
    var exercises :- MapAll((te: TemplatedExercise) => RenderExercise(p, block, te), s.exercises);
    Ok(RenderedSession(s.name, exercises))
  }

  /** `renderBlock`: the block's template must be declared; its sessions are
      rendered in order. */
  function RenderBlock(p: Program, block: Block): (r: Result<RenderedBlock>)
    ensures Lookup(p.templates, block.template).None? ==> r == Err(InvalidProgram)
    ensures r.Ok? ==> Lookup(p.templates, block.template).Some?
    ensures r.Ok? ==> r.value.name == block.name
    ensures Lookup(p.templates, block.template).Some? ==> var t := Lookup(p.templates, block.template).value;
      && (r.Ok? <==> forall i :: 0 <= i < |t.sessions| ==> RenderSession(p, block, t.sessions[i]).Ok?)
      && (r.Ok? ==>
            && |r.value.sessions| == |t.sessions|
            && forall i :: 0 <= i < |t.sessions| ==> r.value.sessions[i] == RenderSession(p, block, t.sessions[i]).value)
      && (r.Err? ==>
            exists i :: 0 <= i < |t.sessions| && RenderSession(p, block, t.sessions[i]) == Err(r.kind) &&
              forall j :: 0 <= j < i ==> RenderSession(p, block, t.sessions[j]).Ok?)
  {
    var template := Lookup(p.templates, block.template);
    if template.None? then Err(InvalidProgram)
    else
      var sessions :- MapAll((s: Session) => RenderSession(p, block, s), template.value.sessions);
      Ok(RenderedBlock(block.name, sessions))
  }

  /** `render`, after the program text has been parsed: the schedule's
      blocks, rendered in order. */
  function Render(p: Program): (r: Result<RenderedProgram>)
    ensures r.Ok? <==> forall i :: 0 <= i < |p.blocks| ==> RenderBlock(p, p.blocks[i]).Ok?
    ensures r.Ok? ==> |r.value.blocks| == |p.blocks|
    ensures r.Ok? ==> forall i :: 0 <= i < |p.blocks| ==> r.value.blocks[i] == RenderBlock(p, p.blocks[i]).value
    ensures r.Ok? ==> forall i :: 0 <= i < |p.blocks| ==> r.value.blocks[i].name == p.blocks[i].name
    ensures r.Err? ==>
      exists i :: 0 <= i < |p.blocks| && RenderBlock(p, p.blocks[i]) == Err(r.kind) &&
        forall j :: 0 <= j < i ==> RenderBlock(p, p.blocks[j]).Ok?
  {
    var blocks :- MapAll((b: Block) => RenderBlock(p, b), p.blocks);
    Ok(RenderedProgram(blocks))
  }
}

=== FILE: renderer_proofs.dfy ===
/** What rendering promises beyond one call: where the identifiers come from,
    which errors an undeclared name raises, what the rendered program keeps
    of the program's structure, and how an explicit definition differs from a
    shorthand one. */
module RendererProofs {
  import opened Errors
  import opened Numbers
  import Lexer
  import Parser
  import opened Evaluator
  import EvaluateProofs
  import opened Shorthand
  import ShorthandProofs
  import opened Renderer

  // ------------------------------------------------------------ identifiers

  /** Every property of every declared exercise is an identifier. */
  lemma {:induction false} PropertyIsIdentifier(exs: Record<DeclaredExercise>, i: nat, j: nat)
    requires i < |exs| && j < |exs[i].1.properties|
    ensures PropertyBinding(exs[i].1, j) in ExerciseIdentifiers(exs)
  {
    if i == 0 {
      assert PropertyIdentifiers(exs[0].1)[j] == PropertyBinding(exs[0].1, j);
    } else {
      PropertyIsIdentifier(exs[1..], i - 1, j);
    }
  }

  /** Every exercise identifier is a property of a declared exercise, named
      after the exercise's own `name` field. */
  lemma {:induction false} IdentifierIsProperty(exs: Record<DeclaredExercise>, b: Binding)
    requires b in ExerciseIdentifiers(exs)
    ensures exists i, j :: 0 <= i < |exs| && 0 <= j < |exs[i].1.properties| && b == PropertyBinding(exs[i].1, j)
  {
    var own := PropertyIdentifiers(exs[0].1);
    if b in own {
      var j :| 0 <= j < |own| && own[j] == b;
      assert b == PropertyBinding(exs[0].1, j);
    } else {
      IdentifierIsProperty(exs[1..], b);
      var i, j :| 0 <= i < |exs[1..]| && 0 <= j < |exs[1..][i].1.properties| && b == PropertyBinding(exs[1..][i].1, j);
      assert exs[1..][i] == exs[i + 1];
    }
  }

  /** An input that takes the name of a truthy exercise property makes the
      identifiers a duplicate: the first expression evaluated with them
      fails. Here that is the weight of an explicit exercise. */
  lemma InputShadowingPropertyFails(p: Program, block: Block, te: TemplatedExercise, b: Binding, k: nat)
    requires Lookup(p.exercises, te.name).Some? && Identifiers(p, block).Ok?
    requires b in ExerciseIdentifiers(p.exercises) && Truthy(b.value)
    requires k < |block.inputs| && block.inputs[k].name == b.name
    requires te.Explicit? && te.definition.weight.ShorthandStatement?
    requires Lexer.Lex(te.definition.weight.text).Ok?
    requires Parser.Parse(Lexer.Lex(te.definition.weight.text).value).Ok?
    requires Parser.Parse(Lexer.Lex(te.definition.weight.text).value).value.Some?
    ensures RenderExercise(p, block, te) == Err(UserCode)
  {
    var e := ExerciseIdentifiers(p.exercises);
    var ids := Identifiers(p, block).value;
    var i :| 0 <= i < |e| && e[i] == b;
    assert ids[..|e|][i] == ids[i];
    assert ids[i] == b;
    assert ids[|e| + k].name == b.name;
    assert Duplicate(ids);
    var text := te.definition.weight.text;
    var ast := Parser.Parse(Lexer.Lex(text).value).value.value;
    EvaluateProofs.DuplicateFailsEvaluation(ast, ids);
    assert RenderStatement(ids, te.definition.weight) == Err(UserCode);
  }

  // ------------------------------------------------------------ definitions

  /** An explicit definition of literals is rendered as written, even with a
      weight, sets or reps of 0 or NaN, which the shorthand resolver would
      refuse; the identifiers are never consulted. */
  lemma ExplicitLiteralsAsWritten(p: Program, block: Block, name: string, w: Number, s: Number, n: Number)
    requires Lookup(p.exercises, name).Some? && Identifiers(p, block).Ok?
    ensures var te := Explicit(name, ExplicitDefinition(LiteralStatement(w), LiteralStatement(s), LiteralStatement(n), None));
      var de := Lookup(p.exercises, name).value;
      RenderExercise(p, block, te) == Ok(RenderedExercise(de.name, de.alias, Definition(w, s, n, None)))
  {
    var te := Explicit(name, ExplicitDefinition(LiteralStatement(w), LiteralStatement(s), LiteralStatement(n), None));
    assert RenderDefinition(p.defaults, te, Identifiers(p, block).value) == Ok(Definition(w, s, n, None));
  }

  /** A shorthand exercise is refused when the program's defaults disable
      shorthand, once the exercise is declared and the inputs resolve. */
  lemma DisabledShorthandRefused(p: Program, block: Block, name: string, text: string)
    requires !p.defaults.enabled
    requires Lookup(p.exercises, name).Some? && Identifiers(p, block).Ok?
    ensures RenderExercise(p, block, ShorthandExercise(name, text)) == Err(ShorthandNotAllowed)
  {
    var ids := Identifiers(p, block).value;
    assert RenderDefinition(p.defaults, ShorthandExercise(name, text), ids) == Err(ShorthandNotAllowed);
  }

  /** A rendered shorthand exercise has a weight, sets and reps that are
      neither 0 nor NaN. */
  lemma ShorthandExerciseTruthy(p: Program, block: Block, name: string, text: string)
    requires RenderExercise(p, block, ShorthandExercise(name, text)).Ok?
    ensures var d := RenderExercise(p, block, ShorthandExercise(name, text)).value.definition;
      Truthy(d.weight) && Truthy(d.sets) && Truthy(d.reps)
  {
    var ids := Identifiers(p, block).value;
    assert Ok(RenderExercise(p, block, ShorthandExercise(name, text)).value.definition) == Resolve(p.defaults, text, ids);
  }

  /** An explicit exercise of shorthand statements `w`, `s`, `n` and `e`
      renders like the shorthand exercise `w:s:n@e` whenever the latter
      resolves and `e` is not blank: the same four values, each field
      resolved on its own with the same identifiers. */
  lemma ExplicitMatchesShorthand(cfg: Config, name: string, w: string, s: string, n: string, e: string, ids: seq<Binding>)
    requires cfg.enabled && cfg.setsBeforeReps
    requires ':' !in w && ':' !in s && ':' !in n
    requires '@' !in w && '@' !in s && '@' !in n && '@' !in e
    requires Resolve(cfg, w + ":" + s + ":" + n + "@" + e, ids).Ok?
    requires !(Lexer.Lex(e).Ok? && Parser.Parse(Lexer.Lex(e).value) == Ok(None))
    ensures var d := ExplicitDefinition(ShorthandStatement(w), ShorthandStatement(s), ShorthandStatement(n), Some(ShorthandStatement(e)));
      RenderDefinition(cfg, Explicit(name, d), ids) == Resolve(cfg, w + ":" + s + ":" + n + "@" + e, ids)
  {
    ResolveOfThreeFields(cfg, w, s, n, e, ids);
    ExplicitMatchesAssemble(cfg, name, w, s, n, e, ids);
  }

  /** `w:s:n@e` goes through the chain with its three fields in order. */
  lemma ResolveOfThreeFields(cfg: Config, w: string, s: string, n: string, e: string, ids: seq<Binding>)
    requires cfg.enabled && cfg.setsBeforeReps
    requires ':' !in w && ':' !in s && ':' !in n
    requires '@' !in w && '@' !in s && '@' !in n && '@' !in e
    ensures Resolve(cfg, w + ":" + s + ":" + n + "@" + e, ids) == Assemble(Some(w), Some(s), Some(n), e, ids)
  {
    var fs := [w, s, n];
    ShorthandProofs.JoinThree(w, s, n);
    assert ShorthandProofs.NoneContains(fs, ':') && ShorthandProofs.NoneContains(fs, '@');
    ShorthandProofs.ResolveOfScheme(cfg, fs, e, ids);
  }

  /** An explicit slot of shorthand statements gives what the chain gives
      on the same texts, when the chain succeeds and the RPE is not blank. */
  lemma ExplicitMatchesAssemble(cfg: Config, name: string, w: string, s: string, n: string, e: string, ids: seq<Binding>)
    requires Assemble(Some(w), Some(s), Some(n), e, ids).Ok?
    requires !(Lexer.Lex(e).Ok? && Parser.Parse(Lexer.Lex(e).value) == Ok(None))
    ensures var d := ExplicitDefinition(ShorthandStatement(w), ShorthandStatement(s), ShorthandStatement(n), Some(ShorthandStatement(e)));
      RenderDefinition(cfg, Explicit(name, d), ids) == Assemble(Some(w), Some(s), Some(n), e, ids)
  {
    ShorthandProofs.AssembleOfParts(Some(w), Some(s), Some(n), e, ids);
    OptionalAsRequired(e, ids);
  }

  /** A non-blank RPE text that resolves has the value the same text has as
      a required field. */
  lemma OptionalAsRequired(e: string, ids: seq<Binding>)
    requires OptionalPart(e, ids).Ok?
    requires !(Lexer.Lex(e).Ok? && Parser.Parse(Lexer.Lex(e).value) == Ok(None))
    ensures OptionalPart(e, ids).value.Some?
    ensures RequiredPart(Some(e), ids) == Ok(OptionalPart(e, ids).value.value)
  {
  }

  // ------------------------------------------------------------ undeclared names

  /** A block naming a template that is not declared makes the render fail,
      with an invalid-program error when every earlier block renders. */
  lemma UndeclaredTemplateFails(p: Program, i: nat)
    requires i < |p.blocks| && Lookup(p.templates, p.blocks[i].template).None?
    ensures Render(p).Err?
    ensures (forall j :: 0 <= j < i ==> RenderBlock(p, p.blocks[j]).Ok?) ==> Render(p) == Err(InvalidProgram)
  {
    var f := (b: Block) => RenderBlock(p, b);
    assert f(p.blocks[i]) == Err(InvalidProgram);
    var r := MapAll(f, p.blocks);
    assert r.Err?;
    if forall j :: 0 <= j < i ==> RenderBlock(p, p.blocks[j]).Ok? {
      var m :| 0 <= m < |p.blocks| && f(p.blocks[m]) == Err(r.kind) && forall j :: 0 <= j < m ==> f(p.blocks[j]).Ok?;
      assert m == i;
    }
  }

  /** A session exercise naming an exercise that is not declared makes its
      block fail, with an invalid-program error when everything rendered
      before it succeeds. */
  lemma UndeclaredExerciseFails(p: Program, block: Block, si: nat, ei: nat)
    requires Lookup(p.templates, block.template).Some?
    requires si < |Lookup(p.templates, block.template).value.sessions|
    requires ei < |Lookup(p.templates, block.template).value.sessions[si].exercises|
    requires Lookup(p.exercises, Lookup(p.templates, block.template).value.sessions[si].exercises[ei].name).None?
    ensures RenderBlock(p, block).Err?
    ensures var sessions := Lookup(p.templates, block.template).value.sessions;
      (forall j :: 0 <= j < si ==> RenderSession(p, block, sessions[j]).Ok?) &&
      (forall k :: 0 <= k < ei ==> RenderExercise(p, block, sessions[si].exercises[k]).Ok?)
      ==> RenderBlock(p, block) == Err(InvalidProgram)
  {
    var sessions := Lookup(p.templates, block.template).value.sessions;
    var s := sessions[si];
    UndeclaredExerciseFailsSession(p, block, s, ei);
    var r := RenderBlock(p, block);
    assert r.Err?;
    if (forall j :: 0 <= j < si ==> RenderSession(p, block, sessions[j]).Ok?) &&
       (forall k :: 0 <= k < ei ==> RenderExercise(p, block, s.exercises[k]).Ok?)
    {
      var i :| 0 <= i < |sessions| && RenderSession(p, block, sessions[i]) == Err(r.kind) &&
        forall j :: 0 <= j < i ==> RenderSession(p, block, sessions[j]).Ok?;
      assert i == si;
    }
  }

  /** The same within one session. */
  lemma UndeclaredExerciseFailsSession(p: Program, block: Block, s: Session, ei: nat)
    requires ei < |s.exercises| && Lookup(p.exercises, s.exercises[ei].name).None?
    ensures RenderSession(p, block, s).Err?
    ensures (forall k :: 0 <= k < ei ==> RenderExercise(p, block, s.exercises[k]).Ok?) ==>
      RenderSession(p, block, s) == Err(InvalidProgram)
  {
    assert RenderExercise(p, block, s.exercises[ei]) == Err(InvalidProgram);
    var rs := RenderSession(p, block, s);
    assert rs.Err?;
    if forall k :: 0 <= k < ei ==> RenderExercise(p, block, s.exercises[k]).Ok? {
      var m :| 0 <= m < |s.exercises| && RenderExercise(p, block, s.exercises[m]) == Err(rs.kind) &&
        forall k :: 0 <= k < m ==> RenderExercise(p, block, s.exercises[k]).Ok?;
      assert m == ei;
    }
  }

  // ------------------------------------------------------------ structure

  /** A rendered program keeps the structure of the program: block `i` has
      the sessions of its template in order, and each rendered exercise
      carries the name and alias of the exercise it declares. */
  lemma RenderedStructure(p: Program, i: nat, j: nat, k: nat)
    requires Render(p).Ok? && i < |p.blocks|
    requires Lookup(p.templates, p.blocks[i].template).Some?
    requires j < |Lookup(p.templates, p.blocks[i].template).value.sessions|
    requires k < |Lookup(p.templates, p.blocks[i].template).value.sessions[j].exercises|
    ensures var block := Render(p).value.blocks[i];
      var session := Lookup(p.templates, p.blocks[i].template).value.sessions[j];
      var de := Lookup(p.exercises, session.exercises[k].name);
      j < |block.sessions| && block.sessions[j].name == session.name &&
      k < |block.sessions[j].exercises| && de.Some? &&
      block.sessions[j].exercises[k].name == de.value.name &&
      block.sessions[j].exercises[k].alias == de.value.alias
  {
    var b := p.blocks[i];
    var fb := (x: Block) => RenderBlock(p, x);
    var rb := Render(p).value.blocks[i];
    assert rb == fb(b).value;
    var sessions := Lookup(p.templates, b.template).value.sessions;
    var fs := (x: Session) => RenderSession(p, b, x);
    assert fb(b) == Ok(RenderedBlock(b.name, MapAll(fs, sessions).value));
    var rs := rb.sessions[j];
    assert rs == fs(sessions[j]).value;
    var session := sessions[j];
    var fe := (x: TemplatedExercise) => RenderExercise(p, b, x);
    assert fs(session) == Ok(RenderedSession(session.name, MapAll(fe, session.exercises).value));
    assert rs.exercises[k] == fe(session.exercises[k]).value;
  }
}

=== FILE: shorthand.dfy ===
/** The shorthand resolver: `weight:sets:reps@rpe` is cut into its fields,
    and each field goes through the lexer, the parser and the evaluator with
    the same identifiers. */
module Shorthand {
  import opened Errors
  import opened Numbers
  import Lexer
  import Parser
  import opened Evaluator

  // ------------------------------------------------------------ splitting

  /** `s.split(c)` for a one-character separator: the pieces between the
      separators, in order; the empty string gives one empty piece. */
  function SplitOn(s: string, c: char): (r: seq<string>)
    ensures |r| == CountChar(s, c) + 1
    ensures forall k :: 0 <= k < |r| ==> c !in r[k]
  {
    if |s| == 0 then [""]
    else
      var rest := SplitOn(s[1..], c);
      if s[0] == c then [""] + rest
      else [[s[0]] + rest[0]] + rest[1..]
  }

  /** The pieces put back together with the separator between them. */
  function JoinWith(parts: seq<string>, c: char): string
    requires |parts| > 0
  {
    if |parts| == 1 then parts[0] else parts[0] + [c] + JoinWith(parts[1..], c)
  }

  // ------------------------------------------------------------ resolving

  /** The shorthand options of the program's defaults that the resolver
      reads. */
  datatype Config = Config(enabled: bool, setsBeforeReps: bool)

  /** A resolved exercise definition; `rpe` is absent when no RPE was
      given. */
  datatype Definition = Definition(weight: Number, sets: Number, reps: Number, rpe: Option<Number>)

  /** One required field (`weight`, `sets` or `reps`): a missing field makes
      the lexer read the length of `undefined`; a field with no tokens but
      whitespace is an incomplete expression; the lexer's and the parser's
      errors pass through unchanged. */
  function RequiredPart(text: Option<string>, ids: seq<Binding>): (r: Result<Number>)
    ensures text.None? ==> r == Err(HostTypeError)
    ensures text.Some? && Lexer.Lex(text.value).Err? ==> r == Err(InvalidToken)
    ensures text.Some? && Lexer.Lex(text.value).Ok? && Parser.Parse(Lexer.Lex(text.value).value).Err? ==>
      r == Err(Parser.Parse(Lexer.Lex(text.value).value).kind)
    ensures text.Some? && Lexer.Lex(text.value).Ok? && Parser.Parse(Lexer.Lex(text.value).value) == Ok(None) ==>
      r == Err(UserCode)
  {
    match text
    case None => Err(HostTypeError)
    case Some(t) =>
      var tokens :- Lexer.Lex(t);
      var ast :- Parser.Parse(tokens);
      if ast.None? then Err(UserCode) else Evaluate(ast.value, ids)
  }

  /** The optional RPE field: with no tokens but whitespace there is no
      value, and that is not an error. */
  function OptionalPart(text: string, ids: seq<Binding>): (r: Result<Option<Number>>)
    ensures r.Ok? && r.value.None? <==> Lexer.Lex(text).Ok? && Parser.Parse(Lexer.Lex(text).value) == Ok(None)
    ensures Lexer.Lex(text).Err? ==> r == Err(InvalidToken)
    ensures Lexer.Lex(text).Ok? && Parser.Parse(Lexer.Lex(text).value).Err? ==>
      r == Err(Parser.Parse(Lexer.Lex(text).value).kind)
  {
    var tokens :- Lexer.Lex(text);
    var ast :- Parser.Parse(tokens);
    if ast.None? then Ok(None)
    else
      var v :- Evaluate(ast.value, ids);
      Ok(Some(v))
  }

  /** The resolver chain on the three texts, in the order weight, sets,
      reps, rpe, followed by `value()`'s check that none of the three is 0 or
      NaN. The first field that fails decides the error; a 0 or NaN value
      among three that succeed is an implementation error. */
  function Assemble(weight: Option<string>, sets: Option<string>, reps: Option<string>, rpe: string,
                    ids: seq<Binding>): (r: Result<Definition>)
    ensures r.Ok? ==> Truthy(r.value.weight) && Truthy(r.value.sets) && Truthy(r.value.reps)
    ensures RequiredPart(weight, ids).Err? ==> r == Err(RequiredPart(weight, ids).kind)
    ensures RequiredPart(weight, ids).Ok? && RequiredPart(sets, ids).Err? ==> r == Err(RequiredPart(sets, ids).kind)
    ensures RequiredPart(weight, ids).Ok? && RequiredPart(sets, ids).Ok? && RequiredPart(reps, ids).Err? ==>
      r == Err(RequiredPart(reps, ids).kind)
    ensures RequiredPart(weight, ids).Ok? && RequiredPart(sets, ids).Ok? && RequiredPart(reps, ids).Ok? ==>
      && (OptionalPart(rpe, ids).Err? ==> r == Err(OptionalPart(rpe, ids).kind))
      && (OptionalPart(rpe, ids).Ok?
          && !(Truthy(RequiredPart(weight, ids).value) && Truthy(RequiredPart(sets, ids).value) && Truthy(RequiredPart(reps, ids).value))
          ==> r == Err(Implementation))
  {
    var w :- RequiredPart(weight, ids);
    var s :- RequiredPart(sets, ids);
    var n :- RequiredPart(reps, ids);
    var e :- OptionalPart(rpe, ids);
    if !Truthy(w) || !Truthy(s) || !Truthy(n) then Err(Implementation)
    else Ok(Definition(w, s, n, e))
  }

  /** The text before the first `@`. */
  function SchemeOf(prog: string): string {
    SplitOn(prog, '@')[0]
  }

  /** The text between the first and the second `@`; empty when there is no
      `@`. */
  function RpeOf(prog: string): string {
    var at := SplitOn(prog, '@');
    if |at| > 1 then at[1] else ""
  }

  /** The weight, sets and reps texts of a scheme: its first three
      `:`-separated fields, sets before reps or the other way round. */
  function FieldsOf(cfg: Config, scheme: string): (Option<string>, Option<string>, Option<string>) {
    var fields := SplitOn(scheme, ':');
    if cfg.setsBeforeReps then (At(fields, 0), At(fields, 1), At(fields, 2))
    else (At(fields, 0), At(fields, 2), At(fields, 1))
  }

  /** `resolve`: refused when shorthand is disabled; otherwise the fields of
      the scheme and the RPE text go through the resolver chain. */
  function Resolve(cfg: Config, prog: string, ids: seq<Binding>): (r: Result<Definition>)
    ensures !cfg.enabled ==> r == Err(ShorthandNotAllowed)
    ensures r.Ok? ==> Truthy(r.value.weight) && Truthy(r.value.sets) && Truthy(r.value.reps)
  {
    if !cfg.enabled then Err(ShorthandNotAllowed)
    else
      var f := FieldsOf(cfg, SchemeOf(prog));
      Assemble(f.0, f.1, f.2, RpeOf(prog), ids)
  }

  /** One shorthand expression resolved to a number, as the resolver does
      for the weight field. */
  function ResolveExpression(text: string, ids: seq<Binding>): (r: Result<Number>)
    ensures Lexer.Lex(text).Err? ==> r == Err(InvalidToken)
    ensures Lexer.Lex(text).Ok? && Parser.Parse(Lexer.Lex(text).value) == Ok(None) ==> r == Err(UserCode)
  {
    RequiredPart(Some(text), ids)
  }
}

=== FILE: shorthand_proofs.dfy ===
/** Properties of the resolver: splitting is undone by joining and the other
    way round, the resolver reads exactly the first three fields of the
    scheme and the first RPE text, the field order only swaps sets and reps,
    and numerals resolve to their values. */
module ShorthandProofs {
  import opened Errors
  import opened Numbers
  import Lexer
  import opened Parser
  import ParserProofs
  import opened Evaluator
  import opened Shorthand

  // ------------------------------------------------------------ splitting

  /** Joining the pieces of a split gives back the text. */
  lemma {:induction false} JoinOfSplit(s: string, c: char)
    ensures JoinWith(SplitOn(s, c), c) == s
  {
    if |s| > 0 {
      var rest := SplitOn(s[1..], c);
      JoinOfSplit(s[1..], c);
      var parts := SplitOn(s, c);
      if s[0] == c {
        assert parts[1..] == rest;
        assert [c] + s[1..] == s;
      } else if |rest| == 1 {
        assert [s[0]] + s[1..] == s;
      } else {
        assert parts[1..] == rest[1..];
        assert JoinWith(rest, c) == rest[0] + [c] + JoinWith(rest[1..], c);
        assert [s[0]] + s[1..] == s;
      }
    }
  }

  /** Splitting a text whose first part holds no separator. */
  lemma {:induction false} SplitOfPrefix(p: string, t: string, c: char)
    requires c !in p
    ensures SplitOn(p + t, c) == [p + SplitOn(t, c)[0]] + SplitOn(t, c)[1..]
  {
    var st := SplitOn(t, c);
    if |p| == 0 {
      assert p + t == t;
      assert p + st[0] == st[0];
      assert [st[0]] + st[1..] == st;
    } else {
      assert p[0] in p;
      SplitOfPrefix(p[1..], t, c);
      SplitOfPrefixStep(p, t, c);
    }
  }

  /** The head and the tail of a concatenation with a non-empty first part. */
  lemma TailOfConcat(p: string, t: string)
    requires |p| > 0
    ensures (p + t)[0] == p[0] && (p + t)[1..] == p[1..] + t
  {
  }

  /** Putting the head back in front of the tail. */
  lemma ConsOfTail(p: string, h: string)
    requires |p| > 0
    ensures [p[0]] + (p[1..] + h) == p + h
  {
    assert [p[0]] + p[1..] == p;
  }

  /** The step of `SplitOfPrefix`: one more character in front. */
  lemma SplitOfPrefixStep(p: string, t: string, c: char)
    requires |p| > 0 && p[0] != c
    requires SplitOn(p[1..] + t, c) == [p[1..] + SplitOn(t, c)[0]] + SplitOn(t, c)[1..]
    ensures SplitOn(p + t, c) == [p + SplitOn(t, c)[0]] + SplitOn(t, c)[1..]
  {
    var st := SplitOn(t, c);
    var u := p[1..] + t;
    TailOfConcat(p, t);
    SplitOnFirst(p + t, c);
    ConsOfTail(p, st[0]);
    PrependToFirst(p[0], p[1..], st[0], st[1..], SplitOn(u, c), SplitOn(p + t, c));
  }

  /** Splitting a text whose first character is not the separator. */
  lemma SplitOnFirst(s: string, c: char)
    requires |s| > 0 && s[0] != c
    ensures SplitOn(s, c) == [[s[0]] + SplitOn(s[1..], c)[0]] + SplitOn(s[1..], c)[1..]
  {
  }

  /** A character put in front of the first of the pieces `[a + h] + tl`. */
  lemma PrependToFirst(x: char, a: string, h: string, tl: seq<string>, r1: seq<string>, r2: seq<string>)
    requires r1 == [a + h] + tl && r2 == [[x] + r1[0]] + r1[1..]
    ensures r2 == [[x] + (a + h)] + tl
  {
    assert r1[1..] == tl;
  }

  /** Splitting the pieces joined with the separator gives back the pieces,
      when no piece holds the separator. */
  lemma {:induction false} SplitOfJoin(parts: seq<string>, c: char)
    requires |parts| > 0 && forall k :: 0 <= k < |parts| ==> c !in parts[k]
    ensures SplitOn(JoinWith(parts, c), c) == parts
  {
    if |parts| == 1 {
      SplitOfPrefix(parts[0], "", c);
      assert parts[0] + "" == parts[0];
    } else {
      var t := JoinWith(parts[1..], c);
      SplitOfJoin(parts[1..], c);
      SplitOfPrefix(parts[0], [c] + t, c);
      assert parts[0] + [c] + t == parts[0] + ([c] + t);
      assert ([c] + t)[1..] == t;
      assert parts[0] + "" == parts[0];
      assert [parts[0]] + parts[1..] == parts;
    }
  }

  /** The first piece is the text before the first separator. */
  lemma {:induction false} FirstPiece(s: string, c: char)
    ensures SplitOn(s, c)[0] == s[..IndexOf(s, c)]
  {
    if |s| > 0 && s[0] != c {
      FirstPiece(s[1..], c);
      assert [s[0]] + s[1..][..IndexOf(s[1..], c)] == s[..IndexOf(s, c)];
    }
  }

  /** A character that is neither in the pieces nor the separator is not in
      the joined text. */
  lemma {:induction false} NotInJoin(parts: seq<string>, c: char, x: char)
    requires |parts| > 0 && x != c && forall k :: 0 <= k < |parts| ==> x !in parts[k]
    ensures x !in JoinWith(parts, c)
  {
    if |parts| > 1 {
      NotInJoin(parts[1..], c, x);
    }
  }

  // ------------------------------------------------------------ resolving

  predicate NoneContains(parts: seq<string>, x: char) {
    forall k :: 0 <= k < |parts| ==> x !in parts[k]
  }

  /** The resolver chain with sets and reps taken from the configured
      positions. */
  function Ordered(cfg: Config, fs: seq<string>, rpe: string, ids: seq<Binding>): Result<Definition> {
    if cfg.setsBeforeReps then Assemble(At(fs, 0), At(fs, 1), At(fs, 2), rpe, ids)
    else Assemble(At(fs, 0), At(fs, 2), At(fs, 1), rpe, ids)
  }

  /** The scheme and the RPE text of `scheme@rpe`. */
  lemma CutAtSign(scheme: string, rpe: string)
    requires '@' !in scheme && '@' !in rpe
    ensures SchemeOf(scheme + "@" + rpe) == scheme
    ensures RpeOf(scheme + "@" + rpe) == rpe
  {
    SplitOfJoin([scheme, rpe], '@');
    assert JoinWith([scheme, rpe], '@') == scheme + "@" + rpe;
  }

  /** A second `@` ends the RPE text: what follows it is never read. */
  lemma CutSecondAtSign(scheme: string, rpe: string, rest: string)
    requires '@' !in scheme && '@' !in rpe
    ensures SchemeOf(scheme + "@" + rpe + "@" + rest) == scheme
    ensures RpeOf(scheme + "@" + rpe + "@" + rest) == rpe
  {
    var tail := "@" + rest;
    var u := rpe + tail;
    var at := SplitOn(scheme + "@" + rpe + "@" + rest, '@');
    assert SplitOn(tail, '@') == [""] + SplitOn(rest, '@') by {
      assert tail[0] == '@' && tail[1..] == rest;
    }
    SplitOfPrefix(rpe, tail, '@');
    assert SplitOn(u, '@')[0] == rpe by {
      assert rpe + "" == rpe;
    }
    assert SplitOn("@" + u, '@') == [""] + SplitOn(u, '@') by {
      assert ("@" + u)[0] == '@' && ("@" + u)[1..] == u;
    }
    assert scheme + "@" + rpe + "@" + rest == scheme + ("@" + u);
    SplitOfPrefix(scheme, "@" + u, '@');
    assert at[0] == scheme + "" == scheme;
    assert at[1] == rpe;
  }

  /** `fields@rpe@rest` resolves like `fields@rpe`. */
  lemma ResolveOfSchemeAndRest(cfg: Config, fs: seq<string>, rpe: string, rest: string, ids: seq<Binding>)
    requires cfg.enabled && |fs| > 0 && NoneContains(fs, ':') && NoneContains(fs, '@') && '@' !in rpe
    ensures Resolve(cfg, JoinWith(fs, ':') + "@" + rpe + "@" + rest, ids) == Ordered(cfg, fs, rpe, ids)
  {
    var scheme := JoinWith(fs, ':');
    NotInJoin(fs, ':', '@');
    CutSecondAtSign(scheme, rpe, rest);
    CutColons(cfg, fs);
  }

  /** The fields of a scheme joined from its fields. */
  lemma CutColons(cfg: Config, fs: seq<string>)
    requires |fs| > 0 && NoneContains(fs, ':')
    ensures FieldsOf(cfg, JoinWith(fs, ':')) ==
      if cfg.setsBeforeReps then (At(fs, 0), At(fs, 1), At(fs, 2))
      else (At(fs, 0), At(fs, 2), At(fs, 1))
  {
    SplitOfJoin(fs, ':');
  }

  /** `fields@rpe` resolves through its fields and its RPE text. */
  lemma ResolveOfScheme(cfg: Config, fs: seq<string>, rpe: string, ids: seq<Binding>)
    requires cfg.enabled && |fs| > 0 && NoneContains(fs, ':') && NoneContains(fs, '@') && '@' !in rpe
    ensures Resolve(cfg, JoinWith(fs, ':') + "@" + rpe, ids) == Ordered(cfg, fs, rpe, ids)
  {
    var scheme := JoinWith(fs, ':');
    NotInJoin(fs, ':', '@');
    CutAtSign(scheme, rpe);
    CutColons(cfg, fs);
  }

  /** Without an `@` the whole text is the scheme and there is no RPE text. */
  lemma ResolveWithoutRpe(cfg: Config, fs: seq<string>, ids: seq<Binding>)
    requires cfg.enabled && |fs| > 0 && NoneContains(fs, ':') && NoneContains(fs, '@')
    ensures Resolve(cfg, JoinWith(fs, ':'), ids) == Ordered(cfg, fs, "", ids)
  {
    var scheme := JoinWith(fs, ':');
    NotInJoin(fs, ':', '@');
    SplitOfJoin([scheme], '@');
    assert SchemeOf(scheme) == scheme && RpeOf(scheme) == "";
    CutColons(cfg, fs);
  }

  /** An empty RPE text gives no RPE, without error. */
  lemma EmptyRpeIsAbsent(ids: seq<Binding>)
    ensures OptionalPart("", ids) == Ok(None)
  {
    assert Parser.Parse([]) == Ok(None);
  }

  /** An empty required field is an incomplete expression. */
  lemma EmptyFieldIsIncomplete(ids: seq<Binding>)
    ensures RequiredPart(Some(""), ids) == Err(UserCode)
  {
    assert Parser.Parse([]) == Ok(None);
  }

  /** The chain succeeds with the values of its parts, or not at all. */
  lemma AssembleOfParts(w: Option<string>, s: Option<string>, n: Option<string>, rpe: string, ids: seq<Binding>)
    ensures Assemble(w, s, n, rpe, ids).Ok? ==>
      && RequiredPart(w, ids).Ok? && RequiredPart(s, ids).Ok? && RequiredPart(n, ids).Ok? && OptionalPart(rpe, ids).Ok?
      && Assemble(w, s, n, rpe, ids).value
         == Definition(RequiredPart(w, ids).value, RequiredPart(s, ids).value, RequiredPart(n, ids).value, OptionalPart(rpe, ids).value)
    ensures
      && RequiredPart(w, ids).Ok? && RequiredPart(s, ids).Ok? && RequiredPart(n, ids).Ok? && OptionalPart(rpe, ids).Ok?
      && Truthy(RequiredPart(w, ids).value) && Truthy(RequiredPart(s, ids).value) && Truthy(RequiredPart(n, ids).value)
      ==> Assemble(w, s, n, rpe, ids).Ok?
  {
  }

  /** A resolved definition without an `@` has no RPE. */
  lemma NoAtNoRpe(cfg: Config, fs: seq<string>, ids: seq<Binding>)
    requires cfg.enabled && |fs| > 0 && NoneContains(fs, ':') && NoneContains(fs, '@')
    requires Resolve(cfg, JoinWith(fs, ':'), ids).Ok?
    ensures Resolve(cfg, JoinWith(fs, ':'), ids).value.rpe.None?
  {
    ResolveWithoutRpe(cfg, fs, ids);
    EmptyRpeIsAbsent(ids);
    AssembleOfParts(At(fs, 0), At(fs, 1), At(fs, 2), "", ids);
    AssembleOfParts(At(fs, 0), At(fs, 2), At(fs, 1), "", ids);
  }

  /** Fields after the third are never read. */
  lemma ExtraFieldsIgnored(cfg: Config, fs: seq<string>, rpe: string, ids: seq<Binding>)
    requires cfg.enabled && |fs| >= 3 && NoneContains(fs, ':') && NoneContains(fs, '@') && '@' !in rpe
    ensures Resolve(cfg, JoinWith(fs, ':') + "@" + rpe, ids) == Resolve(cfg, JoinWith(fs[..3], ':') + "@" + rpe, ids)
  {
    var first := fs[..3];
    assert forall k :: 0 <= k < 3 ==> first[k] == fs[k];
    ResolveOfScheme(cfg, fs, rpe, ids);
    ResolveOfScheme(cfg, first, rpe, ids);
    OrderedFirstThree(cfg, fs, first, rpe, ids);
  }

  /** `Ordered` reads the first three fields only. */
  lemma OrderedFirstThree(cfg: Config, fs: seq<string>, first: seq<string>, rpe: string, ids: seq<Binding>)
    requires |fs| >= 3 && |first| == 3 && fs[0] == first[0] && fs[1] == first[1] && fs[2] == first[2]
    ensures Ordered(cfg, fs, rpe, ids) == Ordered(cfg, first, rpe, ids)
  {
    assert At(fs, 0) == At(first, 0);
    assert At(fs, 1) == At(first, 1);
    assert At(fs, 2) == At(first, 2);
  }

  /** A scheme with fewer than three fields cannot resolve. */
  lemma MissingFieldFails(cfg: Config, fs: seq<string>, rpe: string, ids: seq<Binding>)
    requires cfg.enabled && 0 < |fs| < 3 && NoneContains(fs, ':') && NoneContains(fs, '@') && '@' !in rpe
    ensures Resolve(cfg, JoinWith(fs, ':') + "@" + rpe, ids).Err?
  {
    ResolveOfScheme(cfg, fs, rpe, ids);
    OrderedMissingField(cfg, fs, rpe, ids);
  }

  lemma OrderedMissingField(cfg: Config, fs: seq<string>, rpe: string, ids: seq<Binding>)
    requires |fs| < 3
    ensures Ordered(cfg, fs, rpe, ids).Err?
  {
    var w, s, n := At(fs, 0), At(fs, 1), At(fs, 2);
    assert n == None;
    assert RequiredPart(n, ids).Err?;
    AssembleNeedsParts(w, s, n, rpe, ids);
    AssembleNeedsParts(w, n, s, rpe, ids);
  }

  /** An empty field among the three cannot resolve. */
  lemma EmptyFieldFails(cfg: Config, fs: seq<string>, rpe: string, ids: seq<Binding>, k: nat)
    requires cfg.enabled && |fs| >= 3 && NoneContains(fs, ':') && NoneContains(fs, '@') && '@' !in rpe
    requires k < 3 && fs[k] == ""
    ensures Resolve(cfg, JoinWith(fs, ':') + "@" + rpe, ids).Err?
  {
    ResolveOfScheme(cfg, fs, rpe, ids);
    OrderedEmptyField(cfg, fs, rpe, ids, k);
  }

  lemma OrderedEmptyField(cfg: Config, fs: seq<string>, rpe: string, ids: seq<Binding>, k: nat)
    requires |fs| >= 3 && k < 3 && fs[k] == ""
    ensures Ordered(cfg, fs, rpe, ids).Err?
  {
    var w, s, n := At(fs, 0), At(fs, 1), At(fs, 2);
    EmptyFieldIsIncomplete(ids);
    assert RequiredPart(w, ids).Err? || RequiredPart(s, ids).Err? || RequiredPart(n, ids).Err? by {
      if k == 0 { assert w == Some(""); }
      else if k == 1 { assert s == Some(""); }
      else { assert n == Some(""); }
    }
    AssembleNeedsParts(w, s, n, rpe, ids);
    AssembleNeedsParts(w, n, s, rpe, ids);
  }

  /** A required field that fails makes the chain fail. */
  lemma AssembleNeedsParts(w: Option<string>, s: Option<string>, n: Option<string>, rpe: string, ids: seq<Binding>)
    ensures RequiredPart(w, ids).Err? || RequiredPart(s, ids).Err? || RequiredPart(n, ids).Err? ==>
      Assemble(w, s, n, rpe, ids).Err?
  {
  }

  /** The two field orders succeed on the same texts, and then differ only
      in which of the two texts is the sets and which the reps. Where both
      fail the error can differ (`FieldOrderDecidesError`). */
  lemma FieldOrderSwaps(prog: string, ids: seq<Binding>)
    ensures Resolve(Config(true, true), prog, ids).Ok? <==> Resolve(Config(true, false), prog, ids).Ok?
    ensures Resolve(Config(true, true), prog, ids).Ok? ==>
      var a := Resolve(Config(true, true), prog, ids).value;
      var b := Resolve(Config(true, false), prog, ids).value;
      a.weight == b.weight && a.sets == b.reps && a.reps == b.sets && a.rpe == b.rpe
  {
    var fs := SplitOn(SchemeOf(prog), ':');
    var rpe := RpeOf(prog);
    assert Resolve(Config(true, true), prog, ids) == Assemble(At(fs, 0), At(fs, 1), At(fs, 2), rpe, ids);
    assert Resolve(Config(true, false), prog, ids) == Assemble(At(fs, 0), At(fs, 2), At(fs, 1), rpe, ids);
    AssembleSwap(At(fs, 0), At(fs, 1), At(fs, 2), rpe, ids);
  }

  /** Swapping the sets and reps texts swaps the two values and nothing else. */
  lemma AssembleSwap(w: Option<string>, s: Option<string>, n: Option<string>, rpe: string, ids: seq<Binding>)
    ensures Assemble(w, s, n, rpe, ids).Ok? <==> Assemble(w, n, s, rpe, ids).Ok?
    ensures Assemble(w, s, n, rpe, ids).Ok? ==>
      var a := Assemble(w, s, n, rpe, ids).value;
      var b := Assemble(w, n, s, rpe, ids).value;
      a.weight == b.weight && a.sets == b.reps && a.reps == b.sets && a.rpe == b.rpe
  {
    AssembleOfParts(w, s, n, rpe, ids);
    AssembleOfParts(w, n, s, rpe, ids);
  }

  // ------------------------------------------------------------ numerals

  predicate IsNumeral(t: string) {
    |t| > 0 && forall k :: 0 <= k < |t| ==> IsDigit(t[k])
  }

  lemma {:induction false} ConsumeDigits(t: string, i: nat)
    requires IsNumeral(t) && 1 <= i <= |t|
    ensures Lexer.Consume(t, i, Lexer.InNumeric, t[..i], []) == Ok([Lexer.Token(Lexer.Numeric, t)])
    decreases |t| - i
  {
    if i < |t| {
      assert t[..i] + [t[i]] == t[..i + 1];
      ConsumeDigits(t, i + 1);
    } else {
      assert t[..i] == t;
      assert [] + [Lexer.Token(Lexer.Numeric, t)] == [Lexer.Token(Lexer.Numeric, t)];
    }
  }

  /** A numeral is one numeric token. */
  lemma LexNumeral(t: string)
    requires IsNumeral(t)
    ensures Lexer.Lex(t) == Ok([Lexer.Token(Lexer.Numeric, t)])
  {
    assert [t[0]] == t[..1];
    ConsumeDigits(t, 1);
  }

  /** A numeral reads as its decimal value. */
  lemma NumberOfNumeral(t: string)
    requires IsNumeral(t)
    ensures NumberOf(t) == Finite(DigitsValue(t) as real)
  {
    assert IsDigit(t[0]);
    assert IsDecimal(t) by {
      if CountChar(t, '.') > 0 {
        CountCharPositive(t, '.');
      }
    }
    assert IndexOf(t, '.') == |t|;
    assert t[..|t|] == t;
  }

  lemma {:induction false} CountCharPositive(s: string, c: char)
    requires CountChar(s, c) > 0
    ensures c in s
  {
    if s[0] != c {
      CountCharPositive(s[1..], c);
    }
  }

  /** With a linkable list of identifiers, a numeral field resolves to its
      value. */
  lemma NumeralField(t: string, ids: seq<Binding>)
    requires IsNumeral(t) && Link(ids).Ok?
    ensures RequiredPart(Some(t), ids) == Ok(NumberOf(t))
    ensures OptionalPart(t, ids) == Ok(Some(NumberOf(t)))
  {
    LexNumeral(t);
    var tok := Lexer.Token(Lexer.Numeric, t);
    assert RemoveWhitespace([tok]) == [tok];
    assert ParserProofs.Split([tok]) == Ok(([Operand(tok)], []));
    ParserProofs.ParseOfAlternation([tok]);
  }

  lemma NumeralHasNoSeparator(t: string)
    requires IsNumeral(t)
    ensures ':' !in t && '@' !in t
  {
  }

  lemma JoinThree(w: string, s: string, r: string)
    ensures JoinWith([w, s, r], ':') == w + ":" + s + ":" + r
  {
    assert [w, s, r][1..] == [s, r];
    assert [s, r][1..] == [r];
    assert JoinWith([r], ':') == r;
    assert JoinWith([s, r], ':') == s + [':'] + r;
    assert JoinWith([w, s, r], ':') == w + [':'] + (s + [':'] + r);
    assert ":" == [':'];
  }

  /** `w:s:r@e` with numerals resolves to their values when none of the
      three is zero. */
  lemma ResolveNumerals(cfg: Config, w: string, s: string, r: string, e: string, ids: seq<Binding>)
    requires cfg.enabled && cfg.setsBeforeReps
    requires IsNumeral(w) && IsNumeral(s) && IsNumeral(r) && IsNumeral(e) && Link(ids).Ok?
    requires DigitsValue(w) != 0 && DigitsValue(s) != 0 && DigitsValue(r) != 0
    ensures Resolve(cfg, w + ":" + s + ":" + r + "@" + e, ids)
         == Ok(Definition(NumberOf(w), NumberOf(s), NumberOf(r), Some(NumberOf(e))))
  {
    var fs := [w, s, r];
    JoinThree(w, s, r);
    NumeralHasNoSeparator(w);
    NumeralHasNoSeparator(s);
    NumeralHasNoSeparator(r);
    NumeralHasNoSeparator(e);
    assert NoneContains(fs, ':') && NoneContains(fs, '@');
    ResolveOfScheme(cfg, fs, e, ids);
    NumeralField(w, ids);
    NumeralField(s, ids);
    NumeralField(r, ids);
    NumeralField(e, ids);
    NumberOfNumeral(w);
    NumberOfNumeral(s);
    NumberOfNumeral(r);
    AssembleOfParts(Some(w), Some(s), Some(r), e, ids);
  }

  /** The two field orders can fail differently on the same text: in
      `w:x:` with a text `x` that does not lex, sets-before-reps reads `x`
      second and fails on its token, while reps-before-sets reads the empty
      third field second and fails on the incomplete expression. */
  lemma FieldOrderDecidesError(w: string, x: string, ids: seq<Binding>)
    requires IsNumeral(w) && Link(ids).Ok?
    requires ':' !in x && '@' !in x && Lexer.Lex(x).Err?
    ensures Resolve(Config(true, true), w + ":" + x + ":", ids) == Err(InvalidToken)
    ensures Resolve(Config(true, false), w + ":" + x + ":", ids) == Err(UserCode)
  {
    var fs := [w, x, ""];
    JoinThree(w, x, "");
    assert w + ":" + x + ":" + "" == w + ":" + x + ":";
    NumeralHasNoSeparator(w);
    assert NoneContains(fs, ':') && NoneContains(fs, '@');
    ResolveWithoutRpe(Config(true, true), fs, ids);
    ResolveWithoutRpe(Config(true, false), fs, ids);
    NumeralField(w, ids);
    EmptyFieldIsIncomplete(ids);
  }
}
